=== FILE: README.md ===
# proposalWiz derivation pipeline in Dafny

proposalWiz turns the answers of a ten-step project wizard into a
proposal document. The backend runs the answers through a pipeline, and
this project models that pipeline:

1. **Input normalisation** (`WizardDataProcessingService.process`). The
   raw steps are copied into a processed record. Ids are enriched with
   names from the option tables. Step 6 becomes an ordered phase list with
   default durations. Step 10 becomes the selected standard roles and the
   named custom roles.
2. **Phase scheduling** (`GanttChartService.generateGanttData`).
   - The duration text of each phase becomes a number of business days.
   - The mobile-development phase is dropped for projects that are not
     mobile.
   - A bounded fixed-point loop dates every phase after its prerequisites,
     with Saturdays and Sundays skipped.
   - Phases it cannot resolve are marked `ERROR`.
   - The chart is sorted by start date.
3. **Cost estimation** (`CostingService.estimateCosts`). For every dated
   phase and every staffed role, effort is `quantity · fte/100 · days · 8`
   and cost is effort times the role's hourly rate. The phase costs add up
   to a subtotal, which a complexity factor scales into the total. Notes
   record every skipped phase, defaulted rate and adjustment.
4. **Template choice and composition** (`determineTechnicalSolutionTemplate`,
   `notEmpty`, `ProposalService.generateProposalDocument`). The application
   type decides whether the project is mobile and which technical-solution
   template is used. The schedule feeds the estimator. Both go into the
   rendered sections and the PDF input.

Modules, one per file:

| file | module | models |
|---|---|---|
| wrappers.dfy | Wrappers | `Option` and the `a \|\| b` fallback on strings |
| catalog.dfy | Catalog | the option tables the backend imports from the frontend, and `Array.prototype.find` |
| calendar.dfy | Calendar | `addBusinessDays` on day numbers (day 0 is 1970-01-01, a Thursday) |
| duration.dfy | Duration | both copies of `parseDurationToBusinessDays` (regular-expression search) |
| wizard_data.dfy | WizardData | `process`, step by step; step 6 is a loop |
| gantt.dfy | Gantt | `generateGanttData`: the dependency table, the pass loop, the final sort |
| costing.dfy | Costing | `estimateCosts` with its rate, multiplier and hours constants |
| templates.dfy | Templates | `determineTechnicalSolutionTemplate`, `notEmpty` |
| proposal.dfy | Proposal | `generateProposalDocument`, and an end-to-end example |

Each imperative part of the source is a `method` with loops, proved equal
to a specification function: `AdvanceBusinessDays`, `BuildPhaseList`, the
Gantt pass loop (`PlacePhase` computes `PlaceStep`, `SchedulePass` computes
`PassUpTo`, `RunPasses` computes `Passes`, `ScheduleAll` computes
`Schedule`) and the costing loops (`PhaseCosting`, `CostChart`,
`EstimateCosts`). The properties the source promises are lemmas about those
functions.

The scheduler's guarantees are gathered in `Gantt.ScheduleFacts`:

- each dated entry starts at the project start or on the business day
  after its latest prerequisite ends;
- its end is its start advanced by `max(1, d) - 1` business days;
- each working phase appears once, dated exactly when its prerequisites
  can be resolved;
- the chart is ordered by start date.

The sort is stable, so entries that start on the same day keep the order
in which the passes placed them (`Gantt.ScheduleKeepsPushOrder`).

## Model

| member | source | states |
|---|---|---|
| Catalog.FindBy | backend/src/wizard-data/wizard-data-processing.service.ts:167 | `find` yields None exactly when no element has the id; otherwise it yields the first element that has it |
| Catalog.NameOf | backend/src/wizard-data/wizard-data-processing.service.ts:251 | `find(...)?.name` is None exactly when the table lacks the id; otherwise it is the name of the first entry with that id, as `find` returns the first match |
| Catalog.NameOfOpt | backend/src/wizard-data/wizard-data-processing.service.ts:275 | a lookup of a missing id yields None; a present id is looked up as `NameOf` does |
| Catalog.FindPhase | backend/src/wizard-data/wizard-data-processing.service.ts:215-216 | the phase-catalog lookup returns the first catalog entry with the id, and None exactly when there is none |
| Catalog.StandardRoleNamesNonEmpty | frontend/src/data/resourcingOptions.ts:7-20 | every standard role in the table has a non-empty name |
| Calendar.NextBusinessDay | backend/src/gantt/gantt-chart.service.ts:12-18 | one turn of the loop that finds a weekday: the next Monday-to-Friday date after `d`, at most 3 days on, with no weekday skipped |
| Calendar.AddBusinessDays | backend/src/gantt/gantt-chart.service.ts:9-20 | `n <= 0` returns `d`; for `n >= 1` the result is later than `d`, is a weekday, and exactly `n` weekdays lie in `(d, result]` |
| Calendar.AddBusinessDaysUnique | backend/src/gantt/gantt-chart.service.ts:9-20 | any later weekday with exactly `n` weekdays in `(d, r]` is the result of `addBusinessDays(d, n)`, so the contract determines the function |
| Calendar.AdvanceBusinessDays | backend/src/gantt/gantt-chart.service.ts:9-20 | the source's while loop with its `addedDays` counter computes `AddBusinessDays(start, days)` |
| Calendar.MondayPlusNine | backend/src/gantt/gantt-chart.service.ts:145 | nine business days after a Monday is the Friday of the following week |
| Duration.DigitRunIsMaximal | backend/src/gantt/gantt-chart.service.ts:56 | `\d+` matches the longest run of digits: the run holds only digits and is followed by the end of the text or a non-digit |
| Duration.SearchRangeWeeksLeftmost | backend/src/gantt/gantt-chart.service.ts:56 | the range search fails exactly when no position matches; otherwise it returns the match at the leftmost matching position |
| Duration.SearchCountThenWordNone | backend/src/gantt/gantt-chart.service.ts:63 | the `<n> week` / `<n> days` search fails exactly when no position matches |
| Duration.SearchCountThenWordLeftmost | backend/src/gantt/gantt-chart.service.ts:68 | a successful `<n> word` search returns the match at the leftmost matching position |
| Duration.RunsOfNumber | backend/src/gantt/gantt-chart.service.ts:56-68 | in a text with one number, the digit run at each position is the rest of the number from there, and the `\s` run after the number is its gap |
| Duration.NoRangeAfterNumber | backend/src/gantt/gantt-chart.service.ts:56 | with those runs the range pattern matches at no position |
| Duration.CountAfterNumber | backend/src/gantt/gantt-chart.service.ts:63-71 | with those runs the leftmost `<n>\s*word` match is the number when the word follows the gap, and there is none otherwise |
| Duration.ParseNumberThenWord | backend/src/gantt/gantt-chart.service.ts:53-75 | any text with one number after a digit-free prefix, followed by any gap of `\s` (none included), parses to 5·n when `week` follows, n when the day word follows, and 0 otherwise, in both copies |
| Duration.NoDigitsNoMatch | backend/src/gantt/gantt-chart.service.ts:73-74 | a text without digits, such as the default `X weeks`, parses to 0 |
| Duration.RangeAtRuns | backend/src/gantt/gantt-chart.service.ts:56 | the range pattern matches at a position, with the two decimal values, when the runs from there are digits, a gap, `-`, a gap, digits, a gap and `weeks` |
| Duration.RunsOfRange | backend/src/gantt/gantt-chart.service.ts:56 | in a range text the digit and `\s` runs from the first digit are the ones the text is made of |
| Duration.FirstRangeMatch | backend/src/gantt/gantt-chart.service.ts:56 | a range match at the first digit of the text is the one the leftmost search returns |
| Duration.ParseRangeThenWeeks | backend/src/gantt/gantt-chart.service.ts:56-61 | `<a>\s*-\s*<b>\s*weeks` after a digit-free prefix, with any gaps (none included), parses to `ceil((a+b)/2)·5`, in both copies |
| Duration.SingularDayDisagreement | backend/src/costing/costing.service.ts:80-81 | for `<n> day` the scheduler's parser returns 0 while the costing copy returns n |
| Duration.ExampleRange | backend/src/gantt/gantt-chart.service.ts:56-61 | `2-4 weeks` is 15 business days |
| Duration.ExampleSpacedRange | backend/src/gantt/gantt-chart.service.ts:56-61 | `2 - 4 weeks`, with spaces around the hyphen, is 15 business days |
| Duration.ExampleWeek | backend/src/gantt/gantt-chart.service.ts:63-66 | `1 week` is 5 business days |
| Duration.ExampleWeeks | backend/src/gantt/gantt-chart.service.ts:63-66 | `2 weeks` is 10 business days |
| Duration.ExampleUnspacedWeeks | backend/src/gantt/gantt-chart.service.ts:63-66 | `3weeks`, with no space, is 15 business days |
| Duration.ExampleWeeksAfterText | backend/src/gantt/gantt-chart.service.ts:63-66 | `approx. 3 weeks`, with text before the number, is 15 business days |
| Duration.ExampleDays | backend/src/gantt/gantt-chart.service.ts:68-71 | `10 days` is 10 business days |
| Duration.ExamplesWithoutNumber | backend/src/gantt/gantt-chart.service.ts:54 | the empty text, `gibberish` and `X weeks` are 0 days |
| WizardData.ApplicationTypeName | backend/src/wizard-data/wizard-data-processing.service.ts:147-150 | each of `web`, `mobile` and `both` gets its own display name, each in both directions; any other value gets `''` |
| WizardData.Upper | backend/src/wizard-data/wizard-data-processing.service.ts:155 | the result is never a lower-case ASCII letter; each lower-case letter becomes the letter 32 code points below it, and other characters are unchanged |
| WizardData.UpperCase | backend/src/wizard-data/wizard-data-processing.service.ts:155 | `toUpperCase` keeps the length and upper-cases every character in place |
| WizardData.UpperAll | backend/src/wizard-data/wizard-data-processing.service.ts:155 | every platform name is upper-cased, in order |
| WizardData.Enrich | backend/src/wizard-data/wizard-data-processing.service.ts:188-191 | one entry per id, in order, keeping the id; the name is the table name when present and non-empty, and the id otherwise |
| WizardData.SubModules | backend/src/wizard-data/wizard-data-processing.service.ts:172-175 | one sub-module per id, in order, keeping the id; its name is the name in the module's sub-module table when present and non-empty, and the id otherwise, so with no table every name is the id |
| WizardData.ProcessModules | backend/src/wizard-data/wizard-data-processing.service.ts:166-179 | unknown main-module ids are dropped, every known id is kept under its catalog name, and with no known id the result is empty; every module is exactly what some entry yields: that entry's id, the catalog name and the entry's sub-modules named by `SubModules` |
| WizardData.KeptAt | backend/src/wizard-data/wizard-data-processing.service.ts:178 | an id is kept exactly when some processed module carries it |
| WizardData.ProcessModulesAppend | backend/src/wizard-data/wizard-data-processing.service.ts:165-178 | the map and filter distribute over concatenated entries, so the kept modules follow entry order |
| WizardData.ProcessModulesOfOne | backend/src/wizard-data/wizard-data-processing.service.ts:166-176 | one entry yields one module, with the catalog name and its named sub-modules, when the catalog knows its id, and none otherwise; with the append lemma this fixes the number and order of the kept modules |
| WizardData.PhaseOfFallbacks | backend/src/wizard-data/wizard-data-processing.service.ts:215-216 | the name is the catalog name, else the id; the duration is the given text, else the catalog default, else `N/A`, and never empty |
| WizardData.BuildPhaseList | backend/src/wizard-data/wizard-data-processing.service.ts:208-218 | the `for...of` loop with `continue` builds exactly `PhaseList`, and every built phase has a duration |
| WizardData.PhaseListAppend | backend/src/wizard-data/wizard-data-processing.service.ts:208-218 | the phase list of two runs of entries is the concatenation of their lists, so entry order is kept |
| WizardData.PhaseListOfOne | backend/src/wizard-data/wizard-data-processing.service.ts:209-217 | one entry gives one phase, unless it is the dropped mobile phase, which gives none |
| WizardData.PhaseListOnePerEntry | backend/src/wizard-data/wizard-data-processing.service.ts:208-218 | without a dropped entry, phase k is built from entry k |
| WizardData.PhaseListSkipsDropped | backend/src/wizard-data/wizard-data-processing.service.ts:210-212 | an empty `development_mobile` entry of a project that is not mobile-like contributes nothing, and the rest is unchanged |
| WizardData.PhaseListIds | backend/src/wizard-data/wizard-data-processing.service.ts:208-218 | every built phase carries the key of an input entry, and entries with distinct keys give phases with distinct ids |
| WizardData.NamedStandardRole | backend/src/wizard-data/wizard-data-processing.service.ts:260-262 | id, quantity and FTE are kept; the role name is the catalog name, else the supplied name, else the id |
| WizardData.SelectedRoles | backend/src/wizard-data/wizard-data-processing.service.ts:258-263 | every output role is a named selected input role, and every selected input role appears |
| WizardData.SelectedRolesAppend | backend/src/wizard-data/wizard-data-processing.service.ts:258-263 | the filter and map distribute over concatenation, so input order is kept |
| WizardData.NamedCustomRoles | backend/src/wizard-data/wizard-data-processing.service.ts:265-269 | all custom roles are kept in order with their id, quantity and FTE; an empty name becomes `Unnamed Custom Role` |
| WizardData.Process | backend/src/wizard-data/wizard-data-processing.service.ts:141-282 | each absent step stays absent and each present step is processed by its own rule; step 6 sees the mobile test of step 1's type, and its phase ids are distinct because they are the keys of an object |
| Gantt.Dependencies | backend/src/gantt/gantt-chart.service.ts:37-45 | every prerequisite in the table lies strictly lower in the dependency order, so the table has no cycle |
| Gantt.IndexOfId | backend/src/gantt/gantt-chart.service.ts:99 | `findIndex` is -1 exactly when the id is absent; otherwise it is the first position holding the id |
| Gantt.WorkingPhases | backend/src/gantt/gantt-chart.service.ts:97-103 | mobile projects keep every phase; otherwise the first `development_mobile` entry is removed and everything else is kept in order |
| Gantt.WorkingPhasesDistinct | backend/src/gantt/gantt-chart.service.ts:97-103 | dropping the mobile phase keeps the phase ids distinct |
| Gantt.LatestEndBound | backend/src/gantt/gantt-chart.service.ts:122-136 | the latest prerequisite end is at least the epoch and at least every counted prerequisite's end |
| Gantt.NoDependenciesStartAtProjectStart | backend/src/gantt/gantt-chart.service.ts:117-121 | a phase with no table entry starts on the project start date |
| Gantt.StartAfterPrerequisites | backend/src/gantt/gantt-chart.service.ts:137-140 | for a start after the epoch, the computed start is strictly after every counted prerequisite's end |
| Gantt.MissingPrerequisiteBlocks | backend/src/gantt/gantt-chart.service.ts:129-131 | a prerequisite that is absent from the working phases and not skipped blocks the dependent phase |
| Gantt.MobileProjectWithoutMobilePhase | backend/src/gantt/gantt-chart.service.ts:125-127 | the skip applies only to projects that are not mobile: a mobile project without a mobile phase can never place testing, deployment or UAT |
| Gantt.UnresolvedMembers | backend/src/gantt/gantt-chart.service.ts:160-164 | every unplaced phase gets an ERROR entry, and each ERROR entry belongs to an unplaced working phase |
| Gantt.UnresolvedCount | backend/src/gantt/gantt-chart.service.ts:157-164 | placed ids plus ERROR entries number at most the working phases, and exactly that many when ids are distinct |
| Gantt.AllDone | backend/src/gantt/gantt-chart.service.ts:112 | once as many ids are placed as there are phases, every phase is placed and no ERROR entry remains |
| Gantt.UnresolvedDistinct | backend/src/gantt/gantt-chart.service.ts:160-164 | ERROR entries carry distinct ids when the working phases do |
| Gantt.InsertPermutes | backend/src/gantt/gantt-chart.service.ts:170 | insertion adds exactly the new entry and loses none |
| Gantt.InsertOrdered | backend/src/gantt/gantt-chart.service.ts:170 | insertion into an ordered chart keeps it ordered |
| Gantt.SortByStart | backend/src/gantt/gantt-chart.service.ts:170 | the sort is a permutation of the chart |
| Gantt.SortOrdered | backend/src/gantt/gantt-chart.service.ts:170 | the sorted chart is ordered by start date, with ERROR entries after dated ones |
| Gantt.InsertStable | backend/src/gantt/gantt-chart.service.ts:170 | inserting into an ordered chart puts the new entry after every entry with the same start |
| Gantt.SortStable | backend/src/gantt/gantt-chart.service.ts:170 | for every start date, the entries with that start appear after the sort in their original order: the sort is stable |
| Gantt.CheckDependencies | backend/src/gantt/gantt-chart.service.ts:121-136 | the inner loop reports that the phase can start exactly when every counted prerequisite has an end date, and then yields the latest of those dates |
| Gantt.PushPhase | backend/src/gantt/gantt-chart.service.ts:143-155 | the phase's entry on `start` is appended to the pushed list and its end date recorded; nothing else changes |
| Gantt.PlacePhase | backend/src/gantt/gantt-chart.service.ts:115-155 | one phase of a pass computes `PlaceStep`: a phase without an end date whose prerequisites are ready is appended and recorded; otherwise the end dates and the pushed list are unchanged |
| Gantt.SchedulePass | backend/src/gantt/gantt-chart.service.ts:114-156 | one pass computes `PassUpTo` over every working phase in order; while a placeable phase is missing it records at least one more |
| Gantt.PassKeeps | backend/src/gantt/gantt-chart.service.ts:114-156 | a pass keeps the loop state: recorded ids are placeable working phases, each pushed entry is resolved, and there is one entry per recorded id |
| Gantt.PassPlacesReady | backend/src/gantt/gantt-chart.service.ts:115-155 | a pass places every phase whose prerequisites were ready when it began |
| Gantt.PassProgress | backend/src/gantt/gantt-chart.service.ts:108-156 | while a placeable phase is missing, a pass records at least one more end date |
| Gantt.PassesAdvance | backend/src/gantt/gantt-chart.service.ts:108-112 | after n iterations of the `while` loop, either every placeable phase is placed or at least n are |
| Gantt.PassesComplete | backend/src/gantt/gantt-chart.service.ts:108-112 | `n·n` iterations are enough: when the loop stops, every placeable phase is placed |
| Gantt.EnoughPasses | backend/src/gantt/gantt-chart.service.ts:108-112 | any budget of at least n iterations, one per working phase, ends with every placeable phase placed |
| Gantt.AppendUnresolved | backend/src/gantt/gantt-chart.service.ts:160-164 | the `forEach` appends exactly the ERROR entries of the unplaced phases, in order |
| Gantt.PassesDone | backend/src/gantt/gantt-chart.service.ts:112 | when the count of placed phases reaches the number of phases, every phase is placed and nothing is left for ERROR |
| Gantt.RunPasses | backend/src/gantt/gantt-chart.service.ts:108-167 | the `while` loop computes `Passes` for `n·n` iterations: the entries in the order they were placed, then the ERROR entries of the phases still missing; the iteration count stays within the loop guard's `n·n` |
| Gantt.ScheduleAll | backend/src/gantt/gantt-chart.service.ts:108-170 | the loop and the sort compute `Schedule`: the pushed entries sorted by start date |
| Gantt.StartDay | backend/src/gantt/gantt-chart.service.ts:78-87 | a start day exists only when step 6, its start date and a non-empty date text exist |
| Gantt.GenerateGanttData | backend/src/gantt/gantt-chart.service.ts:77-174 | missing data or an invalid date gives `[]`; otherwise the chart is `Schedule` of the working phases and meets every scheduling guarantee |
| Gantt.FinishSchedule | backend/src/gantt/gantt-chart.service.ts:157-170 | the placed entries plus the ERROR entries, sorted, satisfy `ScheduleFacts` |
| Gantt.ScheduleUnresolved | backend/src/gantt/gantt-chart.service.ts:157-170 | the chart is the sorted resolved entries followed by one ERROR entry per missing phase, whether or not any phase is missing |
| Gantt.ScheduleHolds | backend/src/gantt/gantt-chart.service.ts:108-170 | the chart `Schedule` yields meets every scheduling guarantee against the end dates the passes recorded |
| Gantt.ScheduleKeepsPushOrder | backend/src/gantt/gantt-chart.service.ts:143-170 | entries that start on the same date appear in the chart in the order the passes pushed them, ERROR entries last |
| Gantt.ContentsPermutation | backend/src/gantt/gantt-chart.service.ts:170 | the chart's content guarantees survive any reordering, so the sort keeps them |
| Gantt.PlacedAtMostOnce | backend/src/gantt/gantt-chart.service.ts:115 | no phase is dated twice: a dated entry's id appears in no other entry |
| Gantt.OneEntryPerWorkingPhase | backend/src/gantt/gantt-chart.service.ts:157-166 | with distinct ids the chart has exactly one entry per working phase, and no two entries share an id |
| Gantt.StartsAfterDependencies | backend/src/gantt/gantt-chart.service.ts:137-140 | for a project starting after the epoch, each dated phase starts strictly after each dated prerequisite ends |
| Gantt.IndependentPhasesStartAtProjectStart | backend/src/gantt/gantt-chart.service.ts:117-119 | a dated phase without a table entry starts on the project start date |
| Gantt.LonePhaseChart | backend/src/gantt/gantt-chart.service.ts:143-153 | a single phase without prerequisites is charted as one entry starting on the project start date |
| Gantt.DatedPhaseSpan | backend/src/gantt/gantt-chart.service.ts:143-153 | each dated entry ends on the day `AddBusinessDays` gives for its start and `max(1,d)-1`, so `max(1,d)-1` business days after it starts, and `d` is the raw parse of its phase's duration (0 included) |
| Gantt.PrerequisiteIds | backend/src/gantt/gantt-chart.service.ts:37-45 | only the seven listed phases are prerequisites of anything |
| Gantt.CompletePlanPlaceable | backend/src/gantt/gantt-chart.service.ts:117-141 | when every prerequisite that is not skipped is among the working phases, every phase can be placed |
| Gantt.CompletePlanHasNoErrors | backend/src/gantt/gantt-chart.service.ts:157-166 | such a plan produces no ERROR entry |
| Gantt.MobileWithoutMobilePhaseErrors | backend/src/gantt/gantt-chart.service.ts:125-131 | a mobile project without the mobile phase gets ERROR for testing, deployment and UAT |
| Costing.RoleHourlyRatesPositive | backend/src/costing/costing.service.ts:15-29 | every table rate is positive |
| Costing.ParseInt | backend/src/costing/costing.service.ts:131-132 | `parseInt(s, 10)` yields a number exactly when a digit follows the leading spaces and sign |
| Costing.ToDecimal | backend/src/costing/costing.service.ts:131-132 | the decimal text of n is all digits and its value is n |
| Costing.ParseIntOfDecimal | backend/src/costing/costing.service.ts:131-132 | `parseInt` reads back a decimal numeral, and its negation after `-`, whatever non-digit text follows |
| Costing.RoleEffortSign | backend/src/costing/costing.service.ts:134-146 | effort and cost are never negative; effort is positive exactly when the role contributes and the phase has days, and zero effort costs nothing |
| Costing.CustomRolesNoted | backend/src/costing/costing.service.ts:137-139 | a contributing `custom_` role without a table rate leaves a default-rate note |
| Costing.LinesSumToPhase | backend/src/costing/costing.service.ts:146-157 | the breakdown lines add up to the phase cost and the phase effort |
| Costing.PhaseTotalsNonNegative | backend/src/costing/costing.service.ts:156-157 | phase cost and phase effort are not negative |
| Costing.RoleCosting | backend/src/costing/costing.service.ts:131-157 | one turn of the role loop yields the role's cost, effort, breakdown line and note |
| Costing.PhaseCosting | backend/src/costing/costing.service.ts:126-158 | the role loop accumulates exactly the phase cost, the effort, the lines and the notes |
| Costing.DatedPhases | backend/src/costing/costing.service.ts:111-115 | the costed phases are exactly the chart's dated entries, and all of them when no entry is ERROR |
| Costing.CostByPhaseSum | backend/src/costing/costing.service.ts:160-167 | the subtotal is the sum of the per-phase costs |
| Costing.CostByPhaseFollowsChart | backend/src/costing/costing.service.ts:111-166 | `costByPhase` has one entry per dated phase, in chart order, zero-day phases included |
| Costing.ErrorPhasesNoted | backend/src/costing/costing.service.ts:112-114 | every ERROR phase leaves a skip note |
| Costing.SubTotalNonNegative | backend/src/costing/costing.service.ts:167 | the subtotal is not negative |
| Costing.Factor | backend/src/costing/costing.service.ts:170-171 | the factor is always a table value: the chosen one when it is in the table and non-zero, and the table's default in every other case |
| Costing.ComplexityMultipliersValues | backend/src/costing/costing.service.ts:32-37 | the multipliers are valid; `medium` gives 1.2, `high` 1.5, anything else 1.0 |
| Costing.ComplexityNoteWhenChosen | backend/src/costing/costing.service.ts:172-174 | there is at most one complexity note, present exactly when a complexity other than `default` is set, and it names the complexity or, failing that, its id |
| Costing.EstimateWithoutRoles | backend/src/costing/costing.service.ts:99-102 | with no roles: no phases, zero amounts, factor 1, the raw currency without fallback, and the two notes |
| Costing.EstimateFields | backend/src/costing/costing.service.ts:167-188 | with roles: the phase list, subtotal, factor and total; a name is always present; the currency falls back to `USD`; the notes start with the hours note |
| Costing.DatedPhaseRolesNoted | backend/src/costing/costing.service.ts:111-139 | every custom-role note of a dated phase reaches the chart's notes |
| Costing.ChartNotesWithoutComplexity | backend/src/costing/costing.service.ts:111-168 | no note the phase loop leaves is a complexity note |
| Costing.EstimateNotes | backend/src/costing/costing.service.ts:111-174 | with resourcing the notes start with the hours-per-day note, name every ERROR phase, hold the default-rate note of each counted rate-less `custom_` role once a phase is dated, and end with the complexity note (the estimate's factor and name) exactly when a non-default complexity is chosen, no earlier note being one |
| Costing.EstimateSubTotal | backend/src/costing/costing.service.ts:160-182 | the subtotal equals the sum of the listed phase costs and is not negative |
| Costing.EstimateTotal | backend/src/costing/costing.service.ts:176 | the total is the subtotal times a table factor and is at least the subtotal |
| Costing.CostPhase | backend/src/costing/costing.service.ts:112-167 | one turn of the phase loop: an ERROR phase adds only a note; a dated phase adds its entry and cost |
| Costing.CostChart | backend/src/costing/costing.service.ts:111-168 | the phase loop yields exactly `CostByPhase`, the subtotal and the chart notes |
| Costing.EstimateCosts | backend/src/costing/costing.service.ts:87-189 | the method computes the estimate the specification function defines, whose properties are proved above |
| Templates.TemplateChoice | backend/src/templates/template.service.ts:91-101 | `web`, `mobile` and `both` each select their own template, each in both directions, and anything else selects the generic one |
| Templates.NotEmptyRoles | backend/src/templates/template.service.ts:52-54 | `notEmpty` of both role lists fails exactly when both are empty, the estimator's no-resourcing case |
| Proposal.MobileProjectIsMobileLike | backend/src/proposal/proposal.service.ts:30 | the exact-match mobile flag implies the processing step's substring test, but not conversely |
| Proposal.ProcessAndValidateWizardData | backend/src/proposal/proposal.service.ts:21-25 | the result is the form processed step by step as `Process` does (each step present exactly when the form has it, processed by its step function), and the phase ids of step 6 are distinct |
| Proposal.GenerateProposalDocument | backend/src/proposal/proposal.service.ts:27-55 | the chart is the schedule of step 6's working phases under the mobile flag; the estimator gets exactly that chart; the templates and the PDF input use that same data |
| Proposal.ProposalOneEntryPerPhase | backend/src/proposal/proposal.service.ts:27-55 | for data with distinct phase ids, as processing yields, and a start date, the chart has exactly one entry per working phase and no id twice |
| Proposal.DiscoveryFromMonday | backend/src/gantt/gantt-chart.service.ts:143-153 | a two-week phase placed on a Monday ends on the next week's Friday with 10 days |
| Proposal.ExampleSchedule | backend/src/gantt/gantt-chart.service.ts:117-153 | a lone two-week discovery phase from a Monday is charted as that single entry |
| Proposal.ExampleCost | backend/src/costing/costing.service.ts:143-186 | one full-time project manager for 10 days costs 80 hours and 8000, factor 1.0, currency USD |
| Proposal.EndToEndExample | backend/src/proposal/proposal.service.ts:30-50 | end to end, the example project gets that one-entry schedule and an 8000 USD estimate |

## Left out

- I/O is not modelled. Template loading, Handlebars compilation and rendering, Markdown conversion, PDF generation and their exceptions are abstract function parameters of `GenerateProposalDocument`. The async awaits are plain calls.
- JavaScript `Date` is modelled as integer day numbers. `new Date(text)` is the parameter `parseDate`, where `None` stands for an invalid date. The timezone offset between date parsing and `getDay`, and `formatDate`, are left out, so chart dates are day numbers and not `YYYY-MM-DD` text.
- The engine's placement of `ERROR` entries in the final sort is modelled as a stable insertion sort with `ERROR` entries after all dated ones. The source's comparator returns NaN for them, so the real order is left to the engine. The sort's stability (`Gantt.SortStable`) is proved for every start value, but it describes the source only among dated entries.
- `toFixed(2)`/`parseFloat` rounding and `toLocaleString` formatting are left out: amounts are exact reals.
- Costing.EstimateSubTotal: holds for exact amounts. The source rounds each phase cost and the subtotal separately to two decimals, so its rounded figures can differ by cents.
- Costing.EstimateTotal: holds for exact amounts. The source rounds the total to two decimals on its own.
- Costing.LinesSumToPhase: holds for exact amounts. The source rounds each breakdown line and the phase total separately.
- Costing.EstimateCosts: returns exact amounts where the source returns figures rounded to two decimals.
- Numeric quantities and FTEs are exact reals. JavaScript's NaN for a numeric input is not modelled.
- `parseInt` beyond 2^53, where JavaScript loses precision, is not modelled.
- Gantt.StartsAfterDependencies: requires a project start after 1970-01-01. The source ignores prerequisites whose latest end is not after the epoch (`maxDependencyEndDate > new Date(0)`), and the model keeps that test, so earlier projects start at the project start date.
- Gantt.RunPasses: appends the `ERROR` entries after the while loop. The source does it inside the loop on its last pass. The two are equivalent: that check fires only when the pass bound is reached with phases still unplaced, which is exactly when the loop exits with `processedCount` short of the phase count.
- Gantt.GenerateGanttData: returns the end-date table and the pass count as ghost results. The table is what the contract's guarantees are stated over. The bound of n² passes comes from the loop guard alone; what the passes guarantee is that every placeable phase is placed when the loop stops (`Gantt.PassesComplete`).
- Prototype keys such as `constructor` are not modelled. Dictionary lookups on the dependency, rate and multiplier tables are exact map lookups, with no inherited properties.
- An object's entries are given as a sequence of pairs. `WizardData.Process` requires the keys of step 6's phase entries to be distinct, as the keys of a JavaScript object always are.
- Object key order is given as a sequence. `Object.entries(phaseDurations)` and the module map of step 3 are input sequences in their insertion order.
- Only the option tables the pipeline reads for its own decisions are transcribed: the phases, the standard roles, the complexity options and the team locations. The integration, deployment, region, compliance, pricing, support and functional-module tables are passed in as the `NameTables` parameter. They only supply display names and, for the functional modules, which module ids are known; no property depends on their contents.
- `toUpperCase` is ASCII only. Unicode case mapping is left out.
- A missing optional text is modelled as the empty string wherever the source tests it with `||`. In particular, step 6's `phaseDurations` map is always present, possibly empty.
- Extra fields that the spread operator copies through unchanged are not modelled.
- Logger calls are left out.
- Notes are a datatype, one constructor per message kind. The English wording of the messages is presentation.
- The scheduler's duration parser accepts `<n> days` but not `<n> day`, while the costing copy accepts both (see `Duration.SingularDayDisagreement`). The estimator never calls its copy.
- Processing keeps the mobile phase when the application type merely contains `mobile` or `both`. The proposal's mobile flag needs an exact match (see `Proposal.MobileProjectIsMobileLike`). Both tests are modelled as written.

=== FILE: calendar.dfy ===
/** Business-day calendar arithmetic of the scheduler
    (backend/src/gantt/gantt-chart.service.ts, `addBusinessDays`).

    A date is a day number: day 0 is 1970-01-01, a Thursday, and day n is n
    days later (negative numbers are earlier dates). */
module Calendar {

  /** Day of the week as JavaScript's `getDay` reports it: 0 is Sunday,
      6 is Saturday. */
  function Weekday(d: int): int {
    (d + 4) % 7
  }

  predicate IsBusinessDay(d: int) {
    Weekday(d) != 0 && Weekday(d) != 6
  }

  /** The first business day strictly after `d`. */
  function NextBusinessDay(d: int): (r: int)
    ensures d < r <= d + 3
    ensures IsBusinessDay(r)
    ensures forall x :: d < x < r ==> !IsBusinessDay(x)
  {
    if IsBusinessDay(d + 1) then d + 1
    else if IsBusinessDay(d + 2) then d + 2
    else d + 3
  }

  /** The number of business days in the half-open interval (a, b]. */
  function CountBusinessDays(a: int, b: int): nat
    decreases b - a
  {
    if b <= a then 0
    else CountBusinessDays(a, b - 1) + (if IsBusinessDay(b) then 1 else 0)
  }

  lemma {:induction false} CountSplit(a: int, b: int, c: int)
    requires a <= b <= c
    ensures CountBusinessDays(a, c) == CountBusinessDays(a, b) + CountBusinessDays(b, c)
    decreases c - b
  {
    if c > b {
      CountSplit(a, b, c - 1);
    }
  }

  lemma {:induction false} CountNone(a: int, b: int)
    requires forall x :: a < x <= b ==> !IsBusinessDay(x)
    ensures CountBusinessDays(a, b) == 0
    decreases b - a
  {
    if b > a {
      CountNone(a, b - 1);
    }
  }

  /** The date reached from `d` by stepping forward until `n` business days
      have been passed. Advancing by 0 (or less) stays on `d`, even when `d`
      is a weekend day; advancing by n >= 1 lands on a business day, and
      exactly n business days lie in (d, result]. */
  function AddBusinessDays(d: int, n: int): (r: int)
    ensures n <= 0 ==> r == d
    ensures n > 0 ==> d < r && IsBusinessDay(r)
    ensures d <= r && CountBusinessDays(d, r) == if n <= 0 then 0 else n
    decreases n
  {
    if n <= 0 then d
    else
      var prev := AddBusinessDays(d, n - 1);
      var r := NextBusinessDay(prev);
      CountSplit(d, prev, r);
      CountNone(prev, r - 1);
      r
  }

  /** The date that AddBusinessDays reaches is the only business day after `d`
      with exactly `n` business days in between. */
  lemma AddBusinessDaysUnique(d: int, n: int, r: int)
    requires n > 0 && d < r && IsBusinessDay(r) && CountBusinessDays(d, r) == n
    ensures r == AddBusinessDays(d, n)
  {
    var s := AddBusinessDays(d, n);
    if r < s {
      CountSplit(d, r, s);
    } else if s < r {
      CountSplit(d, s, r);
    }
  }

  /** `addBusinessDays(startDate, days)` (gantt-chart.service.ts:9-20): step one
      calendar day at a time and count the weekdays passed. */
  method AdvanceBusinessDays(start: int, days: int) returns (date: int)
    ensures date == AddBusinessDays(start, days)
  {
    date := start;
    var added := 0;
    while added < days
      invariant start <= date
      invariant 0 <= added == CountBusinessDays(start, date)
      invariant days >= 0 ==> added <= days
      invariant days <= 0 ==> date == start
      invariant date == start || IsBusinessDay(date) || added < days
      decreases days - added, NextBusinessDay(date) - date
    {
      var next := date + 1;
      if !IsBusinessDay(next) {
        assert NextBusinessDay(next) == NextBusinessDay(date);
      }
      date := next;
      if IsBusinessDay(date) {
        added := added + 1;
      }
    }
    if days > 0 {
      AddBusinessDaysUnique(start, days, date);
    }
  }

  /** A Monday advanced by 9 business days is the Friday of the next week. */
  lemma MondayPlusNine(m: int)
    requires Weekday(m) == 1
    ensures AddBusinessDays(m, 9) == m + 11
  {
    var r := m + 11;
    assert Weekday(r) == 5;
    // Tuesday to Friday, a weekend, then Monday to Friday.
    assert CountBusinessDays(m, m + 1) == 1;
    assert CountBusinessDays(m, m + 2) == 2;
    assert CountBusinessDays(m, m + 3) == 3;
    assert CountBusinessDays(m, m + 4) == 4;
    assert CountBusinessDays(m, m + 5) == 4;
    assert CountBusinessDays(m, m + 6) == 4;
    assert CountBusinessDays(m, m + 7) == 5;
    assert CountBusinessDays(m, m + 8) == 6;
    assert CountBusinessDays(m, m + 9) == 7;
    assert CountBusinessDays(m, m + 10) == 8;
    AddBusinessDaysUnique(m, 9, r);
  }
}

=== FILE: catalog.dfy ===
/** The static option tables of the wizard that the pipeline reads
    (frontend/src/data/projectPhases.ts, resourcingOptions.ts and
    costingOptions.ts), and the `Array.prototype.find` lookup over them. */
module Catalog {
  import opened Wrappers

  /** An entry of an id-to-name option table. */
  datatype NamedOption = NamedOption(id: string, name: string)

  /** An entry of the phase catalog. */
  datatype PhaseInfo = PhaseInfo(id: string, name: string, defaultDuration: string)

  /** `projectPhasesData`. */
  const ProjectPhases: seq<PhaseInfo> := [
    PhaseInfo("discovery_planning", "Discovery & Planning", "2-4 weeks"),
    PhaseInfo("design_ux_ui", "Design (UI/UX)", "3-6 weeks"),
    PhaseInfo("development_backend", "Development (Backend)", "X weeks"),
    PhaseInfo("development_frontend", "Development (Frontend)", "Y weeks"),
    PhaseInfo("development_mobile", "Mobile App Development (if applicable)", "Z weeks"),
    PhaseInfo("testing_qa", "Testing & QA", "2-4 weeks"),
    PhaseInfo("deployment", "Deployment", "1-2 weeks"),
    PhaseInfo("uat", "User Acceptance Testing (UAT)", "1-2 weeks")
  ]

  /** `standardRolesData`. */
  const StandardRoles: seq<NamedOption> := [
    NamedOption("project_manager", "Project Manager"),
    NamedOption("business_analyst", "Business Analyst"),
    NamedOption("ui_ux_designer", "UI/UX Designer"),
    NamedOption("backend_developer", "Backend Developer"),
    NamedOption("frontend_developer", "Frontend Developer"),
    NamedOption("mobile_app_developer_ios", "Mobile App Developer (iOS)"),
    NamedOption("mobile_app_developer_android", "Mobile App Developer (Android)"),
    NamedOption("qa_engineer", "Quality Assurance (QA) Engineer"),
    NamedOption("devops_engineer", "DevOps Engineer"),
    NamedOption("solution_architect", "Solution Architect"),
    NamedOption("technical_lead", "Technical Lead"),
    NamedOption("data_scientist", "Data Scientist")
  ]

  /** Every entry of a table has a name. */
  predicate NamesNonEmpty(table: seq<NamedOption>) {
    forall k :: 0 <= k < |table| ==> table[k].name != ""
  }

  lemma StandardRoleNamesNonEmpty()
    ensures NamesNonEmpty(StandardRoles)
  {
  }

  /** `complexityOptionsData`. */
  const ComplexityOptions: seq<NamedOption> := [
    NamedOption("standard", "Standard"),
    NamedOption("medium", "Medium"),
    NamedOption("high", "High")
  ]

  /** `teamLocationPreferencesData`. */
  const TeamLocations: seq<NamedOption> := [
    NamedOption("onshore", "Onshore"),
    NamedOption("offshore", "Offshore"),
    NamedOption("hybrid", "Hybrid")
  ]

  /** `s.find(x => idOf(x) === id)`: the first element with that id, if any. */
  function FindBy<T>(s: seq<T>, idOf: T -> string, id: string): (r: Option<T>)
    ensures r.None? <==> forall k :: 0 <= k < |s| ==> idOf(s[k]) != id
    ensures r.Some? ==> exists k :: 0 <= k < |s| && s[k] == r.value && idOf(s[k]) == id
                          && forall j :: 0 <= j < k ==> idOf(s[j]) != id
  {
    if s == [] then None
    else if idOf(s[0]) == id then Some(s[0])
    else
      var r := FindBy(s[1..], idOf, id);
      assert forall k :: 1 <= k < |s| ==> s[k] == s[1..][k - 1];
      r
  }

  /** `table.find(o => o.id === id)?.name`. */
  function NameOf(table: seq<NamedOption>, id: string): (r: Option<string>)
    ensures r.None? <==> forall k :: 0 <= k < |table| ==> table[k].id != id
    ensures r.Some? ==> exists k :: 0 <= k < |table| && table[k].id == id && table[k].name == r.value
                          && forall j :: 0 <= j < k ==> table[j].id != id
  {
    match FindBy(table, (o: NamedOption) => o.id, id)
    case None => None
    case Some(o) => Some(o.name)
  }

  /** The same lookup for an id that may be missing: `find(o => o.id === x)`
      with `x` undefined matches no entry. */
  function NameOfOpt(table: seq<NamedOption>, id: Option<string>): (r: Option<string>)
    ensures id.None? ==> r.None?
    ensures id.Some? ==> r == NameOf(table, id.value)
  {
    match id
    case None => None
    case Some(x) => NameOf(table, x)
  }

  /** `projectPhasesData.find(p => p.id === id)`, over a given phase table. */
  function FindPhase(phases: seq<PhaseInfo>, id: string): (r: Option<PhaseInfo>)
    ensures r.Some? ==> exists k :: 0 <= k < |phases| && phases[k] == r.value && phases[k].id == id
                          && forall j :: 0 <= j < k ==> phases[j].id != id
    ensures r.None? <==> forall k :: 0 <= k < |phases| ==> phases[k].id != id
  {
    FindBy(phases, (p: PhaseInfo) => p.id, id)
  }
}

=== FILE: costing.dfy ===
/** The cost estimator of backend/src/costing/costing.service.ts: for every
    dated phase of the Gantt chart, the effort and cost of every staffed
    role, then the complexity adjustment of step 9. Amounts are exact reals;
    the rate table is a parameter of the specification functions and
    `RoleHourlyRates` in the estimator itself. */
module Costing {
  import opened Wrappers
  import opened Duration
  import opened WizardData
  import opened Gantt

  // ---------------------------------------------------------------------
  // Constants
  // ---------------------------------------------------------------------

  const DefaultHourlyRate: real := 75.0
  const HoursPerDay: nat := 8

  /** `roleHourlyRates`. */
  const RoleHourlyRates: map<string, real> := map[
    "project_manager" := 100.0,
    "business_analyst" := 90.0,
    "ui_ux_designer" := 85.0,
    "backend_developer" := 120.0,
    "frontend_developer" := 110.0,
    "mobile_app_developer_ios" := 125.0,
    "mobile_app_developer_android" := 125.0,
    "qa_engineer" := 80.0,
    "devops_engineer" := 115.0,
    "solution_architect" := 150.0,
    "technical_lead" := 140.0,
    "data_scientist" := 130.0
  ]

  /** `complexityMultipliers`. */
  const ComplexityMultipliers: map<string, real> := map[
    "standard" := 1.0, "medium" := 1.2, "high" := 1.5, "default" := 1.0
  ]

  /** Every rate of a table is positive. */
  predicate RatesPositive(rates: map<string, real>)
  {
    forall k :: k in rates ==> rates[k] > 0.0
  }

  lemma RoleHourlyRatesPositive()
    ensures RatesPositive(RoleHourlyRates)
  {
  }

  // ---------------------------------------------------------------------
  // Output
  // ---------------------------------------------------------------------

  /** The notes the estimator writes, by kind (their wording is presentation). */
  datatype Note =
    | HoursPerDayAssumed(hours: nat)
    | NoResourcing
    | SkippedErrorPhase(phaseName: string)
    | ZeroDuration(phaseName: string)
    | CustomRoleDefaultRate(roleName: string, rate: real)
    | ComplexityApplied(factor: real, name: string)

  /** An element of `rolesBreakdown`. */
  datatype RoleBreakdown = RoleBreakdown(roleName: string, quantity: Amount, fte: Amount,
                                         effortHours: real, cost: real)

  /** `CostEstimationBreakdown`. */
  datatype PhaseBreakdown = PhaseBreakdown(phaseId: string, phaseName: string, cost: real, effortHours: real,
                                           rolesBreakdown: seq<RoleBreakdown>)

  /** `CostEstimationOutput`. */
  datatype CostEstimation = CostEstimation(
    costByPhase: seq<PhaseBreakdown>, subTotalEstimatedCost: real, complexityAdjustmentFactor: real,
    complexityAdjustmentName: Option<string>, totalEstimatedCost: real, currency: Option<string>,
    notes: seq<Note>)

  // ---------------------------------------------------------------------
  // parseInt
  // ---------------------------------------------------------------------

  /** Where the digits of `parseInt` start: after leading white space and
      an optional sign. */
  function DigitsStart(s: string): (j: nat)
    ensures j <= |s|
  {
    var i := SpaceRun(s, 0);
    if i < |s| && (s[i] == '+' || s[i] == '-') then i + 1 else i
  }

  /** `parseInt(s, 10)`, with `None` for `NaN`: leading white space, an
      optional sign, then the longest run of decimal digits; the rest of the
      text is ignored. */
  function ParseInt(s: string): (r: Option<int>)
    ensures r.Some? <==> DigitsStart(s) < |s| && IsDigit(s[DigitsStart(s)])
  {
    var i := SpaceRun(s, 0);
    var j := DigitsStart(s);
    var n := DigitRun(s, j);
    if n == 0 then None
    else
      var v: int := DecimalValue(s[j..j + n]);
      Some(if s[i] == '-' then -v else v)
  }

  function DigitChar(d: nat): char
    requires d < 10
  {
    ('0' as int + d) as char
  }

  /** The decimal numeral of a natural number. */
  function ToDecimal(n: nat): (s: string)
    ensures |s| > 0 && forall k :: 0 <= k < |s| ==> IsDigit(s[k])
    ensures DecimalValue(s) == n
  {
    if n < 10 then
      assert DecimalValue([DigitChar(n)]) == 10 * DecimalValue([]) + DigitValue(DigitChar(n));
      [DigitChar(n)]
    else
      var s := ToDecimal(n / 10) + [DigitChar(n % 10)];
      assert s[..|s| - 1] == ToDecimal(n / 10);
      s
  }

  /** `parseInt` reads back a numeral, with or without a minus sign, and
      stops at the first character that is not a digit. */
  lemma ParseIntOfDecimal(n: nat, rest: string)
    requires rest == [] || !IsDigit(rest[0])
    ensures ParseInt(ToDecimal(n) + rest) == Some(n)
    ensures ParseInt("-" + ToDecimal(n) + rest) == Some(-(n as int))
  {
    var d := ToDecimal(n);
    var s := d + rest;
    assert s[0] == d[0];
    assert SpaceRun(s, 0) == 0;
    assert DigitsStart(s) == 0;
    DigitRunOfDigits(s, 0, |d|);
    assert s[0..|d|] == d;
    var t := "-" + d + rest;
    assert t[0] == '-';
    assert SpaceRun(t, 0) == 0;
    assert DigitsStart(t) == 1;
    DigitRunOfDigits(t, 1, 1 + |d|);
    assert t[1..1 + |d|] == d;
  }

  // ---------------------------------------------------------------------
  // One role in one phase
  // ---------------------------------------------------------------------

  /** `typeof v === 'string' ? parseInt(v, 10) : v`. */
  function ResolveAmount(a: Amount): Option<real>
  {
    match a
    case Number(v) => Some(v)
    case Text(t) => if ParseInt(t).Some? then Some(ParseInt(t).value as real) else None
  }

  /** The role is counted: quantity and FTE both read as positive numbers. */
  predicate Contributes(role: ProcessedRole)
  {
    var q := ResolveAmount(role.quantity);
    var f := ResolveAmount(role.fte);
    q.Some? && f.Some? && q.value > 0.0 && f.value > 0.0
  }

  predicate StartsWith(s: string, prefix: string)
  {
    |prefix| <= |s| && s[..|prefix|] == prefix
  }

  /** `rates[id]` is set and non-zero. */
  predicate HasRate(rates: map<string, real>, id: string)
  {
    id in rates && rates[id] != 0.0
  }

  /** `rates[id] || DEFAULT_HOURLY_RATE`. */
  function Rate(rates: map<string, real>, id: string): real
  {
    if HasRate(rates, id) then rates[id] else DefaultHourlyRate
  }

  /** The hours a counted role works in a phase: quantity times FTE percent
      times days times hours per day; none for a role that is not counted. */
  function RoleEffort(role: ProcessedRole, days: nat): real
  {
    if Contributes(role) then
      ResolveAmount(role.quantity).value * (ResolveAmount(role.fte).value / 100.0) * (days as real) * (HoursPerDay as real)
    else 0.0
  }

  function RoleCost(rates: map<string, real>, role: ProcessedRole, days: nat): real
  {
    RoleEffort(role, days) * Rate(rates, role.roleId)
  }

  lemma ProductPositive(a: real, b: real)
    requires a > 0.0 && b > 0.0
    ensures a * b > 0.0
  {
  }

  lemma ScaledAtLeast(s: real, f: real)
    requires s >= 0.0 && f >= 1.0
    ensures s * f >= s
  {
    assert s * f == s + s * (f - 1.0);
    if s > 0.0 && f > 1.0 {
      ProductPositive(s, f - 1.0);
    }
  }

  /** Equal factors give equal products (the solver does not see this
      through non-linear terms by itself). */
  lemma SameProduct(a: real, b: real, c: real, d: real)
    requires a == c && b == d
    ensures a * b == c * d
  {
  }

  /** A role works in a phase exactly when it is counted and the phase has a
      duration; its effort and (with positive rates) its cost are never negative. */
  lemma RoleEffortSign(rates: map<string, real>, role: ProcessedRole, days: nat)
    requires RatesPositive(rates)
    ensures RoleEffort(role, days) >= 0.0 && RoleCost(rates, role, days) >= 0.0
    ensures RoleEffort(role, days) > 0.0 <==> Contributes(role) && days > 0
    ensures RoleEffort(role, days) == 0.0 ==> RoleCost(rates, role, days) == 0.0
  {
    if Contributes(role) && days > 0 {
      var q := ResolveAmount(role.quantity).value;
      var f := ResolveAmount(role.fte).value / 100.0;
      ProductPositive(q, f);
      ProductPositive(q * f, days as real);
      ProductPositive(q * f * (days as real), HoursPerDay as real);
      assert Rate(rates, role.roleId) > 0.0;
      ProductPositive(RoleEffort(role, days), Rate(rates, role.roleId));
    }
  }

  // ---------------------------------------------------------------------
  // One phase: the loop over all roles
  // ---------------------------------------------------------------------

  /** `phaseTotalEffortHours`. */
  function PhaseEffort(roles: seq<ProcessedRole>, days: nat): real
  {
    if roles == [] then 0.0
    else PhaseEffort(roles[..|roles| - 1], days) + RoleEffort(roles[|roles| - 1], days)
  }

  /** `phaseTotalCost`. */
  function PhaseCost(rates: map<string, real>, roles: seq<ProcessedRole>, days: nat): real
  {
    if roles == [] then 0.0
    else PhaseCost(rates, roles[..|roles| - 1], days) + RoleCost(rates, roles[|roles| - 1], days)
  }

  /** The breakdown line of one role: present when the role has positive effort. */
  function RoleLines(rates: map<string, real>, role: ProcessedRole, days: nat): seq<RoleBreakdown>
  {
    if RoleEffort(role, days) > 0.0
    then [RoleBreakdown(role.roleName, role.quantity, role.fte, RoleEffort(role, days), RoleCost(rates, role, days))]
    else []
  }

  /** The note of one role: a counted `custom_` role without a rate. */
  function RoleNote(rates: map<string, real>, role: ProcessedRole): seq<Note>
  {
    if Contributes(role) && StartsWith(role.roleId, "custom_") && !HasRate(rates, role.roleId)
    then [CustomRoleDefaultRate(role.roleName, DefaultHourlyRate)]
    else []
  }

  /** `phaseRolesBreakdown`: a line for every role with positive effort. */
  function PhaseLines(rates: map<string, real>, roles: seq<ProcessedRole>, days: nat): seq<RoleBreakdown>
  {
    if roles == [] then []
    else PhaseLines(rates, roles[..|roles| - 1], days) + RoleLines(rates, roles[|roles| - 1], days)
  }

  /** The custom-role notes of one phase. */
  function RoleNotes(rates: map<string, real>, roles: seq<ProcessedRole>): seq<Note>
  {
    if roles == [] then []
    else RoleNotes(rates, roles[..|roles| - 1]) + RoleNote(rates, roles[|roles| - 1])
  }

  /** Every counted `custom_` role without a rate gets a default-rate note. */
  lemma {:induction false} CustomRolesNoted(rates: map<string, real>, roles: seq<ProcessedRole>, k: nat)
    requires k < |roles| && Contributes(roles[k]) && StartsWith(roles[k].roleId, "custom_")
    requires !HasRate(rates, roles[k].roleId)
    ensures CustomRoleDefaultRate(roles[k].roleName, DefaultHourlyRate) in RoleNotes(rates, roles)
  {
    if k < |roles| - 1 {
      CustomRolesNoted(rates, roles[..|roles| - 1], k);
    }
  }

  function SumLineCosts(lines: seq<RoleBreakdown>): real
  {
    if lines == [] then 0.0 else SumLineCosts(lines[..|lines| - 1]) + lines[|lines| - 1].cost
  }

  function SumLineEfforts(lines: seq<RoleBreakdown>): real
  {
    if lines == [] then 0.0 else SumLineEfforts(lines[..|lines| - 1]) + lines[|lines| - 1].effortHours
  }

  /** Appending one role's breakdown line adds that role's cost and effort. */
  lemma AppendRoleLines(rates: map<string, real>, lines: seq<RoleBreakdown>, role: ProcessedRole, days: nat)
    requires RatesPositive(rates)
    ensures SumLineCosts(lines + RoleLines(rates, role, days)) == SumLineCosts(lines) + RoleCost(rates, role, days)
    ensures SumLineEfforts(lines + RoleLines(rates, role, days)) == SumLineEfforts(lines) + RoleEffort(role, days)
  {
    RoleEffortSign(rates, role, days);
    var more := lines + RoleLines(rates, role, days);
    if RoleEffort(role, days) > 0.0 {
      assert more[..|more| - 1] == lines;
    } else {
      assert more == lines;
    }
  }

  /** With positive rates, a phase's totals are the sums of its breakdown
      lines: the roles left out of the breakdown add nothing. */
  lemma {:induction false} LinesSumToPhase(rates: map<string, real>, roles: seq<ProcessedRole>, days: nat)
    requires RatesPositive(rates)
    ensures SumLineCosts(PhaseLines(rates, roles, days)) == PhaseCost(rates, roles, days)
    ensures SumLineEfforts(PhaseLines(rates, roles, days)) == PhaseEffort(roles, days)
  {
    if roles != [] {
      var init := roles[..|roles| - 1];
      LinesSumToPhase(rates, init, days);
      AppendRoleLines(rates, PhaseLines(rates, init, days), roles[|roles| - 1], days);
    }
  }

  /** With positive rates, a phase's totals are never negative. */
  lemma {:induction false} PhaseTotalsNonNegative(rates: map<string, real>, roles: seq<ProcessedRole>, days: nat)
    requires RatesPositive(rates)
    ensures PhaseCost(rates, roles, days) >= 0.0 && PhaseEffort(roles, days) >= 0.0
  {
    if roles != [] {
      PhaseTotalsNonNegative(rates, roles[..|roles| - 1], days);
      RoleEffortSign(rates, roles[|roles| - 1], days);
    }
  }

  /** One turn of the inner loop of `estimateCosts`: one role in one phase. */
  method RoleCosting(rates: map<string, real>, role: ProcessedRole, days: nat)
    returns (cost: real, effort: real, lines: seq<RoleBreakdown>, notes: seq<Note>)
    ensures cost == RoleCost(rates, role, days) && effort == RoleEffort(role, days)
    ensures lines == RoleLines(rates, role, days) && notes == RoleNote(rates, role)
  {
    var quantity := ResolveAmount(role.quantity);
    var fte := ResolveAmount(role.fte);
    if quantity.None? || fte.None? || quantity.value <= 0.0 || fte.value <= 0.0 {
      return 0.0, 0.0, [], [];
    }
    var rate := if role.roleId in rates && rates[role.roleId] != 0.0 then rates[role.roleId] else DefaultHourlyRate;
    notes := [];
    if StartsWith(role.roleId, "custom_") && !(role.roleId in rates && rates[role.roleId] != 0.0) {
      notes := [CustomRoleDefaultRate(role.roleName, DefaultHourlyRate)];
    }
    effort := quantity.value * (fte.value / 100.0) * (days as real) * (HoursPerDay as real);
    cost := effort * rate;
    lines := [];
    if effort > 0.0 {
      lines := [RoleBreakdown(role.roleName, role.quantity, role.fte, effort, cost)];
    }
  }

  /** The inner loop of `estimateCosts` for one phase. */
  method PhaseCosting(rates: map<string, real>, roles: seq<ProcessedRole>, days: nat)
    returns (cost: real, effort: real, lines: seq<RoleBreakdown>, notes: seq<Note>)
    ensures cost == PhaseCost(rates, roles, days) && effort == PhaseEffort(roles, days)
    ensures lines == PhaseLines(rates, roles, days) && notes == RoleNotes(rates, roles)
  {
    cost, effort, lines, notes := 0.0, 0.0, [], [];
    for k := 0 to |roles|
      invariant cost == PhaseCost(rates, roles[..k], days) && effort == PhaseEffort(roles[..k], days)
      invariant lines == PhaseLines(rates, roles[..k], days) && notes == RoleNotes(rates, roles[..k])
    {
      assert roles[..k + 1][..k] == roles[..k];
      var roleCost, roleEffort, roleLines, roleNotes := RoleCosting(rates, roles[k], days);
      cost := cost + roleCost;
      effort := effort + roleEffort;
      lines := lines + roleLines;
      notes := notes + roleNotes;
    }
    assert roles[..|roles|] == roles;
  }

  // ---------------------------------------------------------------------
  // The whole chart: the loop over the Gantt phases
  // ---------------------------------------------------------------------

  /** The breakdown entry of a dated phase. */
  function PhaseEntry(rates: map<string, real>, p: GanttPhase, roles: seq<ProcessedRole>): PhaseBreakdown
  {
    var d := p.calculatedDurationDays;
    PhaseBreakdown(p.id, p.name, PhaseCost(rates, roles, d), PhaseEffort(roles, d), PhaseLines(rates, roles, d))
  }

  /** The phases of a chart that have dates, in chart order. */
  function DatedPhases(chart: seq<GanttPhase>): (r: seq<GanttPhase>)
    ensures |r| <= |chart|
    ensures forall k :: 0 <= k < |r| ==> r[k] in chart && r[k].startDate.On?
    ensures forall k :: 0 <= k < |chart| && chart[k].startDate.On? ==> chart[k] in r
    ensures (forall k :: 0 <= k < |chart| ==> chart[k].startDate.On?) ==> r == chart
  {
    if chart == [] then []
    else
      var init := chart[..|chart| - 1];
      var p := chart[|chart| - 1];
      assert forall k :: 0 <= k < |init| ==> init[k] == chart[k];
      assert chart == init + [p];
      DatedPhases(init) + if p.startDate.On? then [p] else []
  }

  /** `costByPhase`: an entry for every phase the Gantt generation could date. */
  function CostByPhase(rates: map<string, real>, chart: seq<GanttPhase>, roles: seq<ProcessedRole>): seq<PhaseBreakdown>
  {
    if chart == [] then []
    else
      var p := chart[|chart| - 1];
      CostByPhase(rates, chart[..|chart| - 1], roles)
      + if p.startDate.Error? then [] else [PhaseEntry(rates, p, roles)]
  }

  /** `subTotalEstimatedCost`, before rounding. */
  function SubTotal(rates: map<string, real>, chart: seq<GanttPhase>, roles: seq<ProcessedRole>): real
  {
    if chart == [] then 0.0
    else
      var p := chart[|chart| - 1];
      SubTotal(rates, chart[..|chart| - 1], roles)
      + if p.startDate.Error? then 0.0 else PhaseCost(rates, roles, p.calculatedDurationDays)
  }

  /** The notes of one phase: a skipped phase, or a zero duration followed
      by the custom-role notes. */
  function PhaseNotes(rates: map<string, real>, p: GanttPhase, roles: seq<ProcessedRole>): seq<Note>
  {
    if p.startDate.Error? then [SkippedErrorPhase(p.name)]
    else (if p.calculatedDurationDays == 0 then [ZeroDuration(p.name)] else []) + RoleNotes(rates, roles)
  }

  function ChartNotes(rates: map<string, real>, chart: seq<GanttPhase>, roles: seq<ProcessedRole>): seq<Note>
  {
    if chart == [] then []
    else ChartNotes(rates, chart[..|chart| - 1], roles) + PhaseNotes(rates, chart[|chart| - 1], roles)
  }

  function SumPhaseCosts(entries: seq<PhaseBreakdown>): real
  {
    if entries == [] then 0.0 else SumPhaseCosts(entries[..|entries| - 1]) + entries[|entries| - 1].cost
  }

  /** The costs of `costByPhase` add up to the subtotal. */
  lemma {:induction false} CostByPhaseSum(rates: map<string, real>, chart: seq<GanttPhase>, roles: seq<ProcessedRole>)
    ensures SumPhaseCosts(CostByPhase(rates, chart, roles)) == SubTotal(rates, chart, roles)
  {
    if chart != [] {
      var init := chart[..|chart| - 1];
      var p := chart[|chart| - 1];
      CostByPhaseSum(rates, init, roles);
      var c0 := CostByPhase(rates, init, roles);
      if p.startDate.On? {
        var e := PhaseEntry(rates, p, roles);
        assert (c0 + [e])[..|c0 + [e]| - 1] == c0;
      } else {
        assert c0 + [] == c0;
      }
    }
  }

  /** `costByPhase` holds one entry per dated phase, in chart order, each
      costed from that phase's duration. */
  lemma {:induction false} CostByPhaseFollowsChart(rates: map<string, real>, chart: seq<GanttPhase>,
                                                   roles: seq<ProcessedRole>)
    ensures var c := CostByPhase(rates, chart, roles);
      |c| == |DatedPhases(chart)|
      && (forall k :: 0 <= k < |c| ==> c[k] == PhaseEntry(rates, DatedPhases(chart)[k], roles))
  {
    if chart != [] {
      var init := chart[..|chart| - 1];
      var p := chart[|chart| - 1];
      CostByPhaseFollowsChart(rates, init, roles);
      var c0 := CostByPhase(rates, init, roles);
      if p.startDate.On? {
        var e := PhaseEntry(rates, p, roles);
        assert (c0 + [e])[..|c0 + [e]| - 1] == c0;
      } else {
        assert c0 + [] == c0;
        assert DatedPhases(init) + [] == DatedPhases(init);
      }
    }
  }

  /** Every phase the Gantt generation could not date is named in a
      skip note. */
  lemma {:induction false} ErrorPhasesNoted(rates: map<string, real>, chart: seq<GanttPhase>,
                                            roles: seq<ProcessedRole>, k: nat)
    requires k < |chart| && chart[k].startDate.Error?
    ensures SkippedErrorPhase(chart[k].name) in ChartNotes(rates, chart, roles)
  {
    var init := chart[..|chart| - 1];
    if k < |chart| - 1 {
      ErrorPhasesNoted(rates, init, roles, k);
    } else {
      assert PhaseNotes(rates, chart[k], roles) == [SkippedErrorPhase(chart[k].name)];
    }
  }

  /** The custom-role notes of a dated phase are among the chart's notes. */
  lemma {:induction false} DatedPhaseRolesNoted(rates: map<string, real>, chart: seq<GanttPhase>,
                                                roles: seq<ProcessedRole>, k: nat)
    requires k < |chart| && chart[k].startDate.On?
    ensures forall n :: n in RoleNotes(rates, roles) ==> n in ChartNotes(rates, chart, roles)
  {
    if k < |chart| - 1 {
      DatedPhaseRolesNoted(rates, chart[..|chart| - 1], roles, k);
    }
  }

  /** The roles never leave a complexity note. */
  lemma {:induction false} RoleNotesWithoutComplexity(rates: map<string, real>, roles: seq<ProcessedRole>)
    ensures forall n :: n in RoleNotes(rates, roles) ==> !n.ComplexityApplied?
  {
    if roles != [] {
      RoleNotesWithoutComplexity(rates, roles[..|roles| - 1]);
    }
  }

  /** The chart never leaves a complexity note. */
  lemma {:induction false} ChartNotesWithoutComplexity(rates: map<string, real>, chart: seq<GanttPhase>,
                                                       roles: seq<ProcessedRole>)
    ensures forall n :: n in ChartNotes(rates, chart, roles) ==> !n.ComplexityApplied?
  {
    if chart != [] {
      ChartNotesWithoutComplexity(rates, chart[..|chart| - 1], roles);
      RoleNotesWithoutComplexity(rates, roles);
    }
  }

  /** With positive rates the subtotal is never negative. */
  lemma {:induction false} SubTotalNonNegative(rates: map<string, real>, chart: seq<GanttPhase>,
                                               roles: seq<ProcessedRole>)
    requires RatesPositive(rates)
    ensures SubTotal(rates, chart, roles) >= 0.0
  {
    if chart != [] {
      SubTotalNonNegative(rates, chart[..|chart| - 1], roles);
      PhaseTotalsNonNegative(rates, roles, chart[|chart| - 1].calculatedDurationDays);
    }
  }

  // ---------------------------------------------------------------------
  // Complexity and the estimate
  // ---------------------------------------------------------------------

  /** `step9Data?.projectComplexity || 'default'`. */
  function ComplexityId(step9: Option<ProcessedStep9>): string
  {
    OrElse(if step9.Some? then step9.value.form.projectComplexity else None, "default")
  }

  /** `multipliers[id] || multipliers.default`. */
  function Factor(multipliers: map<string, real>, id: string): (m: real)
    requires "default" in multipliers
    ensures m in multipliers.Values
    ensures id in multipliers && multipliers[id] != 0.0 ==> m == multipliers[id]
    ensures !(id in multipliers && multipliers[id] != 0.0) ==> m == multipliers["default"]
  {
    if id in multipliers && multipliers[id] != 0.0 then multipliers[id] else multipliers["default"]
  }

  /** A multiplier table has a default and never lowers a cost. */
  predicate FactorsValid(multipliers: map<string, real>)
  {
    "default" in multipliers && forall k :: k in multipliers ==> multipliers[k] >= 1.0
  }

  /** The service's table: medium complexity costs 20% more, high 50% more,
      anything else (standard, unknown, missing) nothing more. */
  lemma ComplexityMultipliersValues(id: string)
    ensures FactorsValid(ComplexityMultipliers)
    ensures Factor(ComplexityMultipliers, id) == if id == "medium" then 1.2 else if id == "high" then 1.5 else 1.0
  {
  }

  /** No resourcing: step 10 is missing or selects no role at all. */
  predicate NoRoles(data: ProcessedWizardData)
  {
    data.step10.None? || (|data.step10.value.roles| == 0 && |data.step10.value.customRoles| == 0)
  }

  /** The complexity note, when a complexity was chosen and is not `default`. */
  function ComplexityNotes(step9: Option<ProcessedStep9>, factor: real): seq<Note>
  {
    var id := ComplexityId(step9);
    if id != "default" then [ComplexityApplied(factor, OrElse(if step9.Some? then step9.value.projectComplexityName else None, id))]
    else []
  }

  /** `subTotal * factor`. */
  function Adjusted(subTotal: real, factor: real): real
  {
    subTotal * factor
  }

  /** The complexity note appears, once, exactly when step 9 sets a
      complexity other than `default`; it names the complexity by its name,
      falling back to its id. */
  lemma ComplexityNoteWhenChosen(step9: Option<ProcessedStep9>, factor: real)
    ensures |ComplexityNotes(step9, factor)| <= 1
    ensures ComplexityNotes(step9, factor) != []
            <==> step9.Some? && step9.value.form.projectComplexity.Some?
                 && step9.value.form.projectComplexity.value != "" && step9.value.form.projectComplexity.value != "default"
    ensures ComplexityNotes(step9, factor) != [] ==>
              var id := step9.value.form.projectComplexity.value;
              var name := step9.value.projectComplexityName;
              ComplexityNotes(step9, factor)[0]
              == ComplexityApplied(factor, if name.Some? && name.value != "" then name.value else id)
  {
  }

  /** `estimateCosts` before rounding, for given rate and multiplier tables. */
  function EstimateWith(rates: map<string, real>, multipliers: map<string, real>, data: ProcessedWizardData,
                        chart: seq<GanttPhase>): CostEstimation
    requires "default" in multipliers
  {
    var step9 := data.step9;
    var currency := if step9.Some? then step9.value.form.proposalCurrency else None;
    if NoRoles(data) then
      CostEstimation([], 0.0, 1.0, None, 0.0, currency, [HoursPerDayAssumed(HoursPerDay), NoResourcing])
    else
      var roles := data.step10.value.roles + data.step10.value.customRoles;
      var subTotal := SubTotal(rates, chart, roles);
      var id := ComplexityId(step9);
      var factor := Factor(multipliers, id);
      CostEstimation(CostByPhase(rates, chart, roles), subTotal, factor,
                     Some(OrElse(if step9.Some? then step9.value.projectComplexityName else None, id)),
                     Adjusted(subTotal, factor), Some(OrElse(currency, "USD")),
                     [HoursPerDayAssumed(HoursPerDay)] + ChartNotes(rates, chart, roles) + ComplexityNotes(step9, factor))
  }

  /** `estimateCosts`, with the service's own tables. */
  function Estimate(data: ProcessedWizardData, chart: seq<GanttPhase>): CostEstimation
  {
    EstimateWith(RoleHourlyRates, ComplexityMultipliers, data, chart)
  }

  /** Without resourcing the estimate is zero, unadjusted and unnamed, and
      carries the raw currency. */
  lemma EstimateWithoutRoles(rates: map<string, real>, multipliers: map<string, real>, data: ProcessedWizardData,
                             chart: seq<GanttPhase>)
    requires NoRoles(data) && "default" in multipliers
    ensures var r := EstimateWith(rates, multipliers, data, chart);
      r.costByPhase == [] && r.subTotalEstimatedCost == 0.0 && r.totalEstimatedCost == 0.0
      && r.complexityAdjustmentFactor == 1.0 && r.complexityAdjustmentName.None?
      && r.currency == (if data.step9.Some? then data.step9.value.form.proposalCurrency else None)
      && r.notes == [HoursPerDayAssumed(8), NoResourcing]
  {
  }

  /** With resourcing, the estimate carries the breakdown, subtotal and
      factor of the chart, always names a complexity and a currency (USD by
      default), and its notes start with the hours-per-day note. */
  lemma EstimateFields(rates: map<string, real>, multipliers: map<string, real>, data: ProcessedWizardData,
                       chart: seq<GanttPhase>)
    requires !NoRoles(data) && "default" in multipliers
    ensures var roles := data.step10.value.roles + data.step10.value.customRoles;
      var r := EstimateWith(rates, multipliers, data, chart);
      var s := SubTotal(rates, chart, roles);
      var f := Factor(multipliers, ComplexityId(data.step9));
      r.costByPhase == CostByPhase(rates, chart, roles) && r.subTotalEstimatedCost == s
      && r.complexityAdjustmentFactor == f && r.totalEstimatedCost == Adjusted(s, f)
      && r.complexityAdjustmentName.Some? && r.currency.Some? && r.currency.value != ""
      && (var given := if data.step9.Some? then data.step9.value.form.proposalCurrency else None;
          (given.Some? && given.value != "" ==> r.currency == given)
          && (given.None? || given.value == "" ==> r.currency == Some("USD")))
      && r.notes[0] == HoursPerDayAssumed(8)
  {
  }

  /** An estimate with resourcing, field by field. */
  lemma EstimateShape(rates: map<string, real>, multipliers: map<string, real>, data: ProcessedWizardData,
                      chart: seq<GanttPhase>)
    requires !NoRoles(data) && "default" in multipliers
    ensures var step9 := data.step9;
      var roles := data.step10.value.roles + data.step10.value.customRoles;
      var id := ComplexityId(step9);
      var s := SubTotal(rates, chart, roles);
      var f := Factor(multipliers, id);
      EstimateWith(rates, multipliers, data, chart)
      == CostEstimation(CostByPhase(rates, chart, roles), s, f,
                        Some(OrElse(if step9.Some? then step9.value.projectComplexityName else None, id)), Adjusted(s, f),
                        Some(OrElse(if step9.Some? then step9.value.form.proposalCurrency else None, "USD")),
                        [HoursPerDayAssumed(HoursPerDay)] + ChartNotes(rates, chart, roles) + ComplexityNotes(step9, f))
  {
  }

  /** With resourcing, the notes open with the hours-per-day note, name
      every ERROR phase, carry the default-rate note of every counted
      `custom_` role without a rate once some phase is dated, and end with
      the complexity note, naming the estimate's factor and complexity,
      exactly when a complexity other than `default` is chosen; no earlier
      note is a complexity note. */
  lemma EstimateNotes(rates: map<string, real>, multipliers: map<string, real>, data: ProcessedWizardData,
                      chart: seq<GanttPhase>)
    requires !NoRoles(data) && "default" in multipliers
    ensures var roles := data.step10.value.roles + data.step10.value.customRoles;
      var r := EstimateWith(rates, multipliers, data, chart);
      var notes := r.notes;
      |notes| >= 1 && notes[0] == HoursPerDayAssumed(8)
      && (forall k :: 0 <= k < |chart| && chart[k].startDate.Error? ==> SkippedErrorPhase(chart[k].name) in notes)
      && (forall k, j :: 0 <= k < |chart| && chart[k].startDate.On? && 0 <= j < |roles|
            && Contributes(roles[j]) && StartsWith(roles[j].roleId, "custom_") && !HasRate(rates, roles[j].roleId)
            ==> CustomRoleDefaultRate(roles[j].roleName, DefaultHourlyRate) in notes)
      && (ComplexityId(data.step9) != "default" <==> notes[|notes| - 1].ComplexityApplied?)
      && (ComplexityId(data.step9) != "default" ==>
            notes[|notes| - 1] == ComplexityApplied(r.complexityAdjustmentFactor, r.complexityAdjustmentName.value))
      && (forall i :: 0 <= i < |notes| - 1 ==> !notes[i].ComplexityApplied?)
  {
    var roles := data.step10.value.roles + data.step10.value.customRoles;
    var r := EstimateWith(rates, multipliers, data, chart);
    var f := Factor(multipliers, ComplexityId(data.step9));
    var chartNotes := ChartNotes(rates, chart, roles);
    var head := [HoursPerDayAssumed(HoursPerDay)] + chartNotes;
    assert r.notes == head + ComplexityNotes(data.step9, f);
    forall k | 0 <= k < |chart| && chart[k].startDate.Error?
      ensures SkippedErrorPhase(chart[k].name) in r.notes
    {
      ErrorPhasesNoted(rates, chart, roles, k);
      assert SkippedErrorPhase(chart[k].name) in head;
    }
    forall k, j | 0 <= k < |chart| && chart[k].startDate.On? && 0 <= j < |roles|
                  && Contributes(roles[j]) && StartsWith(roles[j].roleId, "custom_") && !HasRate(rates, roles[j].roleId)
      ensures CustomRoleDefaultRate(roles[j].roleName, DefaultHourlyRate) in r.notes
    {
      CustomRolesNoted(rates, roles, j);
      DatedPhaseRolesNoted(rates, chart, roles, k);
      assert CustomRoleDefaultRate(roles[j].roleName, DefaultHourlyRate) in head;
    }
    ChartNotesWithoutComplexity(rates, chart, roles);
    forall i | 0 <= i < |head|
      ensures !head[i].ComplexityApplied?
    {
      if i > 0 {
        assert head[i] == chartNotes[i - 1];
      }
    }
  }

  /** With resourcing and positive rates, the subtotal is the sum of the
      phase costs and is never negative. */
  lemma EstimateSubTotal(rates: map<string, real>, multipliers: map<string, real>, data: ProcessedWizardData,
                         chart: seq<GanttPhase>)
    requires !NoRoles(data) && RatesPositive(rates) && "default" in multipliers
    ensures var r := EstimateWith(rates, multipliers, data, chart);
      r.subTotalEstimatedCost == SumPhaseCosts(r.costByPhase) && r.subTotalEstimatedCost >= 0.0
  {
    var roles := data.step10.value.roles + data.step10.value.customRoles;
    EstimateFields(rates, multipliers, data, chart);
    CostByPhaseSum(rates, chart, roles);
    SubTotalNonNegative(rates, chart, roles);
  }

  /** With resourcing, positive rates and valid multipliers, the total is the
      subtotal times a factor of the table, and so never below it. */
  lemma EstimateTotal(rates: map<string, real>, multipliers: map<string, real>, data: ProcessedWizardData,
                      chart: seq<GanttPhase>)
    requires !NoRoles(data) && RatesPositive(rates) && FactorsValid(multipliers)
    ensures var r := EstimateWith(rates, multipliers, data, chart);
      r.totalEstimatedCost == r.subTotalEstimatedCost * r.complexityAdjustmentFactor
      && r.complexityAdjustmentFactor in multipliers.Values
      && r.totalEstimatedCost >= r.subTotalEstimatedCost
  {
    var roles := data.step10.value.roles + data.step10.value.customRoles;
    var r := EstimateWith(rates, multipliers, data, chart);
    var s, f := SubTotal(rates, chart, roles), Factor(multipliers, ComplexityId(data.step9));
    EstimateFields(rates, multipliers, data, chart);
    SubTotalNonNegative(rates, chart, roles);
    SameProduct(s, f, r.subTotalEstimatedCost, r.complexityAdjustmentFactor);
    ScaledAtLeast(r.subTotalEstimatedCost, r.complexityAdjustmentFactor);
  }

  /** One turn of the loop of `estimateCosts`: what one Gantt phase adds
      to `costByPhase`, to the subtotal and to the notes. */
  method CostPhase(rates: map<string, real>, phase: GanttPhase, roles: seq<ProcessedRole>)
    returns (entries: seq<PhaseBreakdown>, cost: real, notes: seq<Note>)
    ensures entries == (if phase.startDate.Error? then [] else [PhaseEntry(rates, phase, roles)])
    ensures cost == (if phase.startDate.Error? then 0.0 else PhaseCost(rates, roles, phase.calculatedDurationDays))
    ensures notes == PhaseNotes(rates, phase, roles)
  {
    if phase.startDate.Error? {
      return [], 0.0, [SkippedErrorPhase(phase.name)];
    }
    var days := phase.calculatedDurationDays;
    notes := [];
    if days == 0 {
      notes := [ZeroDuration(phase.name)];
    }
    var effort, lines, roleNotes;
    cost, effort, lines, roleNotes := PhaseCosting(rates, roles, days);
    notes := notes + roleNotes;
    entries := [PhaseBreakdown(phase.id, phase.name, cost, effort, lines)];
  }

  /** The loop of `estimateCosts` over the Gantt phases. */
  method CostChart(rates: map<string, real>, chart: seq<GanttPhase>, roles: seq<ProcessedRole>)
    returns (costByPhase: seq<PhaseBreakdown>, subTotal: real, notes: seq<Note>)
    ensures costByPhase == CostByPhase(rates, chart, roles) && subTotal == SubTotal(rates, chart, roles)
    ensures notes == ChartNotes(rates, chart, roles)
  {
    costByPhase, subTotal, notes := [], 0.0, [];
    for k := 0 to |chart|
      invariant costByPhase == CostByPhase(rates, chart[..k], roles)
      invariant subTotal == SubTotal(rates, chart[..k], roles)
      invariant notes == ChartNotes(rates, chart[..k], roles)
    {
      assert chart[..k + 1][..k] == chart[..k];
      var entries, cost, phaseNotes := CostPhase(rates, chart[k], roles);
      costByPhase := costByPhase + entries;
      subTotal := subTotal + cost;
      notes := notes + phaseNotes;
    }
    assert chart[..|chart|] == chart;
  }

  /** `estimateCosts`. */
  method EstimateCosts(data: ProcessedWizardData, chart: seq<GanttPhase>) returns (r: CostEstimation)
    ensures r == Estimate(data, chart)
  {
    var step9 := data.step9;
    var currency := if step9.Some? then step9.value.form.proposalCurrency else None;
    if data.step10.None? || (|data.step10.value.roles| == 0 && |data.step10.value.customRoles| == 0) {
      return CostEstimation([], 0.0, 1.0, None, 0.0, currency, [HoursPerDayAssumed(HoursPerDay), NoResourcing]);
    }
    var roles := data.step10.value.roles + data.step10.value.customRoles;
    var costByPhase, subTotal, chartNotes := CostChart(RoleHourlyRates, chart, roles);
    var complexityId := ComplexityId(step9);
    var factor := Factor(ComplexityMultipliers, complexityId);
    var name := OrElse(if step9.Some? then step9.value.projectComplexityName else None, complexityId);
    var notes := [HoursPerDayAssumed(HoursPerDay)] + chartNotes;
    if complexityId != "default" {
      notes := notes + [ComplexityApplied(factor, name)];
    } else {
      assert notes + [] == notes;
    }
    EstimateShape(RoleHourlyRates, ComplexityMultipliers, data, chart);
    r := CostEstimation(costByPhase, subTotal, factor, Some(name), Adjusted(subTotal, factor),
                        Some(OrElse(currency, "USD")), notes);
  }
}

=== FILE: duration.dfy ===
/** The duration-text parser of the scheduler
    (backend/src/gantt/gantt-chart.service.ts:53-75) and its copy in the
    estimator (backend/src/costing/costing.service.ts:70-84).

    Each regular expression of the source is searched for leftmost-first.
    For these patterns the regular-expression engine never backtracks into a
    shorter run of digits or spaces (the character after a shorter run would
    be another digit or space, which the pattern cannot accept there), so a
    match at position i is decided by the maximal digit and space runs that
    start at i, and a leftmost match always starts where a run of digits
    starts. */
module Duration {
  import opened Wrappers

  predicate IsDigit(c: char) {
    '0' <= c <= '9'
  }

  /** The `\s` class of JavaScript regular expressions: the ASCII space, the
      controls from tab to carriage return, and the Unicode spaces. */
  predicate IsSpace(c: char) {
    c == ' ' || ('\t' <= c <= '\r') || ('\U{A0}' <= c && IsUnicodeSpace(c))
  }

  /** The non-ASCII members of `\s`. */
  const UnicodeSpaces: seq<char> := ['\U{A0}', '\U{1680}', '\U{2000}', '\U{2001}', '\U{2002}',
    '\U{2003}', '\U{2004}', '\U{2005}', '\U{2006}', '\U{2007}', '\U{2008}', '\U{2009}', '\U{200A}',
    '\U{2028}', '\U{2029}', '\U{202F}', '\U{205F}', '\U{3000}', '\U{FEFF}']

  predicate IsUnicodeSpace(c: char) {
    c in UnicodeSpaces
  }

  predicate NoDigits(s: string) {
    forall k :: 0 <= k < |s| ==> !IsDigit(s[k])
  }

  /** Length of the longest run of digits that starts at position i
      (DigitRunIsMaximal states that it is one). */
  function DigitRun(s: string, i: nat): (n: nat)
    requires i <= |s|
    ensures i + n <= |s|
    decreases |s| - i
  {
    if i < |s| && IsDigit(s[i]) then 1 + DigitRun(s, i + 1) else 0
  }

  /** Length of the longest run of `\s` characters that starts at position i. */
  function SpaceRun(s: string, i: nat): (n: nat)
    requires i <= |s|
    ensures i + n <= |s|
    decreases |s| - i
  {
    if i < |s| && IsSpace(s[i]) then 1 + SpaceRun(s, i + 1) else 0
  }

  lemma {:induction false} DigitRunIsMaximal(s: string, i: nat)
    requires i <= |s|
    ensures forall k :: i <= k < i + DigitRun(s, i) ==> IsDigit(s[k])
    ensures i + DigitRun(s, i) == |s| || !IsDigit(s[i + DigitRun(s, i)])
    decreases |s| - i
  {
    if i < |s| && IsDigit(s[i]) {
      DigitRunIsMaximal(s, i + 1);
    }
  }

  /** `parseInt(ds, 10)` of a string of decimal digits (it is only ever
      applied to one). */
  function DecimalValue(ds: string): nat
  {
    if ds == [] then 0
    else 10 * DecimalValue(ds[..|ds| - 1]) + DigitValue(ds[|ds| - 1])
  }

  function DigitValue(c: char): nat {
    if IsDigit(c) then c as int - '0' as int else 0
  }

  /** ASCII case folding, which is all the `i` flag does for these patterns. */
  function Lower(c: char): char {
    if 'A' <= c <= 'Z' then (c as int + 32) as char else c
  }

  /** The lower-case word `w` occurs at position i, ignoring case. */
  predicate WordAt(s: string, i: nat, w: string) {
    i + |w| <= |s| && forall k :: 0 <= k < |w| ==> Lower(s[i + k]) == w[k]
  }

  /** `/(\d+)\s*-\s*(\d+)\s*weeks/i` tried at position i; the two numbers. */
  function RangeWeeksAt(s: string, i: nat): Option<(nat, nat)>
    requires i <= |s|
  {
    var a := DigitRun(s, i);
    var j := i + a;
    var k := j + SpaceRun(s, j);
    if a == 0 || k == |s| || s[k] != '-' then None
    else
      var l := k + 1 + SpaceRun(s, k + 1);
      var b := DigitRun(s, l);
      var m := l + b + SpaceRun(s, l + b);
      if b == 0 || !WordAt(s, m, "weeks") then None
      else Some((DecimalValue(s[i..j]), DecimalValue(s[l..l + b])))
  }

  /** `/(\d+)\s*<w>/i` tried at position i; the number. */
  function CountThenWordAt(s: string, i: nat, w: string): Option<nat>
    requires i <= |s|
  {
    var a := DigitRun(s, i);
    var j := i + a;
    if a > 0 && WordAt(s, j + SpaceRun(s, j), w) then Some(DecimalValue(s[i..j])) else None
  }

  /** Leftmost match of the range pattern at or after position i. */
  function SearchRangeWeeks(s: string, i: nat): (r: Option<(nat, nat)>)
    requires i <= |s|
    decreases |s| - i
  {
    if i == |s| then None
    else if RangeWeeksAt(s, i).Some? then RangeWeeksAt(s, i)
    else SearchRangeWeeks(s, i + 1)
  }

  /** Leftmost match of `(\d+)\s*<w>` at or after position i. */
  function SearchCountThenWord(s: string, i: nat, w: string): (r: Option<nat>)
    requires i <= |s|
    decreases |s| - i
  {
    if i == |s| then None
    else if CountThenWordAt(s, i, w).Some? then CountThenWordAt(s, i, w)
    else SearchCountThenWord(s, i + 1, w)
  }

  /** The range search finds the leftmost position where the range pattern
      matches, and finds nothing exactly when it matches nowhere. */
  lemma {:induction false} SearchRangeWeeksLeftmost(s: string, i: nat)
    requires i <= |s|
    ensures SearchRangeWeeks(s, i).None? <==> forall k :: i <= k < |s| ==> RangeWeeksAt(s, k).None?
    ensures SearchRangeWeeks(s, i).Some? ==>
      exists k :: i <= k < |s| && RangeWeeksAt(s, k) == SearchRangeWeeks(s, i)
        && forall j :: i <= j < k ==> RangeWeeksAt(s, j).None?
    decreases |s| - i
  {
    if i < |s| && RangeWeeksAt(s, i).None? {
      SearchRangeWeeksLeftmost(s, i + 1);
      if SearchRangeWeeks(s, i).Some? {
        var k :| i + 1 <= k < |s| && RangeWeeksAt(s, k) == SearchRangeWeeks(s, i + 1)
          && forall j :: i + 1 <= j < k ==> RangeWeeksAt(s, j).None?;
        assert forall j :: i <= j < k ==> RangeWeeksAt(s, j).None?;
      }
    }
  }

  /** The count-pattern search finds nothing exactly when the pattern
      matches nowhere at or after position i. */
  lemma {:induction false} SearchCountThenWordNone(s: string, i: nat, w: string)
    requires i <= |s|
    ensures SearchCountThenWord(s, i, w).None? <==> forall k :: i <= k < |s| ==> CountThenWordAt(s, k, w).None?
    decreases |s| - i
  {
    if i < |s| && CountThenWordAt(s, i, w).None? {
      SearchCountThenWordNone(s, i + 1, w);
    }
  }

  /** What the count-pattern search finds is the match at the leftmost
      position where the pattern matches. */
  lemma {:induction false} SearchCountThenWordLeftmost(s: string, i: nat, w: string)
    requires i <= |s|
    ensures SearchCountThenWord(s, i, w).Some? ==>
      exists k :: i <= k < |s| && CountThenWordAt(s, k, w) == SearchCountThenWord(s, i, w)
        && forall j :: i <= j < k ==> CountThenWordAt(s, j, w).None?
    decreases |s| - i
  {
    if i < |s| && CountThenWordAt(s, i, w).None? {
      SearchCountThenWordLeftmost(s, i + 1, w);
      if SearchCountThenWord(s, i, w).Some? {
        var k :| i + 1 <= k < |s| && CountThenWordAt(s, k, w) == SearchCountThenWord(s, i + 1, w)
          && forall j :: i + 1 <= j < k ==> CountThenWordAt(s, j, w).None?;
        assert forall j :: i <= j < k ==> CountThenWordAt(s, j, w).None?;
      }
    }
  }

  /** The parser, with the word its last pattern requires: the scheduler's
      copy requires "days", the estimator's copy "day". */
  function ParseWith(text: string, dayWord: string): nat {
    if text == "" then 0
    else match SearchRangeWeeks(text, 0)
      case Some((lo, hi)) => ((lo + hi + 1) / 2) * 5   // Math.ceil((lo + hi) / 2) * 5
      case None =>
        match SearchCountThenWord(text, 0, "week")
        case Some(n) => n * 5
        case None =>
          match SearchCountThenWord(text, 0, dayWord)
          case Some(n) => n
          case None => 0
  }

  /** `GanttChartService.parseDurationToBusinessDays`. */
  function ParseDurationToBusinessDays(text: string): nat {
    ParseWith(text, "days")
  }

  /** `CostingService.parseDurationToBusinessDays`, which `estimateCosts`
      never calls. */
  function CostingParseDurationToBusinessDays(text: string): nat {
    ParseWith(text, "day")
  }

  // ---------------------------------------------------------------------
  // What the parser makes of the texts it is written for.

  /** A run of digits from i up to (not including) n is the maximal one. */
  lemma {:induction false} DigitRunOfDigits(s: string, i: nat, n: nat)
    requires i <= n <= |s|
    requires forall k :: i <= k < n ==> IsDigit(s[k])
    requires n == |s| || !IsDigit(s[n])
    ensures DigitRun(s, i) == n - i
    decreases n - i
  {
    if i < n {
      DigitRunOfDigits(s, i + 1, n);
    }
  }

  /** A run of `\s` characters from i up to (not including) n is the
      maximal one. */
  lemma {:induction false} SpaceRunOfSpaces(s: string, i: nat, n: nat)
    requires i <= n <= |s|
    requires forall k :: i <= k < n ==> IsSpace(s[k])
    requires n == |s| || !IsSpace(s[n])
    ensures SpaceRun(s, i) == n - i
    decreases n - i
  {
    if i < n {
      SpaceRunOfSpaces(s, i + 1, n);
    }
  }

  /** A text with one number in it: no digit before position i, n digits
      from i, then a gap of g `\s` characters (none or many) up to the end or
      a character that is not one, and no digit after the number. */
  predicate NumberThenWord(s: string, i: nat, n: nat, g: nat) {
    0 < n && i + n + g <= |s|
    && (forall k :: 0 <= k < i ==> !IsDigit(s[k]))
    && (forall k :: i <= k < i + n ==> IsDigit(s[k]))
    && (forall k :: i + n <= k < i + n + g ==> IsSpace(s[k]))
    && (i + n + g == |s| || !IsSpace(s[i + n + g]))
    && (forall k :: i + n <= k < |s| ==> !IsDigit(s[k]))
  }

  /** In such a text the digit run at a position is what is left of the
      number from there, and the gap is the space run after the number. */
  lemma RunsOfNumber(s: string, i: nat, n: nat, g: nat)
    requires NumberThenWord(s, i, n, g)
    ensures forall k :: 0 <= k <= |s| ==> DigitRun(s, k) == if i <= k < i + n then i + n - k else 0
    ensures SpaceRun(s, i + n) == g
  {
    forall k | 0 <= k <= |s|
      ensures DigitRun(s, k) == if i <= k < i + n then i + n - k else 0
    {
      if i <= k < i + n {
        DigitRunOfDigits(s, k, i + n);
      }
    }
    SpaceRunOfSpaces(s, i + n, i + n + g);
  }

  /** Where the digit runs are those of one number of n digits at position
      i, followed by a gap of g `\s` characters, the range pattern matches
      nowhere. */
  lemma NoRangeAfterNumber(s: string, i: nat, n: nat, g: nat)
    requires 0 < n && i + n + g <= |s|
    requires forall k :: 0 <= k <= |s| ==> DigitRun(s, k) == if i <= k < i + n then i + n - k else 0
    requires SpaceRun(s, i + n) == g
    ensures SearchRangeWeeks(s, 0).None?
  {
    forall k | 0 <= k < |s| ensures RangeWeeksAt(s, k).None? {
      if i <= k < i + n {
        assert k + DigitRun(s, k) == i + n;
      }
    }
    SearchRangeWeeksLeftmost(s, 0);
  }

  /** With the same runs, the leftmost match of the count pattern for a word
      w is the number when w follows the gap, and there is none otherwise. */
  lemma CountAfterNumber(s: string, i: nat, n: nat, g: nat, w: string)
    requires 0 < n && i + n + g <= |s|
    requires forall k :: 0 <= k <= |s| ==> DigitRun(s, k) == if i <= k < i + n then i + n - k else 0
    requires SpaceRun(s, i + n) == g
    ensures SearchCountThenWord(s, 0, w)
         == if WordAt(s, i + n + g, w) then Some(DecimalValue(s[i..i + n])) else None
  {
    forall k | 0 <= k < |s|
      ensures CountThenWordAt(s, k, w).Some? <==> i <= k < i + n && WordAt(s, i + n + g, w)
    {
      if i <= k < i + n {
        assert k + DigitRun(s, k) == i + n;
      }
    }
    SearchCountThenWordNone(s, 0, w);
    if WordAt(s, i + n + g, w) {
      assert CountThenWordAt(s, i, w) == Some(DecimalValue(s[i..i + n]));
      SearchCountThenWordLeftmost(s, 0, w);
      var k :| 0 <= k < |s| && CountThenWordAt(s, k, w) == SearchCountThenWord(s, 0, w)
        && forall j :: 0 <= j < k ==> CountThenWordAt(s, j, w).None?;
      assert k == i;
    }
  }

  /** A text with one number is n weeks of five business days when "week"
      follows the gap after it, n business days when the day word does, and
      no duration at all otherwise, in both copies. */
  lemma ParseNumberThenWord(s: string, i: nat, n: nat, g: nat, dayWord: string)
    requires NumberThenWord(s, i, n, g)
    ensures ParseWith(s, dayWord)
         == var v := DecimalValue(s[i..i + n]);
            if WordAt(s, i + n + g, "week") then 5 * v
            else if WordAt(s, i + n + g, dayWord) then v
            else 0
  {
    RunsOfNumber(s, i, n, g);
    NoRangeAfterNumber(s, i, n, g);
    CountAfterNumber(s, i, n, g, "week");
    CountAfterNumber(s, i, n, g, dayWord);
  }

  lemma {:induction false} NoDigitsNoMatch(s: string, dayWord: string)
    requires NoDigits(s)
    ensures ParseWith(s, dayWord) == 0
  {
    forall k | 0 <= k < |s|
      ensures RangeWeeksAt(s, k).None?
      ensures CountThenWordAt(s, k, "week").None? && CountThenWordAt(s, k, dayWord).None?
    {
      assert DigitRun(s, k) == 0;
    }
    if s != "" {
      SearchRangeWeeksLeftmost(s, 0);
      SearchCountThenWordLeftmost(s, 0, "week");
      SearchCountThenWordLeftmost(s, 0, dayWord);
    }
  }

  /** A text with a range of weeks: no digit before position i, then p
      digits, g1 `\s` characters, '-', g2 `\s` characters, q digits, g3 `\s`
      characters and "weeks" in any case (each gap may be empty). */
  predicate RangeThenWeeks(s: string, i: nat, p: nat, g1: nat, g2: nat, q: nat, g3: nat) {
    var k := i + p + g1;
    var l := k + 1 + g2;
    var m := l + q + g3;
    0 < p && 0 < q && WordAt(s, m, "weeks")
    && (forall x :: 0 <= x < i ==> !IsDigit(s[x]))
    && (forall x :: i <= x < i + p ==> IsDigit(s[x]))
    && (forall x :: i + p <= x < k ==> IsSpace(s[x]))
    && s[k] == '-'
    && (forall x :: k < x < l ==> IsSpace(s[x]))
    && (forall x :: l <= x < l + q ==> IsDigit(s[x]))
    && (forall x :: l + q <= x < m ==> IsSpace(s[x]))
  }

  /** The range pattern matches at position i when the runs from i are p
      digits, a gap, '-', a gap, q digits and a gap before "weeks". */
  lemma RangeAtRuns(s: string, i: nat, p: nat, g1: nat, g2: nat, q: nat, g3: nat)
    requires i + p + g1 < |s|
    requires 0 < p && DigitRun(s, i) == p && SpaceRun(s, i + p) == g1 && s[i + p + g1] == '-'
    requires SpaceRun(s, i + p + g1 + 1) == g2
    requires 0 < q && DigitRun(s, i + p + g1 + 1 + g2) == q
    requires SpaceRun(s, i + p + g1 + 1 + g2 + q) == g3
    requires WordAt(s, i + p + g1 + 1 + g2 + q + g3, "weeks")
    ensures var l := i + p + g1 + 1 + g2;
            RangeWeeksAt(s, i) == Some((DecimalValue(s[i..i + p]), DecimalValue(s[l..l + q])))
  {
  }

  /** In a text with a range of weeks the runs from the first digit are
      those the text is made of. */
  lemma RunsOfRange(s: string, i: nat, p: nat, g1: nat, g2: nat, q: nat, g3: nat)
    requires RangeThenWeeks(s, i, p, g1, g2, q, g3)
    ensures var k := i + p + g1;
            var l := k + 1 + g2;
            k < |s| && DigitRun(s, i) == p && SpaceRun(s, i + p) == g1 && s[k] == '-'
            && SpaceRun(s, k + 1) == g2 && DigitRun(s, l) == q && SpaceRun(s, l + q) == g3
  {
    var k := i + p + g1;
    var l := k + 1 + g2;
    var m := l + q + g3;
    assert Lower(s[m + 0]) == "weeks"[0];
    DigitRunOfDigits(s, i, i + p);
    SpaceRunOfSpaces(s, i + p, k);
    SpaceRunOfSpaces(s, k + 1, l);
    DigitRunOfDigits(s, l, l + q);
    SpaceRunOfSpaces(s, l + q, m);
  }

  /** Where the range pattern matches at the first digit of a text, that is
      the match the range search finds. */
  lemma FirstRangeMatch(s: string, i: nat)
    requires i < |s| && RangeWeeksAt(s, i).Some?
    requires forall x :: 0 <= x < i ==> !IsDigit(s[x])
    ensures SearchRangeWeeks(s, 0) == RangeWeeksAt(s, i)
  {
    forall x | 0 <= x < i ensures RangeWeeksAt(s, x).None? {
      assert DigitRun(s, x) == 0;
    }
    SearchRangeWeeksLeftmost(s, 0);
    var k :| 0 <= k < |s| && RangeWeeksAt(s, k) == SearchRangeWeeks(s, 0)
      && forall j :: 0 <= j < k ==> RangeWeeksAt(s, j).None?;
    assert k == i;
  }

  /** A text with a range of weeks is the rounded-up mean number of weeks,
      five business days each, in both copies. */
  lemma ParseRangeThenWeeks(s: string, i: nat, p: nat, g1: nat, g2: nat, q: nat, g3: nat, dayWord: string)
    requires RangeThenWeeks(s, i, p, g1, g2, q, g3)
    ensures ParseWith(s, dayWord)
         == var l := i + p + g1 + 1 + g2;
            ((DecimalValue(s[i..i + p]) + DecimalValue(s[l..l + q]) + 1) / 2) * 5
  {
    var l := i + p + g1 + 1 + g2;
    RunsOfRange(s, i, p, g1, g2, q, g3);
    RangeAtRuns(s, i, p, g1, g2, q, g3);
    FirstRangeMatch(s, i);
  }

  /** The two copies disagree on a singular "day": the scheduler's copy reads
      a number followed by "day" as no duration at all, the estimator's copy
      as that many days. */
  lemma SingularDayDisagreement(s: string, i: nat, n: nat, g: nat)
    requires NumberThenWord(s, i, n, g) && s[i + n + g..] == "day"
    ensures ParseDurationToBusinessDays(s) == 0
    ensures CostingParseDurationToBusinessDays(s) == DecimalValue(s[i..i + n])
  {
    var t := i + n + g;
    assert s[t] == s[t..][0] == 'd';
    ParseNumberThenWord(s, i, n, g, "days");
    ParseNumberThenWord(s, i, n, g, "day");
    assert !WordAt(s, t, "week");
    assert |s| == t + 3;
    assert WordAt(s, t, "day") by {
      forall k | 0 <= k < 3 ensures Lower(s[t + k]) == "day"[k] {
        assert s[t + k] == s[t..][k];
      }
    }
  }

  // The examples the scheduler's parser is documented with, and texts
  // with other spacing.

  lemma ExampleRange(s: string)
    requires s == "2-4 weeks"
    ensures ParseDurationToBusinessDays(s) == 15
  {
    assert RangeThenWeeks(s, 0, 1, 0, 0, 1, 1);
    ParseRangeThenWeeks(s, 0, 1, 0, 0, 1, 1, "days");
    assert s[0..1] == "2" && s[2..3] == "4";
  }

  lemma ExampleSpacedRange(s: string)
    requires s == "2 - 4 weeks"
    ensures ParseDurationToBusinessDays(s) == 15
  {
    assert RangeThenWeeks(s, 0, 1, 1, 1, 1, 1);
    ParseRangeThenWeeks(s, 0, 1, 1, 1, 1, 1, "days");
    assert s[0..1] == "2" && s[4..5] == "4";
  }

  lemma ExampleWeek(s: string)
    requires s == "1 week"
    ensures ParseDurationToBusinessDays(s) == 5
  {
    assert NumberThenWord(s, 0, 1, 1);
    ParseNumberThenWord(s, 0, 1, 1, "days");
    assert WordAt(s, 2, "week");
    assert s[0..1] == "1";
  }

  lemma ExampleWeeks(s: string)
    requires s == "2 weeks"
    ensures ParseDurationToBusinessDays(s) == 10
  {
    assert NumberThenWord(s, 0, 1, 1);
    ParseNumberThenWord(s, 0, 1, 1, "days");
    assert WordAt(s, 2, "week");
    assert s[0..1] == "2";
  }

  lemma ExampleUnspacedWeeks(s: string)
    requires s == "3weeks"
    ensures ParseDurationToBusinessDays(s) == 15
  {
    assert NumberThenWord(s, 0, 1, 0);
    ParseNumberThenWord(s, 0, 1, 0, "days");
    assert WordAt(s, 1, "week");
    assert s[0..1] == "3";
  }

  lemma ExampleWeeksAfterText(s: string)
    requires s == "approx. 3 weeks"
    ensures ParseDurationToBusinessDays(s) == 15
  {
    assert NumberThenWord(s, 8, 1, 1);
    ParseNumberThenWord(s, 8, 1, 1, "days");
    assert WordAt(s, 10, "week");
    assert s[8..9] == "3";
  }

  lemma DecimalTen(ds: string)
    requires ds == "10"
    ensures DecimalValue(ds) == 10
  {
    assert ds[..1] == "1" && ds[1] == '0';
    assert DecimalValue(ds[..1]) == 1 by {
      assert ds[..1][..0] == [];
    }
  }

  lemma ExampleDays(s: string)
    requires s == "10 days" || s == "10\tdays"
    ensures ParseDurationToBusinessDays(s) == 10
  {
    assert NumberThenWord(s, 0, 2, 1);
    ParseNumberThenWord(s, 0, 2, 1, "days");
    assert !WordAt(s, 3, "week") by {
      assert Lower(s[3 + 0]) != "week"[0];
    }
    assert WordAt(s, 3, "days");
    DecimalTen(s[0..2]);
  }

  lemma ExamplesWithoutNumber(s: string)
    requires s == "" || s == "gibberish" || s == "X weeks"
    ensures ParseDurationToBusinessDays(s) == 0
  {
    NoDigitsNoMatch(s, "days");
  }
}

=== FILE: gantt.dfy ===
/** The phase scheduler of backend/src/gantt/gantt-chart.service.ts: it turns
    the processed step-6 phase list into dated Gantt entries, placing every
    phase after its prerequisites and marking the phases it cannot place
    with `'ERROR'`. Dates are day numbers (`Calendar`). */
module Gantt {
  import opened Wrappers
  import opened Calendar
  import opened Duration
  import opened WizardData

  /** A date cell of the chart: a day, or the string `'ERROR'`. */
  datatype When = On(day: int) | Error

  datatype GanttPhase = GanttPhase(id: string, name: string, duration: string,
                                   startDate: When, endDate: When, calculatedDurationDays: nat)

  /** `backendPhaseDependencies`. */
  const DependencyTable: map<string, seq<string>> := map[
    "design_ux_ui" := ["discovery_planning"],
    "development_backend" := ["design_ux_ui"],
    "development_frontend" := ["development_backend"],
    "development_mobile" := ["design_ux_ui"],
    "testing_qa" := ["development_frontend", "development_mobile", "development_backend"],
    "deployment" := ["testing_qa"],
    "uat" := ["deployment"]
  ]

  /** The length of the longest prerequisite chain below a phase of the
      table; phases outside the table have none. */
  function Depth(id: string): nat
  {
    if id == "design_ux_ui" then 1
    else if id == "development_backend" || id == "development_mobile" then 2
    else if id == "development_frontend" then 3
    else if id == "testing_qa" then 4
    else if id == "deployment" then 5
    else if id == "uat" then 6
    else 0
  }

  /** `backendPhaseDependencies[id] || []`. The table has no cycle: every
      prerequisite sits lower in the chain than the phase that needs it. */
  function Dependencies(id: string): (r: seq<string>)
    ensures forall d :: d in r ==> Depth(d) < Depth(id)
  {
    if id in DependencyTable then DependencyTable[id] else []
  }

  // ---------------------------------------------------------------------
  // The phases being scheduled
  // ---------------------------------------------------------------------

  function IdSet(ps: seq<ProcessedPhase>): set<string>
  {
    set p | p in ps :: p.id
  }

  /** `ps.findIndex(p => p.id === id)`. */
  function IndexOfId(ps: seq<ProcessedPhase>, id: string): (i: int)
    ensures -1 <= i < |ps|
    ensures i == -1 <==> id !in IdSet(ps)
    ensures i >= 0 ==> ps[i].id == id && forall k :: 0 <= k < i ==> ps[k].id != id
  {
    if ps == [] then -1
    else if ps[0].id == id then 0
    else
      var i := IndexOfId(ps[1..], id);
      assert forall k :: 1 <= k < |ps| ==> ps[k] == ps[1..][k - 1];
      assert IdSet(ps) == {ps[0].id} + IdSet(ps[1..]) by {
        assert forall p :: p in ps <==> p == ps[0] || p in ps[1..];
      }
      if i == -1 then -1 else i + 1
  }

  /** The phases the loop works on: for a project that is not mobile, the
      first `development_mobile` phase is taken out. */
  function WorkingPhases(ps: seq<ProcessedPhase>, isMobile: bool): (w: seq<ProcessedPhase>)
    ensures isMobile ==> w == ps
    ensures !isMobile && "development_mobile" !in IdSet(ps) ==> w == ps
    ensures !isMobile && "development_mobile" in IdSet(ps) ==>
              var i := IndexOfId(ps, "development_mobile");
              |w| == |ps| - 1 && w[..i] == ps[..i] && w[i..] == ps[i + 1..]
              && multiset(w) + multiset{ps[i]} == multiset(ps)
  {
    if isMobile then ps
    else
      var i := IndexOfId(ps, "development_mobile");
      if i > -1 then
        assert ps == ps[..i] + [ps[i]] + ps[i + 1..];
        ps[..i] + ps[i + 1..]
      else ps
  }

  lemma RemoveKeepsDistinct(ps: seq<ProcessedPhase>, i: nat)
    requires i < |ps| && IdsDistinct(ps)
    ensures IdsDistinct(ps[..i] + ps[i + 1..])
  {
    var r := ps[..i] + ps[i + 1..];
    assert forall k :: 0 <= k < |r| ==> r[k] == ps[if k < i then k else k + 1];
  }

  /** Taking the mobile phase out keeps the ids distinct. */
  lemma WorkingPhasesDistinct(ps: seq<ProcessedPhase>, isMobile: bool)
    requires IdsDistinct(ps)
    ensures IdsDistinct(WorkingPhases(ps, isMobile))
  {
    if !isMobile && IndexOfId(ps, "development_mobile") > -1 {
      RemoveKeepsDistinct(ps, IndexOfId(ps, "development_mobile"));
    }
  }

  /** A prerequisite the loop passes over: `development_mobile` in a project
      that is not mobile and has no such phase left. */
  predicate Skipped(w: seq<ProcessedPhase>, isMobile: bool, dep: string)
  {
    dep == "development_mobile" && !isMobile && dep !in IdSet(w)
  }

  /** Every prerequisite in `deps` is passed over or already has an end date. */
  predicate DepsReady(w: seq<ProcessedPhase>, isMobile: bool, ends: map<string, int>, deps: seq<string>)
  {
    forall i :: 0 <= i < |deps| ==> Skipped(w, isMobile, deps[i]) || deps[i] in ends
  }

  /** `maxDependencyEndDate`: the latest end date among the prerequisites
      that are not passed over, starting from the epoch (day 0). */
  function LatestEnd(w: seq<ProcessedPhase>, isMobile: bool, ends: map<string, int>, deps: seq<string>): int
  {
    if deps == [] then 0
    else
      var latest := LatestEnd(w, isMobile, ends, deps[..|deps| - 1]);
      var d := deps[|deps| - 1];
      if Skipped(w, isMobile, d) || d !in ends then latest
      else if ends[d] > latest then ends[d] else latest
  }

  /** A phase starts on the project start date, or on the business day after
      its latest prerequisite ends when that is after the epoch. */
  function PhaseStart(projectStart: int, latest: int): int
  {
    if latest > 0 then AddBusinessDays(latest, 1) else projectStart
  }

  /** The business days of a phase: the duration text, `'0 days'` when empty. */
  function ParsedDays(p: ProcessedPhase): nat
  {
    ParseDurationToBusinessDays(if p.duration == "" then "0 days" else p.duration)
  }

  /** The entry of a phase placed at `start`: it ends `max(1, d) - 1`
      business days later and records the parsed `d`. */
  function ScheduledEntry(p: ProcessedPhase, start: int): GanttPhase
  {
    var d := ParsedDays(p);
    GanttPhase(p.id, p.name, p.duration, On(start), On(AddBusinessDays(start, (if d > 1 then d else 1) - 1)), d)
  }

  /** The entry of a phase the loop could not place. */
  function ErrorEntry(p: ProcessedPhase): GanttPhase
  {
    GanttPhase(p.id, p.name, p.duration, Error, Error, 0)
  }

  /** An entry is made from one of the working phases. */
  ghost predicate EntryOf(w: seq<ProcessedPhase>, e: GanttPhase)
  {
    exists p :: p in w && p.id == e.id
                && (e == ErrorEntry(p) || (e.startDate.On? && e == ScheduledEntry(p, e.startDate.day)))
  }

  /** A phase the loop can place: each prerequisite that is not passed over
      is a working phase that can itself be placed. */
  predicate Schedulable(w: seq<ProcessedPhase>, isMobile: bool, id: string)
    decreases Depth(id)
  {
    forall d :: d in Dependencies(id) && !Skipped(w, isMobile, d) ==> d in IdSet(w) && Schedulable(w, isMobile, d)
  }

  // ---------------------------------------------------------------------
  // Facts about prerequisites
  // ---------------------------------------------------------------------

  /** The latest end bounds every prerequisite's end and is never before the epoch. */
  lemma {:induction false} LatestEndBound(w: seq<ProcessedPhase>, isMobile: bool, ends: map<string, int>,
                                          deps: seq<string>)
    ensures LatestEnd(w, isMobile, ends, deps) >= 0
    ensures forall i :: 0 <= i < |deps| && !Skipped(w, isMobile, deps[i]) && deps[i] in ends ==>
              ends[deps[i]] <= LatestEnd(w, isMobile, ends, deps)
  {
    if deps != [] {
      var init := deps[..|deps| - 1];
      LatestEndBound(w, isMobile, ends, init);
      assert forall i :: 0 <= i < |init| ==> init[i] == deps[i];
    }
  }

  /** Adding end dates of other phases changes neither readiness nor the
      latest prerequisite end of a phase whose prerequisites are ready. */
  lemma {:induction false} LatestEndFrame(w: seq<ProcessedPhase>, isMobile: bool, ends: map<string, int>,
                                          ends': map<string, int>, deps: seq<string>)
    requires DepsReady(w, isMobile, ends, deps)
    requires forall k :: k in ends ==> k in ends' && ends'[k] == ends[k]
    ensures DepsReady(w, isMobile, ends', deps)
    ensures LatestEnd(w, isMobile, ends', deps) == LatestEnd(w, isMobile, ends, deps)
  {
    if deps != [] {
      var init := deps[..|deps| - 1];
      assert forall i :: 0 <= i < |init| ==> init[i] == deps[i];
      LatestEndFrame(w, isMobile, ends, ends', init);
    }
  }

  /** When no prerequisite ends after the epoch, the phase starts on the
      project start date: this holds even when a prerequisite ends after that
      date, as it does for a project that starts before 1970. */
  lemma {:induction false} NoLaterEndStartsAtProjectStart(w: seq<ProcessedPhase>, isMobile: bool,
                                                          ends: map<string, int>, deps: seq<string>,
                                                          projectStart: int)
    requires forall i :: 0 <= i < |deps| && !Skipped(w, isMobile, deps[i]) && deps[i] in ends ==> ends[deps[i]] <= 0
    ensures LatestEnd(w, isMobile, ends, deps) == 0
    ensures PhaseStart(projectStart, LatestEnd(w, isMobile, ends, deps)) == projectStart
  {
    if deps != [] {
      var init := deps[..|deps| - 1];
      assert forall i :: 0 <= i < |init| ==> init[i] == deps[i];
      NoLaterEndStartsAtProjectStart(w, isMobile, ends, init, projectStart);
    }
  }

  /** Phases with no prerequisite in the table start on the project start date. */
  lemma NoDependenciesStartAtProjectStart(w: seq<ProcessedPhase>, isMobile: bool, ends: map<string, int>,
                                          id: string, projectStart: int)
    requires id !in DependencyTable
    ensures PhaseStart(projectStart, LatestEnd(w, isMobile, ends, Dependencies(id))) == projectStart
  {
  }

  /** For a project that starts after the epoch, a phase starts strictly
      after the end of every prerequisite it waited for. */
  lemma StartAfterPrerequisites(w: seq<ProcessedPhase>, isMobile: bool, ends: map<string, int>,
                                deps: seq<string>, projectStart: int)
    requires projectStart > 0
    ensures forall i :: 0 <= i < |deps| && !Skipped(w, isMobile, deps[i]) && deps[i] in ends ==>
              ends[deps[i]] < PhaseStart(projectStart, LatestEnd(w, isMobile, ends, deps))
  {
    LatestEndBound(w, isMobile, ends, deps);
  }

  /** A prerequisite that is neither passed over nor a working phase makes
      every phase that needs it, directly or not, unplaceable. */
  lemma MissingPrerequisiteBlocks(w: seq<ProcessedPhase>, isMobile: bool, id: string, d: string)
    requires d in Dependencies(id) && !Skipped(w, isMobile, d) && d !in IdSet(w)
    ensures !Schedulable(w, isMobile, id)
  {
  }

  /** In a mobile project with no `development_mobile` phase, testing, deployment
      and acceptance can never be placed. */
  lemma MobileProjectWithoutMobilePhase(w: seq<ProcessedPhase>)
    requires "development_mobile" !in IdSet(w)
    ensures !Schedulable(w, true, "testing_qa")
    ensures !Schedulable(w, true, "deployment")
    ensures !Schedulable(w, true, "uat")
  {
    assert "development_mobile" in Dependencies("testing_qa");
    assert "testing_qa" in Dependencies("deployment");
    assert "deployment" in Dependencies("uat");
  }

  // ---------------------------------------------------------------------
  // Phases left without dates
  // ---------------------------------------------------------------------

  /** The `'ERROR'` entries pushed, in order, for the working phases that
      have no end date once the iteration budget is spent. */
  function Unresolved(w: seq<ProcessedPhase>, done: set<string>): seq<GanttPhase>
  {
    if w == [] then []
    else
      var p := w[|w| - 1];
      Unresolved(w[..|w| - 1], done) + (if p.id in done then [] else [ErrorEntry(p)])
  }

  /** The unresolved entries are exactly the error entries of the phases
      without an end date. */
  lemma {:induction false} UnresolvedMembers(w: seq<ProcessedPhase>, done: set<string>)
    ensures forall p :: p in w && p.id !in done ==> ErrorEntry(p) in Unresolved(w, done)
    ensures forall e :: e in Unresolved(w, done) ==>
              e.startDate.Error? && e.id !in done && exists p :: p in w && e == ErrorEntry(p)
  {
    if w != [] {
      var init := w[..|w| - 1];
      UnresolvedMembers(init, done);
      assert w == init + [w[|w| - 1]];
    }
  }

  lemma StrictSubset(a: set<string>, b: set<string>, x: string)
    requires a <= b && x in b && x !in a
    ensures |a| < |b|
  {
    assert b == a + (b - a);
    assert x in b - a;
  }

  lemma IdSetSnoc(init: seq<ProcessedPhase>, p: ProcessedPhase)
    ensures IdSet(init + [p]) == IdSet(init) + {p.id}
  {
    assert forall q :: q in init + [p] <==> q in init || q == p;
  }

  /** In a list with distinct ids, the last id does not occur before it. */
  lemma LastIdIsNew(w: seq<ProcessedPhase>)
    requires w != [] && IdsDistinct(w)
    ensures IdsDistinct(w[..|w| - 1])
    ensures w[|w| - 1].id !in IdSet(w[..|w| - 1])
  {
    var init := w[..|w| - 1];
    assert forall i :: 0 <= i < |init| ==> init[i] == w[i];
    forall q | q in init ensures q.id != w[|w| - 1].id {
      var i :| 0 <= i < |init| && init[i] == q;
    }
  }

  lemma CardStep(a: set<string>, x: string, done: set<string>, ids: set<string>)
    requires a == done * ids
    ensures x in done ==> done * (ids + {x}) == a + {x} && |a + {x}| <= |a| + 1
    ensures x in done && x !in ids ==> |a + {x}| == |a| + 1
    ensures x !in done ==> done * (ids + {x}) == a
  {
  }

  /** Counting: done phases and unresolved entries together are at most the
      working phases, and exactly as many when ids are distinct. */
  lemma {:induction false} UnresolvedCount(w: seq<ProcessedPhase>, done: set<string>)
    ensures |done * IdSet(w)| + |Unresolved(w, done)| <= |w|
    ensures IdsDistinct(w) ==> |done * IdSet(w)| + |Unresolved(w, done)| == |w|
  {
    if w == [] {
      assert done * IdSet(w) == {};
    } else {
      var init := w[..|w| - 1];
      var p := w[|w| - 1];
      UnresolvedCount(init, done);
      assert w == init + [p];
      IdSetSnoc(init, p);
      CardStep(done * IdSet(init), p.id, done, IdSet(init));
      if IdsDistinct(w) {
        LastIdIsNew(w);
      }
    }
  }

  /** Once as many phases are done as there are working phases, none is
      left without a date. */
  lemma AllDone(w: seq<ProcessedPhase>, done: set<string>)
    requires done <= IdSet(w) && |done| >= |w|
    ensures Unresolved(w, done) == []
    ensures forall p :: p in w ==> p.id in done
  {
    UnresolvedCount(w, done);
    assert done * IdSet(w) == done;
    UnresolvedMembers(w, done);
  }

  /** With distinct working ids the unresolved entries have distinct ids. */
  lemma {:induction false} UnresolvedDistinct(w: seq<ProcessedPhase>, done: set<string>)
    requires IdsDistinct(w)
    ensures forall i, j :: 0 <= i < j < |Unresolved(w, done)| ==>
              Unresolved(w, done)[i].id != Unresolved(w, done)[j].id
  {
    if w != [] {
      var init := w[..|w| - 1];
      var p := w[|w| - 1];
      assert forall i :: 0 <= i < |init| ==> init[i] == w[i];
      UnresolvedDistinct(init, done);
      UnresolvedMembers(init, done);
      var u := Unresolved(init, done);
      forall e | e in u ensures e.id != p.id {
        var q :| q in init && e == ErrorEntry(q);
        var i :| 0 <= i < |init| && init[i] == q;
        assert w[i] == q;
      }
    }
  }

  // ---------------------------------------------------------------------
  // The final ordering
  // ---------------------------------------------------------------------

  /** `a` sorts strictly before `b`: a dated entry before a later one, and
      every dated entry before an `'ERROR'` one. */
  predicate Before(a: GanttPhase, b: GanttPhase)
  {
    a.startDate.On? && (b.startDate.Error? || a.startDate.day < b.startDate.day)
  }

  /** No later entry sorts strictly before an earlier one. */
  predicate Ordered(s: seq<GanttPhase>)
  {
    forall i, j :: 0 <= i < j < |s| ==> !Before(s[j], s[i])
  }

  /** Puts `x` before the first entry it sorts strictly before. */
  function InsertByStart(x: GanttPhase, s: seq<GanttPhase>): (r: seq<GanttPhase>)
    ensures |r| == |s| + 1
  {
    if s == [] then [x]
    else if Before(x, s[0]) then [x] + s
    else [s[0]] + InsertByStart(x, s[1..])
  }

  /** Insertion loses nothing and adds exactly `x`. */
  lemma {:induction false} InsertPermutes(x: GanttPhase, s: seq<GanttPhase>)
    ensures multiset(InsertByStart(x, s)) == multiset(s) + multiset{x}
  {
    if s != [] && !Before(x, s[0]) {
      assert s == [s[0]] + s[1..];
      InsertPermutes(x, s[1..]);
    }
  }

  /** The sort order is transitive across a strict step. */
  lemma BeforeStep(x: GanttPhase, y: GanttPhase, z: GanttPhase)
    requires Before(x, z) && !Before(y, z)
    ensures !Before(y, x)
  {
  }

  lemma OrderedTail(s: seq<GanttPhase>)
    requires s != [] && Ordered(s)
    ensures Ordered(s[1..])
    ensures forall y :: y in s[1..] ==> !Before(y, s[0])
  {
    assert forall i :: 0 <= i < |s[1..]| ==> s[1..][i] == s[i + 1];
  }

  lemma OrderedCons(x: GanttPhase, t: seq<GanttPhase>)
    requires Ordered(t)
    requires forall y :: y in t ==> !Before(y, x)
    ensures Ordered([x] + t)
  {
    var r := [x] + t;
    forall i, j | 0 <= i < j < |r| ensures !Before(r[j], r[i]) {
      assert r[j] == t[j - 1];
      if i > 0 {
        assert r[i] == t[i - 1];
      } else {
        assert t[j - 1] in t;
      }
    }
  }

  /** Inserting into an ordered list keeps it ordered. */
  lemma {:induction false} InsertOrdered(x: GanttPhase, s: seq<GanttPhase>)
    requires Ordered(s)
    ensures Ordered(InsertByStart(x, s))
  {
    if s != [] {
      OrderedTail(s);
      if Before(x, s[0]) {
        forall y | y in s ensures !Before(y, x) {
          if y != s[0] {
            assert y in s[1..] by {
              var k :| 0 <= k < |s| && s[k] == y;
              assert s[1..][k - 1] == y;
            }
            BeforeStep(x, y, s[0]);
          }
        }
        OrderedCons(x, s);
      } else {
        var t := InsertByStart(x, s[1..]);
        InsertOrdered(x, s[1..]);
        InsertPermutes(x, s[1..]);
        forall y | y in t ensures !Before(y, s[0]) {
          assert y in multiset(t);
        }
        OrderedCons(s[0], t);
      }
    }
  }

  /** `ganttPhases.sort` by start date: a stable sort that keeps `'ERROR'`
      entries after the dated ones. */
  function SortByStart(s: seq<GanttPhase>): (r: seq<GanttPhase>)
    ensures multiset(r) == multiset(s)
    ensures |r| == |s|
  {
    if s == [] then []
    else
      assert s == s[..|s| - 1] + [s[|s| - 1]];
      InsertPermutes(s[|s| - 1], SortByStart(s[..|s| - 1]));
      InsertByStart(s[|s| - 1], SortByStart(s[..|s| - 1]))
  }

  /** The sort puts no entry after one it sorts strictly before. */
  lemma {:induction false} SortOrdered(s: seq<GanttPhase>)
    ensures Ordered(SortByStart(s))
  {
    if s != [] {
      SortOrdered(s[..|s| - 1]);
      InsertOrdered(s[|s| - 1], SortByStart(s[..|s| - 1]));
    }
  }

  /** The entries of `s` that start at `d`, in their order in `s`. */
  function StartingAt(s: seq<GanttPhase>, d: When): (r: seq<GanttPhase>)
    ensures |r| <= |s|
  {
    if s == [] then []
    else (if s[0].startDate == d then [s[0]] else []) + StartingAt(s[1..], d)
  }

  lemma StartingAtCons(e: GanttPhase, t: seq<GanttPhase>, d: When)
    ensures StartingAt([e] + t, d) == (if e.startDate == d then [e] else []) + StartingAt(t, d)
  {
    assert ([e] + t)[1..] == t;
  }

  lemma {:induction false} StartingAtAppend(a: seq<GanttPhase>, b: seq<GanttPhase>, d: When)
    ensures StartingAt(a + b, d) == StartingAt(a, d) + StartingAt(b, d)
  {
    if a == [] {
      assert StartingAt(a + b, d) == StartingAt(b, d) by {
        assert a + b == b;
      }
    } else {
      var head := if a[0].startDate == d then [a[0]] else [];
      assert StartingAt(a + b, d) == head + StartingAt(a[1..] + b, d) by {
        assert (a + b)[0] == a[0] && (a + b)[1..] == a[1..] + b;
      }
      StartingAtAppend(a[1..], b, d);
      AppendAssociates(head, StartingAt(a[1..], d), StartingAt(b, d));
    }
  }

  lemma {:induction false} NoneStartingAt(s: seq<GanttPhase>, d: When)
    requires forall i :: 0 <= i < |s| ==> s[i].startDate != d
    ensures StartingAt(s, d) == []
  {
    if s != [] {
      NoneStartingAt(s[1..], d);
    }
  }

  /** An entry that sorts strictly before the head of an ordered list shares
      its start with no entry of the list. */
  lemma FrontStable(x: GanttPhase, s: seq<GanttPhase>, d: When)
    requires Ordered(s) && s != [] && Before(x, s[0])
    ensures StartingAt([x] + s, d) == StartingAt(s, d) + StartingAt([x], d)
  {
    StartingAtAppend([x], s, d);
    if x.startDate == d {
      forall i | 0 <= i < |s| ensures s[i].startDate != d {
        if i > 0 {
          assert !Before(s[i], s[0]);
        }
      }
      NoneStartingAt(s, d);
    }
  }

  /** Inserting into an ordered list puts the new entry after every entry
      with the same start. */
  lemma {:induction false} InsertStable(x: GanttPhase, s: seq<GanttPhase>, d: When)
    requires Ordered(s)
    ensures StartingAt(InsertByStart(x, s), d) == StartingAt(s, d) + StartingAt([x], d)
  {
    if s == [] {
      assert InsertByStart(x, s) == [x];
    } else if Before(x, s[0]) {
      FrontStable(x, s, d);
    } else {
      OrderedTail(s);
      InsertStable(x, s[1..], d);
      BehindStable(x, s, d);
    }
  }

  /** Insertion past the head keeps the head's place among the entries
      with its start. */
  lemma BehindStable(x: GanttPhase, s: seq<GanttPhase>, d: When)
    requires s != [] && !Before(x, s[0])
    requires StartingAt(InsertByStart(x, s[1..]), d) == StartingAt(s[1..], d) + StartingAt([x], d)
    ensures StartingAt(InsertByStart(x, s), d) == StartingAt(s, d) + StartingAt([x], d)
  {
    var t := InsertByStart(x, s[1..]);
    var head := if s[0].startDate == d then [s[0]] else [];
    assert InsertByStart(x, s) == [s[0]] + t;
    StartingAtCons(s[0], t, d);
    AppendAssociates(head, StartingAt(s[1..], d), StartingAt([x], d));
  }

  lemma AppendAssociates(a: seq<GanttPhase>, b: seq<GanttPhase>, c: seq<GanttPhase>)
    ensures a + (b + c) == (a + b) + c
  {
  }

  /** The sort is stable: the entries that start at any given date keep
      their relative order. */
  lemma {:induction false} SortStable(s: seq<GanttPhase>, d: When)
    ensures StartingAt(SortByStart(s), d) == StartingAt(s, d)
  {
    if s != [] {
      var init, last := s[..|s| - 1], s[|s| - 1];
      assert s == init + [last];
      SortStable(init, d);
      SortOrdered(init);
      InsertStable(last, SortByStart(init), d);
      StartingAtAppend(init, [last], d);
    }
  }

  /** An element that occurs once in a sequence, and shares its id with no
      other element, has an id no other position has. */
  lemma DistinctPosition(s: seq<GanttPhase>, i: int, j: int)
    requires 0 <= i < |s| && 0 <= j < |s| && i != j
    requires multiset(s)[s[i]] == 1
    requires forall f :: f in s && f != s[i] ==> f.id != s[i].id
    ensures s[i].id != s[j].id
  {
    if s[i] == s[j] {
      if i < j { OccursTwice(s, i, j); } else { OccursTwice(s, j, i); }
    }
  }

  lemma OccursTwice(s: seq<GanttPhase>, i: int, j: int)
    requires 0 <= i < j < |s| && s[i] == s[j]
    ensures multiset(s)[s[i]] >= 2
  {
    assert s == s[..j] + [s[j]] + s[j + 1..];
    assert s[..j][i] == s[i];
  }

  /** With distinct ids, each element occurs once. */
  lemma {:induction false} CountOne(s: seq<GanttPhase>, e: GanttPhase)
    requires forall i, j :: 0 <= i < j < |s| ==> s[i].id != s[j].id
    requires e in s
    ensures multiset(s)[e] == 1
  {
    var init := s[..|s| - 1];
    var last := s[|s| - 1];
    assert s == init + [last];
    assert forall i :: 0 <= i < |init| ==> init[i] == s[i];
    if last == e {
      assert forall k :: 0 <= k < |init| ==> init[k].id != last.id;
    } else {
      CountOne(init, e);
    }
  }

  // ---------------------------------------------------------------------
  // The scheduling loop
  // ---------------------------------------------------------------------

  /** A dated entry as the loop pushes it: its end date is the one recorded
      for its id, its prerequisites were ready, and it starts where
      `PhaseStart` puts it. */
  ghost predicate Resolved(w: seq<ProcessedPhase>, isMobile: bool, projectStart: int,
                           ends: map<string, int>, e: GanttPhase)
  {
    e.startDate.On? && e.id in ends && e.endDate == On(ends[e.id])
    && DepsReady(w, isMobile, ends, Dependencies(e.id))
    && e.startDate.day == PhaseStart(projectStart, LatestEnd(w, isMobile, ends, Dependencies(e.id)))
    && EntryOf(w, e)
  }

  /** Every working phase that can be placed has an end date. */
  predicate AllScheduled(w: seq<ProcessedPhase>, isMobile: bool, ends: map<string, int>)
  {
    forall p :: p in w && Schedulable(w, isMobile, p.id) ==> p.id in ends
  }

  /** Every recorded id is a working phase that can be placed. */
  predicate EndsPlaceable(w: seq<ProcessedPhase>, isMobile: bool, ends: map<string, int>)
  {
    forall k :: k in ends ==> k in IdSet(w) && Schedulable(w, isMobile, k)
  }

  ghost predicate AllResolved(w: seq<ProcessedPhase>, isMobile: bool, projectStart: int,
                              ends: map<string, int>, pushed: seq<GanttPhase>)
  {
    forall e :: e in pushed ==> Resolved(w, isMobile, projectStart, ends, e)
  }

  /** The pushed entries and the recorded ids match one to one: the last
      entry's id is recorded, and the other entries match the other ids. */
  ghost predicate OneEntryPerEnd(ends: map<string, int>, pushed: seq<GanttPhase>)
    decreases |pushed|
  {
    if pushed == [] then ends == map[]
    else
      var e := pushed[|pushed| - 1];
      e.id in ends && OneEntryPerEnd(ends - {e.id}, pushed[..|pushed| - 1])
  }

  /** What the match gives: distinct ids, each of them recorded, an entry
      for each recorded id, and as many entries as ids. */
  ghost predicate OneEntryFactsHold(ends: map<string, int>, pushed: seq<GanttPhase>)
  {
    (forall i, j :: 0 <= i < j < |pushed| ==> pushed[i].id != pushed[j].id)
    && (forall i :: 0 <= i < |pushed| ==> pushed[i].id in ends)
    && (forall k :: k in ends ==> exists i :: 0 <= i < |pushed| && pushed[i].id == k)
    && |pushed| == |ends|
  }

  lemma OneEntryFacts(ends: map<string, int>, pushed: seq<GanttPhase>)
    requires OneEntryPerEnd(ends, pushed)
    ensures OneEntryFactsHold(ends, pushed)
  {
    OneEntryDistinct(ends, pushed);
    OneEntryRecorded(ends, pushed);
    OneEntryCovers(ends, pushed);
    OneEntryCount(ends, pushed);
  }

  lemma {:induction false} OneEntryRecorded(ends: map<string, int>, pushed: seq<GanttPhase>)
    requires OneEntryPerEnd(ends, pushed)
    ensures forall i :: 0 <= i < |pushed| ==> pushed[i].id in ends
    decreases |pushed|
  {
    if pushed != [] {
      var n := |pushed| - 1;
      var init := pushed[..n];
      OneEntryRecorded(ends - {pushed[n].id}, init);
      forall i | 0 <= i < n ensures pushed[i].id in ends {
        assert pushed[i] == init[i];
      }
    }
  }

  lemma {:induction false} OneEntryDistinct(ends: map<string, int>, pushed: seq<GanttPhase>)
    requires OneEntryPerEnd(ends, pushed)
    ensures forall i, j :: 0 <= i < j < |pushed| ==> pushed[i].id != pushed[j].id
    decreases |pushed|
  {
    if pushed != [] {
      var n := |pushed| - 1;
      var init, rest := pushed[..n], ends - {pushed[n].id};
      OneEntryDistinct(rest, init);
      OneEntryRecorded(rest, init);
      forall i, j | 0 <= i < j < |pushed| ensures pushed[i].id != pushed[j].id {
        assert pushed[i] == init[i];
        if j < n {
          assert pushed[j] == init[j];
        }
      }
    }
  }

  lemma {:induction false} OneEntryCovers(ends: map<string, int>, pushed: seq<GanttPhase>)
    requires OneEntryPerEnd(ends, pushed)
    ensures forall k :: k in ends ==> exists i :: 0 <= i < |pushed| && pushed[i].id == k
    decreases |pushed|
  {
    if pushed != [] {
      var n := |pushed| - 1;
      var init, rest := pushed[..n], ends - {pushed[n].id};
      OneEntryCovers(rest, init);
      forall k | k in ends ensures exists i :: 0 <= i < |pushed| && pushed[i].id == k {
        if k != pushed[n].id {
          assert k in rest;
          var i :| 0 <= i < |init| && init[i].id == k;
          assert pushed[i] == init[i];
        }
      }
    }
  }

  lemma {:induction false} OneEntryCount(ends: map<string, int>, pushed: seq<GanttPhase>)
    requires OneEntryPerEnd(ends, pushed)
    ensures |pushed| == |ends|
    decreases |pushed|
  {
    if pushed != [] {
      var n := |pushed| - 1;
      var rest := ends - {pushed[n].id};
      OneEntryCount(rest, pushed[..n]);
      assert ends == rest[pushed[n].id := ends[pushed[n].id]];
    }
  }

  /** The state the loop keeps between phases: the end-date table
      (`phaseEndDates`) and the pushed entries agree, one entry per id. */
  ghost predicate Progress(w: seq<ProcessedPhase>, isMobile: bool, projectStart: int,
                           ends: map<string, int>, pushed: seq<GanttPhase>)
  {
    EndsPlaceable(w, isMobile, ends)
    && AllResolved(w, isMobile, projectStart, ends, pushed)
    && OneEntryPerEnd(ends, pushed)
  }

  lemma PlaceableStep(w: seq<ProcessedPhase>, isMobile: bool, ends: map<string, int>, p: ProcessedPhase, end: int)
    requires EndsPlaceable(w, isMobile, ends)
    requires p in w && DepsReady(w, isMobile, ends, Dependencies(p.id))
    ensures EndsPlaceable(w, isMobile, ends[p.id := end])
  {
    var deps := Dependencies(p.id);
    assert p.id in IdSet(w);
    forall d | d in deps && !Skipped(w, isMobile, d) ensures d in IdSet(w) && Schedulable(w, isMobile, d) {
      var i :| 0 <= i < |deps| && deps[i] == d;
    }
  }

  lemma ResolvedStep(w: seq<ProcessedPhase>, isMobile: bool, projectStart: int,
                     ends: map<string, int>, pushed: seq<GanttPhase>, p: ProcessedPhase, start: int)
    requires AllResolved(w, isMobile, projectStart, ends, pushed)
    requires p in w && p.id !in ends
    requires DepsReady(w, isMobile, ends, Dependencies(p.id))
    requires start == PhaseStart(projectStart, LatestEnd(w, isMobile, ends, Dependencies(p.id)))
    ensures AllResolved(w, isMobile, projectStart, ends[p.id := ScheduledEntry(p, start).endDate.day],
                        pushed + [ScheduledEntry(p, start)])
  {
    var e := ScheduledEntry(p, start);
    var ends' := ends[p.id := e.endDate.day];
    forall f | f in pushed + [e] ensures Resolved(w, isMobile, projectStart, ends', f) {
      if f == e {
        LatestEndFrame(w, isMobile, ends, ends', Dependencies(p.id));
        assert EntryOf(w, e) by {
          assert p in w && p.id == e.id && e == ScheduledEntry(p, e.startDate.day);
        }
      } else {
        assert Resolved(w, isMobile, projectStart, ends, f);
        LatestEndFrame(w, isMobile, ends, ends', Dependencies(f.id));
      }
    }
  }

  lemma OneEntryStep(ends: map<string, int>, pushed: seq<GanttPhase>, e: GanttPhase, end: int)
    requires OneEntryPerEnd(ends, pushed) && e.id !in ends
    ensures OneEntryPerEnd(ends[e.id := end], pushed + [e])
  {
    assert (pushed + [e])[..|pushed|] == pushed;
    assert ends[e.id := end] - {e.id} == ends;
  }

  /** The entry the loop builds is the scheduled entry of its phase. */
  lemma PushedEntryIsScheduled(p: ProcessedPhase, start: int, days: nat, end: int)
    requires days == ParseDurationToBusinessDays(if p.duration == "" then "0 days" else p.duration)
    requires end == AddBusinessDays(start, (if days > 1 then days else 1) - 1)
    ensures GanttPhase(p.id, p.name, p.duration, On(start), On(end), days) == ScheduledEntry(p, start)
  {
  }

  /** Placing a ready phase keeps the loop state. */
  lemma ScheduleStep(w: seq<ProcessedPhase>, isMobile: bool, projectStart: int,
                     ends: map<string, int>, pushed: seq<GanttPhase>, p: ProcessedPhase, start: int)
    requires Progress(w, isMobile, projectStart, ends, pushed)
    requires p in w && p.id !in ends
    requires DepsReady(w, isMobile, ends, Dependencies(p.id))
    requires start == PhaseStart(projectStart, LatestEnd(w, isMobile, ends, Dependencies(p.id)))
    ensures Progress(w, isMobile, projectStart, ends[p.id := ScheduledEntry(p, start).endDate.day],
                     pushed + [ScheduledEntry(p, start)])
  {
    var e := ScheduledEntry(p, start);
    PlaceableStep(w, isMobile, ends, p, e.endDate.day);
    ResolvedStep(w, isMobile, projectStart, ends, pushed, p, start);
    OneEntryStep(ends, pushed, e, e.endDate.day);
  }

  /** Following unready prerequisites down the chain ends at a phase that is
      ready to be placed. */
  lemma Descend(w: seq<ProcessedPhase>, isMobile: bool, ends: map<string, int>, id: string) returns (q: string)
    requires id in IdSet(w) && id !in ends && Schedulable(w, isMobile, id)
    ensures q in IdSet(w) && q !in ends && Schedulable(w, isMobile, q)
    ensures DepsReady(w, isMobile, ends, Dependencies(q))
    decreases Depth(id)
  {
    var deps := Dependencies(id);
    if DepsReady(w, isMobile, ends, deps) {
      q := id;
    } else {
      var i :| 0 <= i < |deps| && !Skipped(w, isMobile, deps[i]) && deps[i] !in ends;
      assert deps[i] in deps;
      q := Descend(w, isMobile, ends, deps[i]);
    }
  }

  // ---------------------------------------------------------------------
  // The loop as functions: what each step, pass and run of passes yields
  // ---------------------------------------------------------------------

  /** The loop's state: the end-date table (`phaseEndDates`) and the
      entries pushed so far (`ganttPhases`). */
  datatype PassState = PassState(ends: map<string, int>, pushed: seq<GanttPhase>)

  /** The body of a pass for one phase: a phase without an end date whose
      prerequisites are ready gets its entry pushed and its end date
      recorded; otherwise the state is unchanged. */
  function PlaceStep(w: seq<ProcessedPhase>, isMobile: bool, projectStart: int,
                     ends: map<string, int>, pushed: seq<GanttPhase>, phase: ProcessedPhase)
    : PassState
  {
    var deps := Dependencies(phase.id);
    if phase.id in ends || !DepsReady(w, isMobile, ends, deps) then PassState(ends, pushed)
    else
      var e := ScheduledEntry(phase, PhaseStart(projectStart, LatestEnd(w, isMobile, ends, deps)));
      PassState(ends[phase.id := e.endDate.day], pushed + [e])
  }

  /** A pass over the first `j` working phases, in their order. */
  function PassUpTo(w: seq<ProcessedPhase>, isMobile: bool, projectStart: int,
                    ends: map<string, int>, pushed: seq<GanttPhase>, j: nat)
    : PassState
    requires j <= |w|
  {
    if j == 0 then PassState(ends, pushed)
    else
      var before := PassUpTo(w, isMobile, projectStart, ends, pushed, j - 1);
      PlaceStep(w, isMobile, projectStart, before.ends, before.pushed, w[j - 1])
  }

  /** A pass keeps every recorded id placeable. */
  lemma {:induction false} PassKeepsPlaceable(w: seq<ProcessedPhase>, isMobile: bool, projectStart: int,
                                              ends: map<string, int>, pushed: seq<GanttPhase>, j: nat)
    requires j <= |w| && EndsPlaceable(w, isMobile, ends)
    ensures EndsPlaceable(w, isMobile, PassUpTo(w, isMobile, projectStart, ends, pushed, j).ends)
  {
    if j > 0 {
      PassKeepsPlaceable(w, isMobile, projectStart, ends, pushed, j - 1);
      var before := PassUpTo(w, isMobile, projectStart, ends, pushed, j - 1);
      var p := w[j - 1];
      var deps := Dependencies(p.id);
      if p.id !in before.ends && DepsReady(w, isMobile, before.ends, deps) {
        var e := ScheduledEntry(p, PhaseStart(projectStart, LatestEnd(w, isMobile, before.ends, deps)));
        PlaceableStep(w, isMobile, before.ends, p, e.endDate.day);
      }
    }
  }

  /** A pass keeps every pushed entry resolved. */
  lemma {:induction false} PassKeepsResolved(w: seq<ProcessedPhase>, isMobile: bool, projectStart: int,
                                             ends: map<string, int>, pushed: seq<GanttPhase>, j: nat)
    requires j <= |w| && AllResolved(w, isMobile, projectStart, ends, pushed)
    ensures var r := PassUpTo(w, isMobile, projectStart, ends, pushed, j);
            AllResolved(w, isMobile, projectStart, r.ends, r.pushed)
  {
    if j > 0 {
      PassKeepsResolved(w, isMobile, projectStart, ends, pushed, j - 1);
      var before := PassUpTo(w, isMobile, projectStart, ends, pushed, j - 1);
      var p := w[j - 1];
      var deps := Dependencies(p.id);
      if p.id !in before.ends && DepsReady(w, isMobile, before.ends, deps) {
        ResolvedStep(w, isMobile, projectStart, before.ends, before.pushed, p,
                     PhaseStart(projectStart, LatestEnd(w, isMobile, before.ends, deps)));
      }
    }
  }

  /** A step keeps one entry per recorded id. */
  lemma PlaceStepOneEntry(w: seq<ProcessedPhase>, isMobile: bool, projectStart: int,
                          ends: map<string, int>, pushed: seq<GanttPhase>, phase: ProcessedPhase)
    requires OneEntryPerEnd(ends, pushed)
    ensures var r := PlaceStep(w, isMobile, projectStart, ends, pushed, phase);
            OneEntryPerEnd(r.ends, r.pushed)
  {
    var deps := Dependencies(phase.id);
    if phase.id !in ends && DepsReady(w, isMobile, ends, deps) {
      var e := ScheduledEntry(phase, PhaseStart(projectStart, LatestEnd(w, isMobile, ends, deps)));
      OneEntryStep(ends, pushed, e, e.endDate.day);
    }
  }

  /** A pass keeps one entry per recorded id. */
  lemma {:induction false} PassKeepsOneEntry(w: seq<ProcessedPhase>, isMobile: bool, projectStart: int,
                                             ends: map<string, int>, pushed: seq<GanttPhase>, j: nat)
    requires j <= |w| && OneEntryPerEnd(ends, pushed)
    ensures var r := PassUpTo(w, isMobile, projectStart, ends, pushed, j);
            OneEntryPerEnd(r.ends, r.pushed)
  {
    if j > 0 {
      PassKeepsOneEntry(w, isMobile, projectStart, ends, pushed, j - 1);
      var before := PassUpTo(w, isMobile, projectStart, ends, pushed, j - 1);
      PlaceStepOneEntry(w, isMobile, projectStart, before.ends, before.pushed, w[j - 1]);
    }
  }

  /** A pass keeps the loop state. */
  lemma PassKeeps(w: seq<ProcessedPhase>, isMobile: bool, projectStart: int,
                  ends: map<string, int>, pushed: seq<GanttPhase>, j: nat)
    requires j <= |w| && Progress(w, isMobile, projectStart, ends, pushed)
    ensures var r := PassUpTo(w, isMobile, projectStart, ends, pushed, j);
            Progress(w, isMobile, projectStart, r.ends, r.pushed)
  {
    PassKeepsPlaceable(w, isMobile, projectStart, ends, pushed, j);
    PassKeepsResolved(w, isMobile, projectStart, ends, pushed, j);
    PassKeepsOneEntry(w, isMobile, projectStart, ends, pushed, j);
  }

  /** A pass only adds end dates and appends entries. */
  lemma {:induction false} PassGrows(w: seq<ProcessedPhase>, isMobile: bool, projectStart: int,
                                     ends: map<string, int>, pushed: seq<GanttPhase>, j: nat)
    requires j <= |w|
    ensures var r := PassUpTo(w, isMobile, projectStart, ends, pushed, j);
            ends.Keys <= r.ends.Keys && pushed <= r.pushed
  {
    if j > 0 {
      PassGrows(w, isMobile, projectStart, ends, pushed, j - 1);
    }
  }

  /** A pass places every phase whose prerequisites were ready when it
      began: end dates are only ever added, so they stay ready. */
  lemma {:induction false} PassPlacesReady(w: seq<ProcessedPhase>, isMobile: bool, projectStart: int,
                                           ends: map<string, int>, pushed: seq<GanttPhase>, j: nat, t: nat)
    requires t < j <= |w| && DepsReady(w, isMobile, ends, Dependencies(w[t].id))
    ensures w[t].id in PassUpTo(w, isMobile, projectStart, ends, pushed, j).ends
  {
    var before := PassUpTo(w, isMobile, projectStart, ends, pushed, j - 1);
    if t < j - 1 {
      PassPlacesReady(w, isMobile, projectStart, ends, pushed, j - 1, t);
    } else {
      var deps := Dependencies(w[t].id);
      PassGrows(w, isMobile, projectStart, ends, pushed, j - 1);
      assert DepsReady(w, isMobile, before.ends, deps) by {
        forall k | 0 <= k < |deps| ensures Skipped(w, isMobile, deps[k]) || deps[k] in before.ends {
        }
      }
    }
  }

  /** While a placeable phase is still missing, a pass over the working
      phases records at least one more end date. */
  lemma PassProgress(w: seq<ProcessedPhase>, isMobile: bool, projectStart: int,
                     ends: map<string, int>, pushed: seq<GanttPhase>)
    ensures var after := PassUpTo(w, isMobile, projectStart, ends, pushed, |w|).ends;
            AllScheduled(w, isMobile, ends) || |ends| < |after|
  {
    if !AllScheduled(w, isMobile, ends) {
      var p :| p in w && Schedulable(w, isMobile, p.id) && p.id !in ends;
      assert p.id in IdSet(w);
      var q := Descend(w, isMobile, ends, p.id);
      var target :| 0 <= target < |w| && w[target].id == q;
      PassPlacesReady(w, isMobile, projectStart, ends, pushed, |w|, target);
      PassGrows(w, isMobile, projectStart, ends, pushed, |w|);
      StrictSubset(ends.Keys, PassUpTo(w, isMobile, projectStart, ends, pushed, |w|).ends.Keys, q);
    }
  }

  /** The state after `n` iterations of the `while` loop from an empty
      table, where the loop stops early once as many end dates as working
      phases are recorded. */
  function Passes(w: seq<ProcessedPhase>, isMobile: bool, projectStart: int, n: nat)
    : PassState
  {
    if n == 0 then PassState(map[], [])
    else
      var before := Passes(w, isMobile, projectStart, n - 1);
      if |before.ends| >= |w| then before
      else PassUpTo(w, isMobile, projectStart, before.ends, before.pushed, |w|)
  }

  lemma PassesStep(w: seq<ProcessedPhase>, isMobile: bool, projectStart: int, n: nat,
                   ends: map<string, int>, pushed: seq<GanttPhase>, ends': map<string, int>, pushed': seq<GanttPhase>)
    requires PassState(ends, pushed) == Passes(w, isMobile, projectStart, n) && |ends| < |w|
    requires PassState(ends', pushed') == PassUpTo(w, isMobile, projectStart, ends, pushed, |w|)
    ensures PassState(ends', pushed') == Passes(w, isMobile, projectStart, n + 1)
  {
  }

  /** Once the loop has stopped, further iterations change nothing. */
  lemma {:induction false} PassesStay(w: seq<ProcessedPhase>, isMobile: bool, projectStart: int, n: nat, m: nat)
    requires n <= m && |Passes(w, isMobile, projectStart, n).ends| >= |w|
    ensures Passes(w, isMobile, projectStart, m) == Passes(w, isMobile, projectStart, n)
    decreases m
  {
    if n < m {
      PassesStay(w, isMobile, projectStart, n, m - 1);
    }
  }

  /** Every iteration keeps the loop state. */
  lemma {:induction false} PassesKeep(w: seq<ProcessedPhase>, isMobile: bool, projectStart: int, n: nat)
    ensures var r := Passes(w, isMobile, projectStart, n);
            Progress(w, isMobile, projectStart, r.ends, r.pushed)
  {
    if n > 0 {
      PassesKeep(w, isMobile, projectStart, n - 1);
      var before := Passes(w, isMobile, projectStart, n - 1);
      if |before.ends| < |w| {
        PassKeeps(w, isMobile, projectStart, before.ends, before.pushed, |w|);
      }
    }
  }

  /** Every id the passes record is a working phase that can be placed. */
  lemma PassesPlaceable(w: seq<ProcessedPhase>, isMobile: bool, projectStart: int, n: nat)
    ensures EndsPlaceable(w, isMobile, Passes(w, isMobile, projectStart, n).ends)
  {
    PassesKeep(w, isMobile, projectStart, n);
  }

  lemma ScheduledGrows(w: seq<ProcessedPhase>, isMobile: bool, ends: map<string, int>, ends': map<string, int>)
    requires AllScheduled(w, isMobile, ends) && ends.Keys <= ends'.Keys
    ensures AllScheduled(w, isMobile, ends')
  {
  }

  /** A pass that starts with phases missing keeps the count of recorded
      phases ahead of the passes run. */
  lemma PassAdvances(w: seq<ProcessedPhase>, isMobile: bool, projectStart: int,
                     ends: map<string, int>, pushed: seq<GanttPhase>, n: nat)
    requires AllScheduled(w, isMobile, ends) || n <= |ends|
    ensures var after := PassUpTo(w, isMobile, projectStart, ends, pushed, |w|).ends;
            AllScheduled(w, isMobile, after) || n + 1 <= |after|
  {
    var after := PassUpTo(w, isMobile, projectStart, ends, pushed, |w|).ends;
    PassProgress(w, isMobile, projectStart, ends, pushed);
    PassGrows(w, isMobile, projectStart, ends, pushed, |w|);
    if AllScheduled(w, isMobile, ends) {
      ScheduledGrows(w, isMobile, ends, after);
    }
  }

  /** After `n` iterations either every placeable phase is placed or at
      least `n` are. */
  lemma {:induction false} PassesAdvance(w: seq<ProcessedPhase>, isMobile: bool, projectStart: int, n: nat)
    ensures var ends := Passes(w, isMobile, projectStart, n).ends;
            AllScheduled(w, isMobile, ends) || n <= |ends|
  {
    if n > 0 {
      PassesAdvance(w, isMobile, projectStart, n - 1);
      var before := Passes(w, isMobile, projectStart, n - 1);
      if |before.ends| >= |w| {
        PassesPlaceable(w, isMobile, projectStart, n - 1);
        PassesDone(w, isMobile, before.ends);
      } else {
        PassAdvances(w, isMobile, projectStart, before.ends, before.pushed, n - 1);
      }
    }
  }

  /** `|w| * |w|` iterations are enough: the loop ends with every placeable
      phase placed. */
  lemma PassesComplete(w: seq<ProcessedPhase>, isMobile: bool, projectStart: int)
    ensures AllScheduled(w, isMobile, Passes(w, isMobile, projectStart, |w| * |w|).ends)
  {
    SquareBound(|w|);
    EnoughPasses(w, isMobile, projectStart, |w| * |w|);
  }

  /** Any budget of at least `|w|` iterations is enough. */
  lemma EnoughPasses(w: seq<ProcessedPhase>, isMobile: bool, projectStart: int, n: nat)
    requires |w| <= n
    ensures AllScheduled(w, isMobile, Passes(w, isMobile, projectStart, n).ends)
  {
    var ends := Passes(w, isMobile, projectStart, n).ends;
    PassesAdvance(w, isMobile, projectStart, n);
    if n <= |ends| {
      PassesPlaceable(w, isMobile, projectStart, n);
      PassesDone(w, isMobile, ends);
    }
  }

  /** The chart `generateGanttData` returns for the working phases: the
      entries pushed by at most `|w| * |w|` passes, then the `'ERROR'`
      entries when phases are still missing, sorted by start date. */
  function Schedule(w: seq<ProcessedPhase>, isMobile: bool, projectStart: int): seq<GanttPhase>
  {
    var run := Passes(w, isMobile, projectStart, |w| * |w|);
    SortByStart(run.pushed + (if |run.ends| < |w| then Unresolved(w, run.ends.Keys) else []))
  }

  /** The inner loop over `dependencies`: whether the phase can start, and
      the latest end of its prerequisites. */
  method CheckDependencies(w: seq<ProcessedPhase>, isMobile: bool, ends: map<string, int>, deps: seq<string>)
    returns (canStart: bool, latest: int)
    ensures canStart == DepsReady(w, isMobile, ends, deps)
    ensures canStart ==> latest == LatestEnd(w, isMobile, ends, deps)
  {
    canStart := true;
    latest := 0;
    for k := 0 to |deps|
      invariant DepsReady(w, isMobile, ends, deps[..k])
      invariant latest == LatestEnd(w, isMobile, ends, deps[..k])
    {
      assert deps[..k + 1][..k] == deps[..k];
      var depId := deps[k];
      if depId == "development_mobile" && !isMobile && depId !in IdSet(w) {
        continue;
      }
      if depId !in ends {
        canStart := false;
        break;
      }
      if ends[depId] > latest {
        latest := ends[depId];
      }
    }
    assert canStart ==> deps[..|deps|] == deps;
  }

  /** Placing a phase whose prerequisites are ready: its entry is pushed
      and its end date recorded. */
  method PushPhase(w: seq<ProcessedPhase>, isMobile: bool, projectStart: int,
                   ends0: map<string, int>, pushed0: seq<GanttPhase>, count0: nat, phase: ProcessedPhase, start: int)
    returns (ends: map<string, int>, pushed: seq<GanttPhase>, count: nat)
    requires count0 == |ends0| && phase.id !in ends0
    ensures count == |ends|
    ensures pushed == pushed0 + [ScheduledEntry(phase, start)]
    ensures ends == ends0[phase.id := ScheduledEntry(phase, start).endDate.day]
  {
    var days := ParseDurationToBusinessDays(if phase.duration == "" then "0 days" else phase.duration);
    var end := AdvanceBusinessDays(start, (if days > 1 then days else 1) - 1);
    var entry := GanttPhase(phase.id, phase.name, phase.duration, On(start), On(end), days);
    PushedEntryIsScheduled(phase, start, days, end);
    pushed := pushed0 + [entry];
    ends := ends0[phase.id := end];
    count := count0 + 1;
  }

  /** The body of the pass for one phase: a phase without an end date whose
      prerequisites are ready is placed and recorded; otherwise nothing
      changes. */
  method PlacePhase(w: seq<ProcessedPhase>, isMobile: bool, projectStart: int,
                    ends0: map<string, int>, pushed0: seq<GanttPhase>, count0: nat, phase: ProcessedPhase)
    returns (ends: map<string, int>, pushed: seq<GanttPhase>, count: nat)
    requires count0 == |ends0|
    ensures count == |ends|
    ensures PassState(ends, pushed) == PlaceStep(w, isMobile, projectStart, ends0, pushed0, phase)
  {
    ends, pushed, count := ends0, pushed0, count0;
    if phase.id in ends {
      return;
    }
    var deps := Dependencies(phase.id);
    var canStart := true;
    var start := projectStart;
    if |deps| > 0 {
      var latest;
      canStart, latest := CheckDependencies(w, isMobile, ends, deps);
      if canStart && latest > 0 {
        start := AdvanceBusinessDays(latest, 1);
      }
    }
    if canStart {
      assert start == PhaseStart(projectStart, LatestEnd(w, isMobile, ends, deps));
      ends, pushed, count := PushPhase(w, isMobile, projectStart, ends0, pushed0, count0, phase, start);
    }
  }

  /** One pass of the `for (const phase of phasesToProcess)` loop. While a
      placeable phase is still missing, a pass places at least one more. */
  method SchedulePass(w: seq<ProcessedPhase>, isMobile: bool, projectStart: int,
                      ends0: map<string, int>, pushed0: seq<GanttPhase>, count0: nat)
    returns (ends: map<string, int>, pushed: seq<GanttPhase>, count: nat)
    requires count0 == |ends0|
    ensures count == |ends|
    ensures PassState(ends, pushed) == PassUpTo(w, isMobile, projectStart, ends0, pushed0, |w|)
    ensures AllScheduled(w, isMobile, ends0) ==> AllScheduled(w, isMobile, ends)
    ensures AllScheduled(w, isMobile, ends0) || |ends0| < |ends|
  {
    ends, pushed, count := ends0, pushed0, count0;
    for j := 0 to |w|
      invariant count == |ends|
      invariant PassState(ends, pushed) == PassUpTo(w, isMobile, projectStart, ends0, pushed0, j)
    {
      ends, pushed, count := PlacePhase(w, isMobile, projectStart, ends, pushed, count, w[j]);
    }
    PassProgress(w, isMobile, projectStart, ends0, pushed0);
    PassGrows(w, isMobile, projectStart, ends0, pushed0, |w|);
  }

  /** The `phasesToProcess.forEach` that pushes an `'ERROR'` entry for every
      working phase without an end date. */
  method AppendUnresolved(w: seq<ProcessedPhase>, ends: map<string, int>, pushed0: seq<GanttPhase>)
    returns (pushed: seq<GanttPhase>)
    ensures pushed == pushed0 + Unresolved(w, ends.Keys)
  {
    pushed := pushed0;
    for j := 0 to |w|
      invariant pushed == pushed0 + Unresolved(w[..j], ends.Keys)
    {
      assert w[..j + 1][..j] == w[..j];
      if w[j].id !in ends {
        pushed := pushed + [ErrorEntry(w[j])];
      }
    }
    assert w[..|w|] == w;
  }

  // ---------------------------------------------------------------------
  // What the chart satisfies
  // ---------------------------------------------------------------------

  /** Every dated entry is as the loop placed it and is the only entry with its id. */
  ghost predicate DatedEntries(w: seq<ProcessedPhase>, isMobile: bool, projectStart: int,
                               ends: map<string, int>, chart: seq<GanttPhase>)
  {
    forall e :: e in chart && e.startDate.On? ==>
      Resolved(w, isMobile, projectStart, ends, e)
      && multiset(chart)[e] == 1 && forall f :: f in chart && f != e ==> f.id != e.id
  }

  /** Every working phase has an entry, and every recorded end date belongs
      to a dated entry. */
  ghost predicate Covers(w: seq<ProcessedPhase>, ends: map<string, int>, chart: seq<GanttPhase>)
  {
    (forall p :: p in w ==> exists e :: e in chart && e.id == p.id)
    && (forall k :: k in ends ==> exists e :: e in chart && e.id == k && e.startDate.On?)
  }

  /** Exactly the placeable phases get dates; the rest are `'ERROR'`. */
  ghost predicate DatedIffPlaceable(w: seq<ProcessedPhase>, isMobile: bool, chart: seq<GanttPhase>)
  {
    forall e :: e in chart ==> EntryOf(w, e) && (e.startDate.On? <==> Schedulable(w, isMobile, e.id))
  }

  /** With distinct phase ids, one entry per working phase. */
  ghost predicate OnePerPhase(w: seq<ProcessedPhase>, chart: seq<GanttPhase>)
  {
    IdsDistinct(w) ==>
      |chart| == |w|
      && forall e :: e in chart ==> multiset(chart)[e] == 1 && forall f :: f in chart && f != e ==> f.id != e.id
  }

  /** Everything `generateGanttData` promises about its result that does not
      depend on the order of the entries. */
  ghost predicate ChartContents(w: seq<ProcessedPhase>, isMobile: bool, projectStart: int,
                                ends: map<string, int>, chart: seq<GanttPhase>)
  {
    (forall k :: k in ends ==> k in IdSet(w))
    && DatedEntries(w, isMobile, projectStart, ends, chart)
    && Covers(w, ends, chart)
    && DatedIffPlaceable(w, isMobile, chart)
    && OnePerPhase(w, chart)
  }

  /** The chart: its contents, sorted by start date. */
  ghost predicate ScheduleFacts(w: seq<ProcessedPhase>, isMobile: bool, projectStart: int,
                                ends: map<string, int>, chart: seq<GanttPhase>)
  {
    ChartContents(w, isMobile, projectStart, ends, chart) && Ordered(chart)
  }

  /** The contents are the same for any arrangement of the entries. */
  lemma ContentsPermutation(w: seq<ProcessedPhase>, isMobile: bool, projectStart: int,
                            ends: map<string, int>, a: seq<GanttPhase>, b: seq<GanttPhase>)
    requires ChartContents(w, isMobile, projectStart, ends, a)
    requires multiset(a) == multiset(b)
    ensures ChartContents(w, isMobile, projectStart, ends, b)
  {
    assert forall e :: e in a <==> e in b by {
      forall e ensures e in a <==> e in b {
        assert e in a <==> e in multiset(a);
        assert e in b <==> e in multiset(b);
      }
    }
    assert |a| == |multiset(a)| == |multiset(b)| == |b|;
  }

  /** An entry of a list with distinct ids, followed by entries with other
      ids, occurs once and shares its id with no other entry. */
  lemma OnceBeforeOthers(resolved: seq<GanttPhase>, u: seq<GanttPhase>, e: GanttPhase)
    requires forall i, j :: 0 <= i < j < |resolved| ==> resolved[i].id != resolved[j].id
    requires e in resolved && forall f :: f in u ==> f.id != e.id
    ensures multiset(resolved + u)[e] == 1 && forall f :: f in resolved + u && f != e ==> f.id != e.id
  {
    CountOne(resolved, e);
    assert e !in u;
    assert multiset(resolved + u)[e] == multiset(resolved)[e] + multiset(u)[e];
    forall f | f in resolved + u && f != e ensures f.id != e.id {
      if f in resolved {
        var i :| 0 <= i < |resolved| && resolved[i] == e;
        var j :| 0 <= j < |resolved| && resolved[j] == f;
        if i < j {
          assert resolved[i].id != resolved[j].id;
        } else {
          assert resolved[j].id != resolved[i].id;
        }
      }
    }
  }

  lemma PreDated(w: seq<ProcessedPhase>, isMobile: bool, projectStart: int,
                 ends: map<string, int>, resolved: seq<GanttPhase>)
    requires Progress(w, isMobile, projectStart, ends, resolved)
    ensures DatedEntries(w, isMobile, projectStart, ends, resolved + Unresolved(w, ends.Keys))
  {
    var u := Unresolved(w, ends.Keys);
    UnresolvedMembers(w, ends.Keys);
    OneEntryFacts(ends, resolved);
    forall e | e in resolved + u && e.startDate.On?
      ensures Resolved(w, isMobile, projectStart, ends, e)
      ensures multiset(resolved + u)[e] == 1 && forall f :: f in resolved + u && f != e ==> f.id != e.id
    {
      assert e in resolved;
      OnceBeforeOthers(resolved, u, e);
    }
  }

  lemma PreCovers(w: seq<ProcessedPhase>, isMobile: bool, projectStart: int,
                  ends: map<string, int>, resolved: seq<GanttPhase>)
    requires Progress(w, isMobile, projectStart, ends, resolved)
    ensures Covers(w, ends, resolved + Unresolved(w, ends.Keys))
  {
    var u := Unresolved(w, ends.Keys);
    UnresolvedMembers(w, ends.Keys);
    OneEntryFacts(ends, resolved);
    assert forall i :: 0 <= i < |resolved| ==> resolved[i].startDate.On? by {
      forall i | 0 <= i < |resolved| ensures resolved[i].startDate.On? {
        assert resolved[i] in resolved;
      }
    }
    CoversOf(w, ends, resolved, u);
  }

  /** The entries pushed for the recorded ids, all dated, followed by an
      entry for each phase without an end date, cover every phase. */
  lemma CoversOf(w: seq<ProcessedPhase>, ends: map<string, int>, resolved: seq<GanttPhase>, u: seq<GanttPhase>)
    requires OneEntryFactsHold(ends, resolved)
    requires forall i :: 0 <= i < |resolved| ==> resolved[i].startDate.On?
    requires forall p :: p in w && p.id !in ends ==> ErrorEntry(p) in u
    ensures Covers(w, ends, resolved + u)
  {
    var pre := resolved + u;
    forall p | p in w ensures exists e :: e in pre && e.id == p.id {
      if p.id in ends {
        var i :| 0 <= i < |resolved| && resolved[i].id == p.id;
        assert resolved[i] in pre;
      } else {
        assert ErrorEntry(p) in pre;
      }
    }
    forall k | k in ends ensures exists e :: e in pre && e.id == k && e.startDate.On? {
      var i :| 0 <= i < |resolved| && resolved[i].id == k;
      assert resolved[i] in pre;
    }
  }

  lemma PrePlaceable(w: seq<ProcessedPhase>, isMobile: bool, projectStart: int,
                     ends: map<string, int>, resolved: seq<GanttPhase>)
    requires Progress(w, isMobile, projectStart, ends, resolved) && AllScheduled(w, isMobile, ends)
    ensures DatedIffPlaceable(w, isMobile, resolved + Unresolved(w, ends.Keys))
  {
    var u := Unresolved(w, ends.Keys);
    UnresolvedMembers(w, ends.Keys);
    forall e | e in resolved + u ensures EntryOf(w, e) && (e.startDate.On? <==> Schedulable(w, isMobile, e.id)) {
      if e in resolved {
        assert Resolved(w, isMobile, projectStart, ends, e);
      } else {
        var p :| p in w && e == ErrorEntry(p);
        assert p.id !in ends;
      }
    }
  }

  /** Distinct positions with distinct ids: each element occurs once and
      shares its id with no other. */
  lemma IdsOnce(s: seq<GanttPhase>)
    requires forall i, j :: 0 <= i < j < |s| ==> s[i].id != s[j].id
    ensures forall e :: e in s ==> multiset(s)[e] == 1 && forall f :: f in s && f != e ==> f.id != e.id
  {
    forall e | e in s ensures multiset(s)[e] == 1 && forall f :: f in s && f != e ==> f.id != e.id {
      CountOne(s, e);
      forall f | f in s && f != e ensures f.id != e.id {
        var i :| 0 <= i < |s| && s[i] == e;
        var j :| 0 <= j < |s| && s[j] == f;
        if i < j { assert s[i].id != s[j].id; } else { assert s[j].id != s[i].id; }
      }
    }
  }

  lemma PreIdsDistinct(w: seq<ProcessedPhase>, ends: map<string, int>, resolved: seq<GanttPhase>)
    requires IdsDistinct(w) && OneEntryPerEnd(ends, resolved)
    ensures var pre := resolved + Unresolved(w, ends.Keys);
            forall i, j :: 0 <= i < j < |pre| ==> pre[i].id != pre[j].id
  {
    var u := Unresolved(w, ends.Keys);
    var pre := resolved + u;
    OneEntryFacts(ends, resolved);
    UnresolvedDistinct(w, ends.Keys);
    UnresolvedMembers(w, ends.Keys);
    forall i, j | 0 <= i < j < |pre| ensures pre[i].id != pre[j].id {
      if j < |resolved| {
        assert pre[i] == resolved[i] && pre[j] == resolved[j];
      } else if i >= |resolved| {
        assert pre[i] == u[i - |resolved|] && pre[j] == u[j - |resolved|];
      } else {
        assert pre[i] == resolved[i] && resolved[i] in resolved;
        assert pre[j] == u[j - |resolved|] && pre[j] in u;
      }
    }
  }

  lemma PreOnePerPhase(w: seq<ProcessedPhase>, ends: map<string, int>, resolved: seq<GanttPhase>)
    requires ends.Keys <= IdSet(w) && OneEntryPerEnd(ends, resolved)
    ensures OnePerPhase(w, resolved + Unresolved(w, ends.Keys))
  {
    OneEntryFacts(ends, resolved);
    if IdsDistinct(w) {
      UnresolvedCount(w, ends.Keys);
      assert ends.Keys * IdSet(w) == ends.Keys;
      PreIdsDistinct(w, ends, resolved);
      IdsOnce(resolved + Unresolved(w, ends.Keys));
    }
  }

  /** The loop's final state yields a chart with all the promised facts. */
  lemma FinishSchedule(w: seq<ProcessedPhase>, isMobile: bool, projectStart: int,
                       ends: map<string, int>, resolved: seq<GanttPhase>)
    requires Progress(w, isMobile, projectStart, ends, resolved) && AllScheduled(w, isMobile, ends)
    ensures ScheduleFacts(w, isMobile, projectStart, ends, SortByStart(resolved + Unresolved(w, ends.Keys)))
  {
    var pre := resolved + Unresolved(w, ends.Keys);
    PreDated(w, isMobile, projectStart, ends, resolved);
    PreCovers(w, isMobile, projectStart, ends, resolved);
    PrePlaceable(w, isMobile, projectStart, ends, resolved);
    PreOnePerPhase(w, ends, resolved);
    ContentsPermutation(w, isMobile, projectStart, ends, pre, SortByStart(pre));
    SortOrdered(pre);
  }

  /** Appending the `'ERROR'` entries only when phases are missing appends
      the same as always appending them. */
  lemma NoneMissing(w: seq<ProcessedPhase>, isMobile: bool, ends: map<string, int>, pushed: seq<GanttPhase>)
    requires EndsPlaceable(w, isMobile, ends)
    ensures pushed + (if |ends| < |w| then Unresolved(w, ends.Keys) else []) == pushed + Unresolved(w, ends.Keys)
  {
    if |ends| >= |w| {
      PassesDone(w, isMobile, ends);
    }
  }

  /** Whether or not phases are missing, the chart is the sorted resolved
      entries followed by an `'ERROR'` entry for each missing phase: when
      none is missing that list is empty. */
  lemma ScheduleUnresolved(w: seq<ProcessedPhase>, isMobile: bool, projectStart: int)
    ensures var run := Passes(w, isMobile, projectStart, |w| * |w|);
            Schedule(w, isMobile, projectStart) == SortByStart(run.pushed + Unresolved(w, run.ends.Keys))
  {
    var run := Passes(w, isMobile, projectStart, |w| * |w|);
    PassesPlaceable(w, isMobile, projectStart, |w| * |w|);
    NoneMissing(w, isMobile, run.ends, run.pushed);
  }

  /** The chart `Schedule` yields has all the promised facts, against the
      end dates recorded by the passes. */
  lemma ScheduleHolds(w: seq<ProcessedPhase>, isMobile: bool, projectStart: int)
    ensures var ends := Passes(w, isMobile, projectStart, |w| * |w|).ends;
            ScheduleFacts(w, isMobile, projectStart, ends, Schedule(w, isMobile, projectStart))
  {
    var run := Passes(w, isMobile, projectStart, |w| * |w|);
    PassesKeep(w, isMobile, projectStart, |w| * |w|);
    PassesComplete(w, isMobile, projectStart);
    ScheduleUnresolved(w, isMobile, projectStart);
    FinishSchedule(w, isMobile, projectStart, run.ends, run.pushed);
  }

  /** Entries that start on the same date appear in the chart in the order
      the passes pushed them, the `'ERROR'` entries last. */
  lemma ScheduleKeepsPushOrder(w: seq<ProcessedPhase>, isMobile: bool, projectStart: int, d: When)
    ensures var run := Passes(w, isMobile, projectStart, |w| * |w|);
            StartingAt(Schedule(w, isMobile, projectStart), d)
            == StartingAt(run.pushed + Unresolved(w, run.ends.Keys), d)
  {
    var run := Passes(w, isMobile, projectStart, |w| * |w|);
    ScheduleUnresolved(w, isMobile, projectStart);
    SortStable(run.pushed + Unresolved(w, run.ends.Keys), d);
  }

  // ---------------------------------------------------------------------
  // generateGanttData
  // ---------------------------------------------------------------------

  /** The project start day, when there is step-6 data with a non-empty
      start date that parses. */
  function StartDay(step6: Option<ProcessedStep6>, parseDate: string -> Option<int>): (r: Option<int>)
    ensures r.Some? ==> step6.Some? && step6.value.projectStartDate.Some? && step6.value.projectStartDate.value != ""
  {
    if step6.None? || step6.value.projectStartDate.None? || step6.value.projectStartDate.value == "" then None
    else parseDate(step6.value.projectStartDate.value)
  }

  /** The pass budget `n * n` is at least the number of phases `n`. The
      loop needs no more than `n` iterations, since each one either finds
      every placeable phase placed or places one more (`PassesAdvance`). */
  lemma SquareBound(n: nat)
    ensures n <= n * n
  {
  }

  /** Once as many phases are recorded as there are working phases, all of
      them are, and none is left for an `'ERROR'` entry. */
  lemma PassesDone(w: seq<ProcessedPhase>, isMobile: bool, ends: map<string, int>)
    requires EndsPlaceable(w, isMobile, ends) && |ends| >= |w|
    ensures AllScheduled(w, isMobile, ends) && Unresolved(w, ends.Keys) == []
  {
    assert ends.Keys <= IdSet(w);
    AllDone(w, ends.Keys);
  }

  /** The `while` loop over passes, stopped after `|w| * |w|` passes: the
      result lists the dated entries in the order they were placed, then the
      `'ERROR'` entries of the phases left unplaced. The source appends those
      inside the last pass, once the pass limit is reached with phases
      missing; that is exactly when the loop ends with phases missing, so the
      model appends them after the loop. */
  method RunPasses(w: seq<ProcessedPhase>, isMobile: bool, projectStart: int)
    returns (pushed: seq<GanttPhase>, endDates: map<string, int>, ghost resolved: seq<GanttPhase>, iterations: nat)
    ensures PassState(endDates, resolved) == Passes(w, isMobile, projectStart, |w| * |w|)
    ensures pushed == resolved + (if |endDates| < |w| then Unresolved(w, endDates.Keys) else [])
    ensures iterations <= |w| * |w|
  {
    pushed := [];
    endDates := map[];
    var processedCount := 0;
    var maxIterations := |w| * |w|;
    iterations := 0;
    while processedCount < |w| && iterations < maxIterations
      invariant iterations <= maxIterations && processedCount == |endDates|
      invariant PassState(endDates, pushed) == Passes(w, isMobile, projectStart, iterations)
      decreases maxIterations - iterations
    {
      ghost var before, beforePushed := endDates, pushed;
      endDates, pushed, processedCount := SchedulePass(w, isMobile, projectStart, endDates, pushed, processedCount);
      PassesStep(w, isMobile, projectStart, iterations, before, beforePushed, endDates, pushed);
      iterations := iterations + 1;
    }
    if iterations < maxIterations {
      PassesStay(w, isMobile, projectStart, iterations, maxIterations);
    }
    resolved := pushed;
    if processedCount < |w| {
      pushed := AppendUnresolved(w, endDates, pushed);
    }
  }

  /** The passes, then `ganttPhases.sort` by start date. */
  method ScheduleAll(w: seq<ProcessedPhase>, isMobile: bool, projectStart: int)
    returns (chart: seq<GanttPhase>, ghost passes: nat)
    ensures chart == Schedule(w, isMobile, projectStart)
    ensures passes <= |w| * |w|
  {
    var pushed, endDates, iterations;
    ghost var resolved;
    pushed, endDates, resolved, iterations := RunPasses(w, isMobile, projectStart);
    chart := SortByStart(pushed);
    passes := iterations;
  }

  /** `GanttChartService.generateGanttData`. `ends` is the final
      `phaseEndDates` table and `passes` the number of passes made. */
  method GenerateGanttData(step6: Option<ProcessedStep6>, isMobile: bool, parseDate: string -> Option<int>)
    returns (chart: seq<GanttPhase>, ghost ends: map<string, int>, ghost passes: nat)
    ensures StartDay(step6, parseDate).None? ==> chart == []
    ensures StartDay(step6, parseDate).Some? ==>
              var w := WorkingPhases(step6.value.phaseDurations, isMobile);
              var start := StartDay(step6, parseDate).value;
              chart == Schedule(w, isMobile, start)
              && ScheduleFacts(w, isMobile, start, ends, chart)
              && passes <= |w| * |w|
  {
    if step6.None? || step6.value.projectStartDate.None? || step6.value.projectStartDate.value == "" {
      return [], map[], 0;
    }
    var parsed := parseDate(step6.value.projectStartDate.value);
    if parsed.None? {
      return [], map[], 0;
    }
    var w := step6.value.phaseDurations;
    if !isMobile {
      var i := IndexOfId(w, "development_mobile");
      if i > -1 {
        w := w[..i] + w[i + 1..];
      }
    }
    assert w == WorkingPhases(step6.value.phaseDurations, isMobile);
    chart, passes := ScheduleAll(w, isMobile, parsed.value);
    ends := Passes(w, isMobile, parsed.value, |w| * |w|).ends;
    ScheduleHolds(w, isMobile, parsed.value);
  }

  // ---------------------------------------------------------------------
  // Consequences for the chart
  // ---------------------------------------------------------------------

  /** No phase is placed twice: a dated entry shares its id with no other
      position of the chart. */
  lemma PlacedAtMostOnce(w: seq<ProcessedPhase>, isMobile: bool, projectStart: int,
                         ends: map<string, int>, chart: seq<GanttPhase>)
    requires ScheduleFacts(w, isMobile, projectStart, ends, chart)
    ensures forall i, j :: 0 <= i < |chart| && 0 <= j < |chart| && i != j && chart[i].startDate.On? ==>
              chart[i].id != chart[j].id
  {
    forall i, j | 0 <= i < |chart| && 0 <= j < |chart| && i != j && chart[i].startDate.On?
      ensures chart[i].id != chart[j].id
    {
      assert chart[i] in chart;
      DistinctPosition(chart, i, j);
    }
  }

  /** With distinct phase ids, the chart has exactly one entry per working phase. */
  lemma OneEntryPerWorkingPhase(w: seq<ProcessedPhase>, isMobile: bool, projectStart: int,
                                ends: map<string, int>, chart: seq<GanttPhase>)
    requires ScheduleFacts(w, isMobile, projectStart, ends, chart) && IdsDistinct(w)
    ensures |chart| == |w|
    ensures forall i, j :: 0 <= i < j < |chart| ==> chart[i].id != chart[j].id
    ensures forall p :: p in w ==> exists e :: e in chart && e.id == p.id
  {
    forall i, j | 0 <= i < j < |chart| ensures chart[i].id != chart[j].id {
      assert chart[i] in chart;
      DistinctPosition(chart, i, j);
    }
  }

  /** For a project that starts after 1970-01-01, every dated phase starts
      strictly after each of its dated prerequisites ends. */
  lemma StartsAfterDependencies(w: seq<ProcessedPhase>, isMobile: bool, projectStart: int,
                                ends: map<string, int>, chart: seq<GanttPhase>)
    requires ScheduleFacts(w, isMobile, projectStart, ends, chart) && projectStart > 0
    ensures forall e, f :: (e in chart && f in chart && e.startDate.On? && f.startDate.On?
                            && f.id in Dependencies(e.id)) ==> f.endDate.day < e.startDate.day
  {
    forall e, f | e in chart && f in chart && e.startDate.On? && f.startDate.On? && f.id in Dependencies(e.id)
      ensures f.endDate.day < e.startDate.day
    {
      var deps := Dependencies(e.id);
      assert Resolved(w, isMobile, projectStart, ends, e);
      assert Resolved(w, isMobile, projectStart, ends, f);
      var i :| 0 <= i < |deps| && deps[i] == f.id;
      assert !Skipped(w, isMobile, deps[i]);
      StartAfterPrerequisites(w, isMobile, ends, deps, projectStart);
    }
  }

  /** A dated phase without prerequisites in the table starts on the
      project start date. */
  lemma IndependentPhasesStartAtProjectStart(w: seq<ProcessedPhase>, isMobile: bool, projectStart: int,
                                             ends: map<string, int>, chart: seq<GanttPhase>)
    requires ScheduleFacts(w, isMobile, projectStart, ends, chart)
    ensures forall e :: e in chart && e.startDate.On? && e.id !in DependencyTable ==>
              e.startDate.day == projectStart
  {
    forall e | e in chart && e.startDate.On? && e.id !in DependencyTable ensures e.startDate.day == projectStart {
      assert Resolved(w, isMobile, projectStart, ends, e);
      NoDependenciesStartAtProjectStart(w, isMobile, ends, e.id, projectStart);
    }
  }

  /** A plan of one phase without prerequisites: the chart is that phase,
      placed on the project start date. */
  lemma LonePhaseChart(p: ProcessedPhase, isMobile: bool, projectStart: int,
                       ends: map<string, int>, chart: seq<GanttPhase>)
    requires ScheduleFacts([p], isMobile, projectStart, ends, chart) && Dependencies(p.id) == []
    ensures chart == [ScheduledEntry(p, projectStart)]
  {
    var w := [p];
    assert IdsDistinct(w);
    var e := chart[0];
    assert e in chart;
    assert e.id == p.id && e.startDate.On? by {
      assert EntryOf(w, e);
      assert Schedulable(w, isMobile, e.id);
    }
    assert e.startDate.day == projectStart by {
      assert Resolved(w, isMobile, projectStart, ends, e);
    }
  }

  /** A dated phase spans `max(1, d)` business days counting its start day,
      where `d` is its parsed duration, recorded in the entry: its end is the
      start moved forward by `max(1, d) - 1` business days. */
  lemma DatedPhaseSpan(w: seq<ProcessedPhase>, isMobile: bool, projectStart: int,
                       ends: map<string, int>, chart: seq<GanttPhase>)
    requires ScheduleFacts(w, isMobile, projectStart, ends, chart)
    ensures forall e :: e in chart && e.startDate.On? ==>
              e.endDate.On? && e.startDate.day <= e.endDate.day
              && e.endDate.day
                 == AddBusinessDays(e.startDate.day, (if e.calculatedDurationDays > 1 then e.calculatedDurationDays else 1) - 1)
              && CountBusinessDays(e.startDate.day, e.endDate.day)
                 == (if e.calculatedDurationDays > 1 then e.calculatedDurationDays else 1) - 1
              && exists p :: p in w && p.id == e.id && e.calculatedDurationDays == ParsedDays(p)
  {
    assert forall e :: e in chart && e.startDate.On? ==> EntryOf(w, e);
    EntriesSpan(w, chart);
  }

  /** Every dated entry built from a working phase spans its parsed duration. */
  lemma EntriesSpan(w: seq<ProcessedPhase>, chart: seq<GanttPhase>)
    requires forall e :: e in chart && e.startDate.On? ==> EntryOf(w, e)
    ensures forall e :: e in chart && e.startDate.On? ==>
              e.endDate.On? && e.startDate.day <= e.endDate.day
              && e.endDate.day
                 == AddBusinessDays(e.startDate.day, (if e.calculatedDurationDays > 1 then e.calculatedDurationDays else 1) - 1)
              && CountBusinessDays(e.startDate.day, e.endDate.day)
                 == (if e.calculatedDurationDays > 1 then e.calculatedDurationDays else 1) - 1
              && exists p :: p in w && p.id == e.id && e.calculatedDurationDays == ParsedDays(p)
  {
    forall e | e in chart && e.startDate.On?
      ensures e.endDate.On? && e.startDate.day <= e.endDate.day
      ensures e.endDate.day
              == AddBusinessDays(e.startDate.day, (if e.calculatedDurationDays > 1 then e.calculatedDurationDays else 1) - 1)
      ensures CountBusinessDays(e.startDate.day, e.endDate.day)
              == (if e.calculatedDurationDays > 1 then e.calculatedDurationDays else 1) - 1
      ensures exists p :: p in w && p.id == e.id && e.calculatedDurationDays == ParsedDays(p)
    {
      var p :| p in w && p.id == e.id && (e == ErrorEntry(p) || (e.startDate.On? && e == ScheduledEntry(p, e.startDate.day)));
      EntrySpan(p, e.startDate.day);
    }
  }

  /** One entry placed on `start`. */
  lemma EntrySpan(p: ProcessedPhase, start: int)
    ensures var e := ScheduledEntry(p, start);
            e.endDate.On? && start <= e.endDate.day && e.calculatedDurationDays == ParsedDays(p)
            && e.endDate.day == AddBusinessDays(start, (if e.calculatedDurationDays > 1 then e.calculatedDurationDays else 1) - 1)
            && CountBusinessDays(start, e.endDate.day)
               == (if e.calculatedDurationDays > 1 then e.calculatedDurationDays else 1) - 1
  {
  }

  /** The plan holds every phase of the table, the mobile one only when the
      project is mobile. */
  predicate HoldsAllPhases(w: seq<ProcessedPhase>, isMobile: bool)
  {
    var ids := IdSet(w);
    "discovery_planning" in ids && "design_ux_ui" in ids && "development_backend" in ids
    && "development_frontend" in ids && "testing_qa" in ids && "deployment" in ids && "uat" in ids
    && (isMobile ==> "development_mobile" in ids)
  }

  /** The prerequisites named in the table. */
  lemma PrerequisiteIds(id: string, d: string)
    requires d in Dependencies(id)
    ensures d == "discovery_planning" || d == "design_ux_ui" || d == "development_backend"
            || d == "development_frontend" || d == "development_mobile" || d == "testing_qa"
            || d == "deployment"
  {
  }

  /** Every phase can be placed in such a plan. */
  lemma {:induction false} CompletePlanPlaceable(w: seq<ProcessedPhase>, isMobile: bool, id: string)
    requires HoldsAllPhases(w, isMobile)
    ensures Schedulable(w, isMobile, id)
    decreases Depth(id)
  {
    forall d | d in Dependencies(id) && !Skipped(w, isMobile, d) ensures d in IdSet(w) && Schedulable(w, isMobile, d) {
      PrerequisiteIds(id, d);
      CompletePlanPlaceable(w, isMobile, d);
    }
  }

  /** The chart of such a plan has no `'ERROR'` entry. */
  lemma CompletePlanHasNoErrors(w: seq<ProcessedPhase>, isMobile: bool, projectStart: int,
                                ends: map<string, int>, chart: seq<GanttPhase>)
    requires ScheduleFacts(w, isMobile, projectStart, ends, chart) && HoldsAllPhases(w, isMobile)
    ensures forall e :: e in chart ==> e.startDate.On?
  {
    forall e | e in chart ensures e.startDate.On? {
      CompletePlanPlaceable(w, isMobile, e.id);
    }
  }

  /** A mobile project whose phases lack `development_mobile` gets `'ERROR'`
      for testing, deployment and acceptance. */
  lemma MobileWithoutMobilePhaseErrors(w: seq<ProcessedPhase>, projectStart: int,
                                       ends: map<string, int>, chart: seq<GanttPhase>)
    requires ScheduleFacts(w, true, projectStart, ends, chart)
    requires "development_mobile" !in IdSet(w)
    ensures forall e :: e in chart && (e.id == "testing_qa" || e.id == "deployment" || e.id == "uat") ==>
              e.startDate.Error?
  {
    MobileProjectWithoutMobilePhase(w);
  }
}

=== FILE: proposal.dfy ===
/** `generateProposalDocument` of backend/src/proposal/proposal.service.ts:
    the mobile flag, the schedule, the cost estimate computed from that
    schedule, the three rendered text sections and the PDF input. Template
    rendering and PDF generation are abstract functions. */
module Proposal {
  import opened Wrappers
  import opened Calendar
  import opened Duration
  import opened WizardData
  import opened Gantt
  import opened Costing
  import opened Templates

  type Byte = x: int | 0 <= x < 256

  /** `templateDataForTextSections`: the processed data with the schedule
      and the estimate added. */
  datatype TemplateData = TemplateData(data: ProcessedWizardData, ganttPhases: seq<GanttPhase>,
                                       costEstimation: CostEstimation)

  /** `pdfInputData`. */
  datatype PdfInput = PdfInput(executiveSummary: string, introduction: string, technicalSolution: string,
                               ganttPhases: seq<GanttPhase>, costEstimation: CostEstimation,
                               step10: Option<ProcessedStep10>)

  /** `isMobileProject`: step 1 names exactly `mobile` or `both`. */
  predicate IsMobileProject(data: ProcessedWizardData)
  {
    AppType(data) == Some("mobile") || AppType(data) == Some("both")
  }

  /** A project the scheduler treats as mobile also keeps its mobile phase
      in processing, whose test is a substring match; the converse fails
      (an application type such as `automobile` passes only the latter). */
  lemma MobileProjectIsMobileLike(data: ProcessedWizardData)
    ensures IsMobileProject(data) ==> MobileLike(AppType(data))
    ensures MobileLike(Some("automobile")) && !IsMobileProject(data.(step1 := Some(ProcessedStep1(Some("automobile"), "", None))))
  {
    assert OccursAt("mobile", "mobile", 0);
    assert OccursAt("both", "both", 0);
    assert OccursAt("automobile", "mobile", 4);
  }

  /** `processAndValidateWizardData`: the form processed step by step as
      `WizardDataProcessingService.process` does, every step present exactly
      when the form has it. The phase list of step 6 comes from the keys of
      an object, so its ids are distinct, and so are those of the processed
      list. */
  method ProcessAndValidateWizardData(form: WizardForm, tables: NameTables) returns (r: ProcessedWizardData)
    requires form.step6.Some? && form.step6.value.phaseDurations.Some? ==>
               KeysDistinct(form.step6.value.phaseDurations.value)
    ensures r.step1 == if form.step1.Some? then Some(ProcessStep1(form.step1.value)) else None
    ensures r.step2 == form.step2
    ensures r.step3 == if form.step3.Some? then Some(ProcessStep3(form.step3.value, tables)) else None
    ensures r.step4 == if form.step4.Some? then Some(ProcessStep4(form.step4.value, tables)) else None
    ensures r.step5 == if form.step5.Some? then Some(ProcessStep5(form.step5.value, tables)) else None
    ensures r.step6 == if form.step6.Some?
                       then Some(ProcessStep6(form.step6.value,
                                              MobileLike(if form.step1.Some? then form.step1.value.applicationType else None)))
                       else None
    ensures r.step7 == if form.step7.Some? then Some(ProcessStep7(form.step7.value, tables)) else None
    ensures r.step8 == if form.step8.Some? then Some(ProcessStep8(form.step8.value, tables)) else None
    ensures r.step9 == if form.step9.Some? then Some(ProcessStep9(form.step9.value, tables)) else None
    ensures r.step10 == if form.step10.Some? then Some(ProcessStep10(form.step10.value)) else None
    ensures r.step6.Some? ==> IdsDistinct(r.step6.value.phaseDurations)
  {
    r := Process(form, tables);
  }

  /** Everything `generateProposalDocument` promises: the schedule of the
      working phases, the estimate of exactly that schedule, the three
      sections rendered from the same data, and the PDF made from them. */
  ghost predicate Proposed(data: ProcessedWizardData, parseDate: string -> Option<int>,
                           render: (string, TemplateData) -> string, generatePdf: PdfInput -> seq<Byte>,
                           pdf: seq<Byte>, input: PdfInput, ends: map<string, int>)
  {
    var isMobile := IsMobileProject(data);
    var sections := TemplateData(data, input.ganttPhases, input.costEstimation);
    (StartDay(data.step6, parseDate).None? ==> input.ganttPhases == [])
    && (StartDay(data.step6, parseDate).Some? ==>
          var w := WorkingPhases(data.step6.value.phaseDurations, isMobile);
          var start := StartDay(data.step6, parseDate).value;
          input.ganttPhases == Schedule(w, isMobile, start)
          && ScheduleFacts(w, isMobile, start, ends, input.ganttPhases))
    && input.costEstimation == Estimate(data, input.ganttPhases)
    && input.executiveSummary == render("executiveSummary.md", sections)
    && input.introduction == render("introduction.md", sections)
    && input.technicalSolution == render(TechnicalSolutionTemplate(data), sections)
    && input.step10 == data.step10
    && pdf == generatePdf(input)
  }

  /** `generateProposalDocument`; the PDF input and the schedule's end-date
      table are returned as ghost results so that the contract can name them. */
  method GenerateProposalDocument(data: ProcessedWizardData, parseDate: string -> Option<int>,
                                  render: (string, TemplateData) -> string, generatePdf: PdfInput -> seq<Byte>)
    returns (pdf: seq<Byte>, ghost input: PdfInput, ghost ends: map<string, int>)
    ensures Proposed(data, parseDate, render, generatePdf, pdf, input, ends)
  {
    var isMobileProject := IsMobileProject(data);
    var ganttPhases, phaseEnds, passes := GenerateGanttData(data.step6, isMobileProject, parseDate);
    var costEstimation := EstimateCosts(data, ganttPhases);
    var sections := TemplateData(data, ganttPhases, costEstimation);
    var executiveSummary := render("executiveSummary.md", sections);
    var introduction := render("introduction.md", sections);
    var technicalSolution := render(TechnicalSolutionTemplate(data), sections);
    var pdfInput := PdfInput(executiveSummary, introduction, technicalSolution, ganttPhases, costEstimation, data.step10);
    pdf := generatePdf(pdfInput);
    input, ends := pdfInput, phaseEnds;
  }

  /** Data from `ProcessAndValidateWizardData` has distinct phase ids, so
      a proposal made from it with a start date has exactly one chart entry
      per working phase. */
  lemma ProposalOneEntryPerPhase(data: ProcessedWizardData, parseDate: string -> Option<int>,
                                 render: (string, TemplateData) -> string, generatePdf: PdfInput -> seq<Byte>,
                                 pdf: seq<Byte>, input: PdfInput, ends: map<string, int>)
    requires Proposed(data, parseDate, render, generatePdf, pdf, input, ends)
    requires StartDay(data.step6, parseDate).Some? && IdsDistinct(data.step6.value.phaseDurations)
    ensures var w := WorkingPhases(data.step6.value.phaseDurations, IsMobileProject(data));
            var chart := input.ganttPhases;
            |chart| == |w|
            && (forall i, j :: 0 <= i < j < |chart| ==> chart[i].id != chart[j].id)
            && forall p :: p in w ==> exists e :: e in chart && e.id == p.id
  {
    var isMobile := IsMobileProject(data);
    var w := WorkingPhases(data.step6.value.phaseDurations, isMobile);
    WorkingPhasesDistinct(data.step6.value.phaseDurations, isMobile);
    OneEntryPerWorkingPhase(w, isMobile, StartDay(data.step6, parseDate).value, ends, input.ganttPhases);
  }

  // ---------------------------------------------------------------------
  // End to end: one two-week phase staffed by one project manager
  // ---------------------------------------------------------------------

  const Discovery: ProcessedPhase := ProcessedPhase("discovery_planning", "Discovery & Planning", "2 weeks")
  const Manager: ProcessedRole := ProcessedRole("project_manager", "Project Manager", Number(1.0), Number(100.0))

  /** The discovery phase, placed on Monday `m`. */
  function DiscoveryEntry(m: int): GanttPhase
  {
    GanttPhase("discovery_planning", "Discovery & Planning", "2 weeks", On(m), On(m + 11), 10)
  }

  /** Two weeks from a Monday end on the Friday of the following week. */
  lemma DiscoveryFromMonday(m: int)
    requires Weekday(m) == 1
    ensures ScheduledEntry(Discovery, m) == DiscoveryEntry(m)
  {
    ExampleWeeks(Discovery.duration);
    assert ParsedDays(Discovery) == 10;
    MondayPlusNine(m);
  }

  /** The schedule of a lone two-week discovery phase from a Monday: it
      starts that Monday, ends on the Friday of the next week and lasts
      10 business days. */
  lemma ExampleSchedule(isMobile: bool, m: int, ends: map<string, int>, chart: seq<GanttPhase>)
    requires Weekday(m) == 1
    requires ScheduleFacts([Discovery], isMobile, m, ends, chart)
    ensures chart == [DiscoveryEntry(m)]
  {
    assert Dependencies(Discovery.id) == [];
    LonePhaseChart(Discovery, isMobile, m, ends, chart);
    DiscoveryFromMonday(m);
  }

  /** The estimate for that schedule: 80 hours at 100 per hour in the one
      phase, no complexity adjustment, currency USD. */
  lemma ExampleCost(data: ProcessedWizardData, m: int)
    requires data.step9.None?
    requires data.step10.Some? && data.step10.value.roles == [Manager] && data.step10.value.customRoles == []
    ensures Estimate(data, [DiscoveryEntry(m)])
            == CostEstimation([PhaseBreakdown("discovery_planning", "Discovery & Planning", 8000.0, 80.0,
                                              [RoleBreakdown("Project Manager", Number(1.0), Number(100.0), 80.0, 8000.0)])],
                              8000.0, 1.0, Some("default"), 8000.0, Some("USD"), [HoursPerDayAssumed(8)])
  {
    var roles := [Manager];
    assert data.step10.value.roles + data.step10.value.customRoles == roles;
    assert Contributes(Manager);
    assert RoleEffort(Manager, 10) == 80.0;
    assert Rate(RoleHourlyRates, "project_manager") == 100.0;
    assert RoleCost(RoleHourlyRates, Manager, 10) == 8000.0;
    assert roles[..0] == [];
    assert PhaseCost(RoleHourlyRates, roles, 10) == 8000.0;
    assert PhaseEffort(roles, 10) == 80.0;
    assert PhaseLines(RoleHourlyRates, roles, 10)
           == [RoleBreakdown("Project Manager", Number(1.0), Number(100.0), 80.0, 8000.0)];
    assert RoleNote(RoleHourlyRates, Manager) == [];
    assert RoleNotes(RoleHourlyRates, roles) == [];
    var chart := [DiscoveryEntry(m)];
    assert chart[..0] == [];
    assert SubTotal(RoleHourlyRates, chart, roles) == 8000.0;
    assert ChartNotes(RoleHourlyRates, chart, roles) == [];
    ComplexityMultipliersValues("default");
    EstimateShape(RoleHourlyRates, ComplexityMultipliers, data, chart);
  }

  /** End to end: a project starting on a Monday with one two-week
      discovery phase and one full-time project manager gets a one-entry
      schedule from that Monday to the next week's Friday and an estimate of
      80 hours and 8000 USD. */
  lemma EndToEndExample(data: ProcessedWizardData, parseDate: string -> Option<int>,
                        render: (string, TemplateData) -> string, generatePdf: PdfInput -> seq<Byte>,
                        pdf: seq<Byte>, input: PdfInput, ends: map<string, int>, m: int)
    requires data.step6.Some? && data.step6.value.phaseDurations == [Discovery]
    requires data.step6.value.projectStartDate.Some? && data.step6.value.projectStartDate.value != ""
    requires parseDate(data.step6.value.projectStartDate.value) == Some(m) && Weekday(m) == 1
    requires data.step9.None?
    requires data.step10.Some? && data.step10.value.roles == [Manager] && data.step10.value.customRoles == []
    requires Proposed(data, parseDate, render, generatePdf, pdf, input, ends)
    ensures input.ganttPhases == [DiscoveryEntry(m)]
    ensures input.costEstimation.costByPhase[0].effortHours == 80.0
    ensures input.costEstimation.subTotalEstimatedCost == 8000.0
    ensures input.costEstimation.complexityAdjustmentFactor == 1.0
    ensures input.costEstimation.totalEstimatedCost == 8000.0
    ensures input.costEstimation.currency == Some("USD")
  {
    var isMobile := IsMobileProject(data);
    assert WorkingPhases([Discovery], isMobile) == [Discovery];
    ExampleSchedule(isMobile, m, ends, input.ganttPhases);
    ExampleCost(data, m);
  }
}

=== FILE: templates.dfy ===
/** The data-dependent part of backend/src/templates/template.service.ts:
    the choice of the technical-solution template and the `notEmpty`
    helper the templates call. Loading, compiling and rendering templates
    are outside the model. */
module Templates {
  import opened Wrappers
  import opened WizardData

  const WebTemplate: string := "technicalSolution_web.md"
  const MobileTemplate: string := "technicalSolution_mobile.md"
  const BothTemplate: string := "technicalSolution_both.md"
  const GenericTemplate: string := "technicalSolution_generic.md"

  /** The application type step 1 recorded, if any. */
  function AppType(data: ProcessedWizardData): Option<string>
  {
    if data.step1.Some? then data.step1.value.applicationType else None
  }

  /** `determineTechnicalSolutionTemplate`. */
  function TechnicalSolutionTemplate(data: ProcessedWizardData): string
  {
    var appType := AppType(data);
    if appType == Some("web") then WebTemplate
    else if appType == Some("mobile") then MobileTemplate
    else if appType == Some("both") then BothTemplate
    else GenericTemplate
  }

  /** Each of the three known application types selects its own template;
      every other value, a missing one included, selects the generic one.
      The four templates are distinct, so the cases exclude each other. */
  lemma TemplateChoice(data: ProcessedWizardData)
    ensures TechnicalSolutionTemplate(data) == WebTemplate <==> AppType(data) == Some("web")
    ensures TechnicalSolutionTemplate(data) == MobileTemplate <==> AppType(data) == Some("mobile")
    ensures TechnicalSolutionTemplate(data) == BothTemplate <==> AppType(data) == Some("both")
    ensures TechnicalSolutionTemplate(data) == GenericTemplate
            <==> AppType(data) !in {Some("web"), Some("mobile"), Some("both")}
  {
    assert WebTemplate[18] == 'w' && MobileTemplate[18] == 'm' && BothTemplate[18] == 'b' && GenericTemplate[18] == 'g';
  }

  /** What a template passes to a helper: an array, or any other value. */
  datatype HelperArgument<T> = ArrayArgument(elements: seq<T>) | OtherArgument

  /** The `notEmpty` helper: the argument is an array with an element. */
  predicate NotEmpty<T>(arg: HelperArgument<T>)
  {
    arg.ArrayArgument? && |arg.elements| > 0
  }

  /** On the resourcing step, `notEmpty` of either role list fails exactly
      when the cost estimator takes its no-resourcing path. */
  lemma NotEmptyRoles(s: ProcessedStep10)
    ensures !(NotEmpty(ArrayArgument(s.roles)) || NotEmpty(ArrayArgument(s.customRoles)))
            <==> |s.roles| == 0 && |s.customRoles| == 0
  {
  }
}

=== FILE: wizard_data.dfy ===
/** Normalisation of the wizard answers
    (backend/src/wizard-data/wizard-data-processing.service.ts): the raw form
    of the ten wizard steps is turned into the processed record that the
    scheduler, the estimator and the templates read. Optional fields are
    `Option`s; an empty string stands for a falsy one where the source tests
    `x || fallback`. */
module WizardData {
  import opened Wrappers
  import opened Catalog

  /** A quantity or FTE as submitted: a JSON number or a string. */
  datatype Amount = Number(value: real) | Text(text: string)

  // ---------------------------------------------------------------------
  // Raw form (wizard-form-data.dto.ts)
  // ---------------------------------------------------------------------

  datatype Step1Form = Step1Form(applicationType: Option<string>, mobilePlatforms: Option<seq<string>>)
  datatype Step2Form = Step2Form(industry: Option<string>, otherIndustry: Option<string>)
  /** `selectedModules` is an object from main-module id to sub-module ids,
      given here as its entries in enumeration order. */
  datatype Step3Form = Step3Form(selectedModules: Option<seq<(string, Option<seq<string>>)>>,
                                 otherModulesText: Option<string>)
  datatype Step4Form = Step4Form(selectedIntegrations: Option<seq<string>>, otherIntegrationsText: Option<string>)
  datatype Step5Form = Step5Form(deploymentEnvironment: Option<string>, preferredRegion: Option<string>)
  /** `phaseDurations` is an object from phase id to duration text, given
      here as its entries in enumeration order (so with distinct keys, see
      `KeysDistinct`). */
  datatype Step6Form = Step6Form(projectStartDate: Option<string>, projectCompletionDate: Option<string>,
                                 phaseDurations: Option<seq<(string, string)>>)
  /** The step-7 fields that processing copies unchanged. */
  datatype Localization = Localization(
    europeCountries: Option<string>, africaCountries: Option<string>,
    multiLanguageSupport: Option<bool>, selectedLanguages: Option<seq<string>>, otherLanguage: Option<string>,
    currencyLocalization: Option<bool>, selectedCurrencies: Option<seq<string>>, otherCurrency: Option<string>,
    timezoneSupport: Option<bool>)
  datatype Step7Form = Step7Form(targetRegions: Option<seq<string>>, details: Localization)
  datatype Step8Form = Step8Form(selectedComplianceOptions: Option<seq<string>>, otherComplianceText: Option<string>)
  datatype Step9Form = Step9Form(
    pricingModel: Option<string>, projectComplexity: Option<string>, paymentTerms: Option<string>,
    otherPaymentTerms: Option<string>, proposalCurrency: Option<string>, preferredBudgetRange: Option<string>,
    ongoingMaintenance: Option<bool>, supportLevel: Option<string>, supportDuration: Option<string>)
  datatype RoleForm = RoleForm(roleId: string, roleName: Option<string>, quantity: Amount, fte: Amount,
                               isSelected: Option<bool>)
  datatype Step10Form = Step10Form(roles: Option<seq<RoleForm>>, customRoles: Option<seq<RoleForm>>,
                                   teamLocationPreference: Option<string>)

  datatype WizardForm = WizardForm(
    step1: Option<Step1Form>, step2: Option<Step2Form>, step3: Option<Step3Form>, step4: Option<Step4Form>,
    step5: Option<Step5Form>, step6: Option<Step6Form>, step7: Option<Step7Form>, step8: Option<Step8Form>,
    step9: Option<Step9Form>, step10: Option<Step10Form>)

  // ---------------------------------------------------------------------
  // Processed record
  // ---------------------------------------------------------------------

  datatype ProcessedStep1 = ProcessedStep1(applicationType: Option<string>, applicationTypeName: string,
                                           mobilePlatforms: Option<seq<string>>)
  datatype ProcessedModule = ProcessedModule(id: string, name: string, subModules: seq<NamedOption>)
  datatype ProcessedStep3 = ProcessedStep3(selectedModules: seq<ProcessedModule>, otherModulesText: Option<string>)
  datatype ProcessedStep4 = ProcessedStep4(selectedIntegrations: seq<NamedOption>, otherIntegrationsText: Option<string>)
  datatype ProcessedStep5 = ProcessedStep5(deploymentEnvironment: Option<string>,
                                           deploymentEnvironmentName: Option<string>,
                                           preferredRegion: Option<string>)
  /** A phase of the plan; `duration == ""` stands for a missing duration. */
  datatype ProcessedPhase = ProcessedPhase(id: string, name: string, duration: string)
  datatype ProcessedStep6 = ProcessedStep6(projectStartDate: Option<string>, projectCompletionDate: Option<string>,
                                           phaseDurations: seq<ProcessedPhase>)
  datatype ProcessedStep7 = ProcessedStep7(targetRegions: seq<NamedOption>, details: Localization)
  datatype ProcessedStep8 = ProcessedStep8(selectedComplianceOptions: seq<NamedOption>,
                                           otherComplianceText: Option<string>)
  datatype ProcessedStep9 = ProcessedStep9(form: Step9Form, pricingModelName: Option<string>,
                                           projectComplexityName: Option<string>,
                                           supportLevelName: Option<string>, supportDurationName: Option<string>)
  datatype ProcessedRole = ProcessedRole(roleId: string, roleName: string, quantity: Amount, fte: Amount)
  datatype ProcessedStep10 = ProcessedStep10(roles: seq<ProcessedRole>, customRoles: seq<ProcessedRole>,
                                             teamLocationPreference: Option<string>,
                                             teamLocationPreferenceName: Option<string>)

  datatype ProcessedWizardData = ProcessedWizardData(
    step1: Option<ProcessedStep1>, step2: Option<Step2Form>, step3: Option<ProcessedStep3>,
    step4: Option<ProcessedStep4>, step5: Option<ProcessedStep5>, step6: Option<ProcessedStep6>,
    step7: Option<ProcessedStep7>, step8: Option<ProcessedStep8>, step9: Option<ProcessedStep9>,
    step10: Option<ProcessedStep10>)

  /** The option tables processing reads besides the ones transcribed in
      `Catalog` (functional modules, integrations, deployment options,
      regions, compliance options, pricing models, support levels and
      support durations). */
  datatype ModuleInfo = ModuleInfo(id: string, name: string, subModules: Option<seq<NamedOption>>)
  datatype NameTables = NameTables(
    functionalModules: seq<ModuleInfo>, integrations: seq<NamedOption>, deploymentOptions: seq<NamedOption>,
    targetRegions: seq<NamedOption>, complianceOptions: seq<NamedOption>, pricingModels: seq<NamedOption>,
    supportLevels: seq<NamedOption>, supportDurations: seq<NamedOption>)

  // ---------------------------------------------------------------------
  // Step 1
  // ---------------------------------------------------------------------

  /** The display name of the application type. */
  function ApplicationTypeName(appType: Option<string>): (r: string)
    ensures r == "Web Application" <==> appType == Some("web")
    ensures r == "Mobile Application" <==> appType == Some("mobile")
    ensures r == "Both Web & Mobile" <==> appType == Some("both")
    ensures r == "" <==> appType !in {Some("web"), Some("mobile"), Some("both")}
  {
    if appType == Some("web") then "Web Application"
    else if appType == Some("mobile") then "Mobile Application"
    else if appType == Some("both") then "Both Web & Mobile"
    else ""
  }

  /** `toUpperCase` on the ASCII letters. */
  function Upper(c: char): (r: char)
    ensures !('a' <= r <= 'z')
    ensures !('a' <= c <= 'z') ==> r == c
    ensures 'a' <= c <= 'z' ==> r as int + 32 == c as int
  {
    if 'a' <= c <= 'z' then (c as int - 32) as char else c
  }

  function UpperCase(s: string): (r: string)
    ensures |r| == |s| && forall i :: 0 <= i < |s| ==> r[i] == Upper(s[i])
  {
    if s == [] then [] else [Upper(s[0])] + UpperCase(s[1..])
  }

  function UpperAll(ps: seq<string>): (r: seq<string>)
    ensures |r| == |ps| && forall i :: 0 <= i < |ps| ==> r[i] == UpperCase(ps[i])
  {
    if ps == [] then [] else [UpperCase(ps[0])] + UpperAll(ps[1..])
  }

  function ProcessStep1(f: Step1Form): (r: ProcessedStep1)
  {
    ProcessedStep1(f.applicationType, ApplicationTypeName(f.applicationType),
                   match f.mobilePlatforms case None => None case Some(ps) => Some(UpperAll(ps)))
  }

  // ---------------------------------------------------------------------
  // Steps 3, 4, 5, 7, 8 and 9: id-to-name enrichment
  // ---------------------------------------------------------------------

  /** Each id paired with its table name, or with itself when the table has
      no (non-empty) name for it. */
  function Enrich(table: seq<NamedOption>, ids: seq<string>): (r: seq<NamedOption>)
    ensures |r| == |ids|
    ensures forall k :: 0 <= k < |ids| ==> r[k].id == ids[k]
    ensures forall k :: 0 <= k < |ids| ==> r[k].name != "" || ids[k] == ""
    ensures forall k :: 0 <= k < |ids| ==>
              if NameOf(table, ids[k]).Some? && NameOf(table, ids[k]).value != ""
              then r[k].name == NameOf(table, ids[k]).value else r[k].name == ids[k]
  {
    if ids == [] then []
    else [NamedOption(ids[0], OrElse(NameOf(table, ids[0]), ids[0]))] + Enrich(table, ids[1..])
  }

  /** `functionalModulesData.find(m => m.id === id)`. */
  function FindModule(table: seq<ModuleInfo>, id: string): Option<ModuleInfo>
  {
    FindBy(table, (m: ModuleInfo) => m.id, id)
  }

  /** The sub-modules of a known main module, each named by the module's own
      sub-module list or by its id. */
  function SubModules(def: ModuleInfo, subIds: seq<string>): (r: seq<NamedOption>)
    ensures |r| == |subIds|
    ensures forall k :: 0 <= k < |subIds| ==> r[k].id == subIds[k]
    ensures def.subModules.None? ==> forall k :: 0 <= k < |subIds| ==> r[k].name == subIds[k]
    ensures forall k :: 0 <= k < |subIds| ==>
              var known := NameOf(def.subModules.GetOr([]), subIds[k]);
              if known.Some? && known.value != "" then r[k].name == known.value else r[k].name == subIds[k]
  {
    Enrich(def.subModules.GetOr([]), subIds)
  }

  /** Some module in `r` carries the id (see `KeptAt`). */
  predicate Kept(r: seq<ProcessedModule>, id: string)
    decreases |r|
  {
    r != [] && (r[|r| - 1].id == id || Kept(r[..|r| - 1], id))
  }

  lemma {:induction false} KeptAt(r: seq<ProcessedModule>, id: string)
    ensures Kept(r, id) <==> exists i :: 0 <= i < |r| && r[i].id == id
    decreases |r|
  {
    if r != [] {
      var r' := r[..|r| - 1];
      KeptAt(r', id);
      assert forall i :: 0 <= i < |r'| ==> r'[i] == r[i];
    }
  }

  /** What one entry yields: its module, with the catalog name and its named
      sub-modules, when the catalog knows its id, and nothing otherwise. */
  function ModuleOf(table: seq<ModuleInfo>, entry: (string, Option<seq<string>>)): seq<ProcessedModule>
  {
    match FindModule(table, entry.0)
    case None => []
    case Some(def) => [ProcessedModule(entry.0, def.name, SubModules(def, entry.1.GetOr([])))]
  }

  /** The selected main modules in entry order; an entry whose id the table
      does not know is dropped. */
  function ProcessModules(table: seq<ModuleInfo>, entries: seq<(string, Option<seq<string>>)>): (r: seq<ProcessedModule>)
    ensures |r| <= |entries|
    ensures forall m :: m in r ==> FindModule(table, m.id).Some? && m.name == FindModule(table, m.id).value.name
    ensures forall m :: m in r ==> exists e :: e in entries && ModuleOf(table, e) == [m]
    ensures forall k :: 0 <= k < |entries| && FindModule(table, entries[k].0).Some? ==> Kept(r, entries[k].0)
    ensures (forall k :: 0 <= k < |entries| ==> FindModule(table, entries[k].0).None?) ==> r == []
  {
    if entries == [] then []
    else
      var init := ProcessModules(table, entries[..|entries| - 1]);
      var extra := ModuleOf(table, entries[|entries| - 1]);
      assert forall k :: 0 <= k < |entries| - 1 ==> entries[k] == entries[..|entries| - 1][k];
      ModulesSnoc(table, entries, init, extra);
      KeptSnoc(table, entries, init, extra);
      init + extra
  }

  /** Appending the module of the last entry keeps every known entry's id
      present. */
  lemma KeptSnoc(table: seq<ModuleInfo>, entries: seq<(string, Option<seq<string>>)>,
                 init: seq<ProcessedModule>, extra: seq<ProcessedModule>)
    requires entries != []
    requires forall k :: 0 <= k < |entries| - 1 && FindModule(table, entries[k].0).Some? ==> Kept(init, entries[k].0)
    requires extra == ModuleOf(table, entries[|entries| - 1])
    ensures forall k :: 0 <= k < |entries| && FindModule(table, entries[k].0).Some? ==> Kept(init + extra, entries[k].0)
  {
    if extra != [] {
      assert (init + extra)[..|init + extra| - 1] == init;
      assert (init + extra)[|init + extra| - 1] == extra[0];
    } else {
      assert init + extra == init;
    }
  }

  /** Appending the last entry's module keeps every module traceable to the
      entry that yields it. */
  lemma ModulesSnoc(table: seq<ModuleInfo>, entries: seq<(string, Option<seq<string>>)>,
                    init: seq<ProcessedModule>, extra: seq<ProcessedModule>)
    requires entries != []
    requires forall m :: m in init ==> exists e :: e in entries[..|entries| - 1] && ModuleOf(table, e) == [m]
    requires extra == ModuleOf(table, entries[|entries| - 1])
    ensures forall m :: m in init + extra ==> exists e :: e in entries && ModuleOf(table, e) == [m]
  {
    forall m | m in init + extra
      ensures exists e :: e in entries && ModuleOf(table, e) == [m]
    {
      if m in init {
        var e :| e in entries[..|entries| - 1] && ModuleOf(table, e) == [m];
        assert e in entries;
      } else {
        assert extra == [m];
      }
    }
  }

  /** The selected modules distribute over concatenated entries, so the kept
      modules follow entry order. */
  lemma {:induction false} ProcessModulesAppend(table: seq<ModuleInfo>, a: seq<(string, Option<seq<string>>)>,
                                                b: seq<(string, Option<seq<string>>)>)
    ensures ProcessModules(table, a + b) == ProcessModules(table, a) + ProcessModules(table, b)
    decreases |b|
  {
    if b == [] {
      assert a + b == a;
    } else {
      var b' := b[..|b| - 1];
      var e := b[|b| - 1];
      assert (a + b)[..|a + b| - 1] == a + b';
      assert (a + b)[|a + b| - 1] == e;
      assert ProcessModules(table, a + b) == ProcessModules(table, a + b') + ModuleOf(table, e);
      assert ProcessModules(table, b) == ProcessModules(table, b') + ModuleOf(table, e);
      ProcessModulesAppend(table, a, b');
      ModulesAssociate(ProcessModules(table, a), ProcessModules(table, b'), ModuleOf(table, e));
    }
  }

  lemma ModulesAssociate(x: seq<ProcessedModule>, y: seq<ProcessedModule>, z: seq<ProcessedModule>)
    ensures (x + y) + z == x + (y + z)
  {
  }

  /** A single entry yields its module, with the catalog name and its named
      sub-modules, when the catalog knows its id, and nothing otherwise. */
  lemma ProcessModulesOfOne(table: seq<ModuleInfo>, entry: (string, Option<seq<string>>))
    ensures ProcessModules(table, [entry])
            == match FindModule(table, entry.0)
               case None => []
               case Some(def) => [ProcessedModule(entry.0, def.name, SubModules(def, entry.1.GetOr([])))]
  {
    assert [entry][..0] == [];
  }

  function ProcessStep3(f: Step3Form, tables: NameTables): ProcessedStep3
  {
    ProcessedStep3(ProcessModules(tables.functionalModules, f.selectedModules.GetOr([])), f.otherModulesText)
  }

  function ProcessStep4(f: Step4Form, tables: NameTables): ProcessedStep4
  {
    ProcessedStep4(Enrich(tables.integrations, f.selectedIntegrations.GetOr([])), f.otherIntegrationsText)
  }

  function ProcessStep5(f: Step5Form, tables: NameTables): ProcessedStep5
  {
    ProcessedStep5(f.deploymentEnvironment, NameOfOpt(tables.deploymentOptions, f.deploymentEnvironment),
                   f.preferredRegion)
  }

  function ProcessStep7(f: Step7Form, tables: NameTables): ProcessedStep7
  {
    ProcessedStep7(Enrich(tables.targetRegions, f.targetRegions.GetOr([])), f.details)
  }

  function ProcessStep8(f: Step8Form, tables: NameTables): ProcessedStep8
  {
    ProcessedStep8(Enrich(tables.complianceOptions, f.selectedComplianceOptions.GetOr([])), f.otherComplianceText)
  }

  function ProcessStep9(f: Step9Form, tables: NameTables): ProcessedStep9
  {
    ProcessedStep9(f, NameOfOpt(tables.pricingModels, f.pricingModel),
                   NameOfOpt(ComplexityOptions, f.projectComplexity),
                   NameOfOpt(tables.supportLevels, f.supportLevel),
                   NameOfOpt(tables.supportDurations, f.supportDuration))
  }

  // ---------------------------------------------------------------------
  // Step 6: the phase list
  // ---------------------------------------------------------------------

  /** `w` occurs in `s` at position `i`. */
  predicate OccursAt(s: string, w: string, i: int)
  {
    0 <= i && i + |w| <= |s| && s[i..i + |w|] == w
  }

  /** `s.match(/w/)` for a plain word `w`: `w` occurs somewhere in `s`. */
  predicate Contains(s: string, w: string)
  {
    exists i :: 0 <= i <= |s| && OccursAt(s, w, i)
  }

  /** `applicationType?.match(/mobile|both/)`. */
  predicate MobileLike(appType: Option<string>)
  {
    appType.Some? && (Contains(appType.value, "mobile") || Contains(appType.value, "both"))
  }

  /** The one entry the loop skips: the mobile phase with no duration in a
      project whose type does not mention mobile. */
  predicate Dropped(entry: (string, string), mobileLike: bool)
  {
    entry.0 == "development_mobile" && !mobileLike && entry.1 == ""
  }

  /** The phase an entry becomes: catalog name or id, and the given duration,
      else the catalog default, else `'N/A'`. */
  function PhaseOf(catalog: seq<PhaseInfo>, entry: (string, string)): ProcessedPhase
  {
    var (id, duration) := entry;
    var info := FindPhase(catalog, id);
    ProcessedPhase(id,
                   OrElse(match info case None => None case Some(i) => Some(i.name), id),
                   if duration != "" then duration
                   else OrElse(match info case None => None case Some(i) => Some(i.defaultDuration), "N/A"))
  }

  /** A phase keeps its id and always has a duration; name and duration come
      from the catalog when the id is known, and fall back to the id and to
      `'N/A'` otherwise. */
  lemma PhaseOfFallbacks(catalog: seq<PhaseInfo>, entry: (string, string))
    ensures PhaseOf(catalog, entry).id == entry.0 && PhaseOf(catalog, entry).duration != ""
    ensures entry.1 != "" ==> PhaseOf(catalog, entry).duration == entry.1
    ensures FindPhase(catalog, entry.0).Some? && FindPhase(catalog, entry.0).value.name != "" ==>
              PhaseOf(catalog, entry).name == FindPhase(catalog, entry.0).value.name
    ensures FindPhase(catalog, entry.0).Some? && FindPhase(catalog, entry.0).value.defaultDuration != "" ==>
              (entry.1 == "" ==> PhaseOf(catalog, entry).duration == FindPhase(catalog, entry.0).value.defaultDuration)
    ensures FindPhase(catalog, entry.0).None? ==>
              PhaseOf(catalog, entry).name == entry.0 && (entry.1 == "" ==> PhaseOf(catalog, entry).duration == "N/A")
  {
  }

  /** The phase list the step-6 loop builds from the entries. */
  function PhaseList(catalog: seq<PhaseInfo>, entries: seq<(string, string)>, mobileLike: bool): (r: seq<ProcessedPhase>)
    ensures |r| <= |entries|
  {
    if entries == [] then []
    else
      var last := entries[|entries| - 1];
      PhaseList(catalog, entries[..|entries| - 1], mobileLike)
      + (if Dropped(last, mobileLike) then [] else [PhaseOf(catalog, last)])
  }

  /** The step-6 loop over `Object.entries(phaseDurations)`. */
  method BuildPhaseList(catalog: seq<PhaseInfo>, entries: seq<(string, string)>, mobileLike: bool)
    returns (phases: seq<ProcessedPhase>)
    ensures phases == PhaseList(catalog, entries, mobileLike)
    ensures forall p :: p in phases ==> p.duration != ""
  {
    phases := [];
    for i := 0 to |entries|
      invariant phases == PhaseList(catalog, entries[..i], mobileLike)
      invariant forall p :: p in phases ==> p.duration != ""
    {
      var (id, duration) := entries[i];
      assert entries[..i + 1][..i] == entries[..i];
      if id == "development_mobile" && !mobileLike {
        if duration == "" {
          continue;
        }
      }
      PhaseOfFallbacks(catalog, (id, duration));
      phases := phases + [PhaseOf(catalog, (id, duration))];
    }
    assert entries[..|entries|] == entries;
  }

  /** The phase list keeps the entry order: the list of a concatenation is
      the concatenation of the lists. */
  lemma {:induction false} PhaseListAppend(catalog: seq<PhaseInfo>, a: seq<(string, string)>,
                                           b: seq<(string, string)>, mobileLike: bool)
    ensures PhaseList(catalog, a + b, mobileLike)
            == PhaseList(catalog, a, mobileLike) + PhaseList(catalog, b, mobileLike)
    decreases |b|
  {
    if b == [] {
      assert a + b == a;
    } else {
      var b' := b[..|b| - 1];
      assert (a + b)[..|a + b| - 1] == a + b';
      assert (a + b)[|a + b| - 1] == b[|b| - 1];
      PhaseListAppend(catalog, a, b', mobileLike);
    }
  }

  /** Every entry yields its phase, except a dropped one, which yields nothing. */
  lemma PhaseListOfOne(catalog: seq<PhaseInfo>, entry: (string, string), mobileLike: bool)
    ensures PhaseList(catalog, [entry], mobileLike)
            == if Dropped(entry, mobileLike) then [] else [PhaseOf(catalog, entry)]
  {
    assert [entry][..0] == [];
  }

  /** When no entry is dropped (always so for a mobile project), the list has
      exactly one phase per entry, in entry order. */
  lemma {:induction false} PhaseListOnePerEntry(catalog: seq<PhaseInfo>, entries: seq<(string, string)>,
                                                mobileLike: bool)
    requires forall k :: 0 <= k < |entries| ==> !Dropped(entries[k], mobileLike)
    ensures |PhaseList(catalog, entries, mobileLike)| == |entries|
    ensures forall k :: 0 <= k < |entries| ==>
              PhaseList(catalog, entries, mobileLike)[k] == PhaseOf(catalog, entries[k])
  {
    if entries != [] {
      var init := entries[..|entries| - 1];
      assert forall k :: 0 <= k < |init| ==> init[k] == entries[k];
      PhaseListOnePerEntry(catalog, init, mobileLike);
    }
  }

  /** A dropped entry (an empty `development_mobile` entry of a non-mobile
      project) yields no phase, wherever it stands. */
  lemma PhaseListSkipsDropped(catalog: seq<PhaseInfo>, a: seq<(string, string)>, e: (string, string),
                              b: seq<(string, string)>, mobileLike: bool)
    requires Dropped(e, mobileLike)
    ensures PhaseList(catalog, a + [e] + b, mobileLike)
            == PhaseList(catalog, a, mobileLike) + PhaseList(catalog, b, mobileLike)
  {
    PhaseListAppend(catalog, a + [e], b, mobileLike);
    PhaseListAppend(catalog, a, [e], mobileLike);
    PhaseListOfOne(catalog, e, mobileLike);
  }

  /** The entries of an object: no key occurs twice. */
  predicate KeysDistinct(entries: seq<(string, string)>)
  {
    forall i, j :: 0 <= i < j < |entries| ==> entries[i].0 != entries[j].0
  }

  function Keys(entries: seq<(string, string)>): set<string>
  {
    set e | e in entries :: e.0
  }

  predicate IdsDistinct(ps: seq<ProcessedPhase>)
  {
    forall i, j :: 0 <= i < j < |ps| ==> ps[i].id != ps[j].id
  }

  /** Every phase of the list carries the key of an entry, and the list of
      the entries of an object has no id twice. */
  lemma {:induction false} PhaseListIds(catalog: seq<PhaseInfo>, entries: seq<(string, string)>, mobileLike: bool)
    ensures forall p :: p in PhaseList(catalog, entries, mobileLike) ==> p.id in Keys(entries)
    ensures KeysDistinct(entries) ==> IdsDistinct(PhaseList(catalog, entries, mobileLike))
  {
    if entries != [] {
      var init := entries[..|entries| - 1];
      var last := entries[|entries| - 1];
      PhaseListIds(catalog, init, mobileLike);
      PhaseOfFallbacks(catalog, last);
      assert forall e :: e in init ==> e in entries;
      if KeysDistinct(entries) {
        assert KeysDistinct(init);
        assert last.0 !in Keys(init) by {
          forall e | e in init ensures e.0 != last.0 {
            var k :| 0 <= k < |init| && init[k] == e;
            assert entries[k] == e;
          }
        }
      }
    }
  }

  function ProcessStep6(f: Step6Form, mobileLike: bool): ProcessedStep6
  {
    ProcessedStep6(f.projectStartDate, f.projectCompletionDate,
                   match f.phaseDurations case None => [] case Some(es) => PhaseList(ProjectPhases, es, mobileLike))
  }

  // ---------------------------------------------------------------------
  // Step 10: the role lists
  // ---------------------------------------------------------------------

  predicate IsSelected(r: RoleForm)
  {
    r.isSelected == Some(true)
  }

  /** A selected standard role, named by the catalog, else by its own name,
      else by its id. */
  function NamedStandardRole(r: RoleForm): (p: ProcessedRole)
    ensures p.roleId == r.roleId && p.quantity == r.quantity && p.fte == r.fte
    ensures NameOf(StandardRoles, r.roleId).Some? ==> p.roleName == NameOf(StandardRoles, r.roleId).value
    ensures NameOf(StandardRoles, r.roleId).None? ==> p.roleName == OrElse(r.roleName, r.roleId)
  {
    StandardRoleNamesNonEmpty();
    ProcessedRole(r.roleId, OrElse(NameOf(StandardRoles, r.roleId), OrElse(r.roleName, r.roleId)),
                  r.quantity, r.fte)
  }

  /** `roles.filter(r => r.isSelected).map(...)`. */
  function SelectedRoles(roles: seq<RoleForm>): (r: seq<ProcessedRole>)
    ensures |r| <= |roles|
    ensures forall x :: x in r ==> exists y :: y in roles && IsSelected(y) && x == NamedStandardRole(y)
    ensures forall y :: y in roles && IsSelected(y) ==> NamedStandardRole(y) in r
  {
    if roles == [] then []
    else
      var init := roles[..|roles| - 1];
      var last := roles[|roles| - 1];
      assert roles == init + [last];
      SelectedRoles(init) + if IsSelected(last) then [NamedStandardRole(last)] else []
  }

  /** The selected roles keep their relative order. */
  lemma {:induction false} SelectedRolesAppend(a: seq<RoleForm>, b: seq<RoleForm>)
    ensures SelectedRoles(a + b) == SelectedRoles(a) + SelectedRoles(b)
    decreases |b|
  {
    if b == [] {
      assert a + b == a;
    } else {
      var b' := b[..|b| - 1];
      assert (a + b)[..|a + b| - 1] == a + b';
      assert (a + b)[|a + b| - 1] == b[|b| - 1];
      SelectedRolesAppend(a, b');
    }
  }

  const UnnamedCustomRole := "Unnamed Custom Role"

  /** `customRoles.map(cr => ({...cr, roleName: cr.roleName || 'Unnamed Custom Role'}))`. */
  function NamedCustomRoles(roles: seq<RoleForm>): (r: seq<ProcessedRole>)
    ensures |r| == |roles|
    ensures forall k :: 0 <= k < |roles| ==>
              r[k].roleId == roles[k].roleId && r[k].quantity == roles[k].quantity && r[k].fte == roles[k].fte
    ensures forall k :: 0 <= k < |roles| ==> r[k].roleName != ""
    ensures forall k :: 0 <= k < |roles| ==>
              if roles[k].roleName.Some? && roles[k].roleName.value != ""
              then r[k].roleName == roles[k].roleName.value else r[k].roleName == UnnamedCustomRole
  {
    if roles == [] then []
    else [ProcessedRole(roles[0].roleId, OrElse(roles[0].roleName, UnnamedCustomRole), roles[0].quantity, roles[0].fte)]
         + NamedCustomRoles(roles[1..])
  }

  function ProcessStep10(f: Step10Form): ProcessedStep10
  {
    ProcessedStep10(SelectedRoles(f.roles.GetOr([])), NamedCustomRoles(f.customRoles.GetOr([])),
                    f.teamLocationPreference, NameOfOpt(TeamLocations, f.teamLocationPreference))
  }

  // ---------------------------------------------------------------------
  // The whole record
  // ---------------------------------------------------------------------

  /** `WizardDataProcessingService.process`: every step present in the form
      is processed, every absent step stays absent. */
  method Process(form: WizardForm, tables: NameTables) returns (r: ProcessedWizardData)
    requires form.step6.Some? && form.step6.value.phaseDurations.Some? ==>
               KeysDistinct(form.step6.value.phaseDurations.value)
    ensures r.step1 == if form.step1.Some? then Some(ProcessStep1(form.step1.value)) else None
    ensures r.step2 == form.step2
    ensures r.step3 == if form.step3.Some? then Some(ProcessStep3(form.step3.value, tables)) else None
    ensures r.step4 == if form.step4.Some? then Some(ProcessStep4(form.step4.value, tables)) else None
    ensures r.step5 == if form.step5.Some? then Some(ProcessStep5(form.step5.value, tables)) else None
    ensures r.step6 == if form.step6.Some?
                       then Some(ProcessStep6(form.step6.value,
                                              MobileLike(if form.step1.Some? then form.step1.value.applicationType else None)))
                       else None
    ensures r.step7 == if form.step7.Some? then Some(ProcessStep7(form.step7.value, tables)) else None
    ensures r.step8 == if form.step8.Some? then Some(ProcessStep8(form.step8.value, tables)) else None
    ensures r.step9 == if form.step9.Some? then Some(ProcessStep9(form.step9.value, tables)) else None
    ensures r.step10 == if form.step10.Some? then Some(ProcessStep10(form.step10.value)) else None
    ensures r.step6.Some? ==> IdsDistinct(r.step6.value.phaseDurations)
  {
    var step6: Option<ProcessedStep6> := None;
    if form.step6.Some? {
      var f := form.step6.value;
      var phases: seq<ProcessedPhase> := [];
      if f.phaseDurations.Some? {
        var mobileLike := MobileLike(if form.step1.Some? then form.step1.value.applicationType else None);
        phases := BuildPhaseList(ProjectPhases, f.phaseDurations.value, mobileLike);
        PhaseListIds(ProjectPhases, f.phaseDurations.value, mobileLike);
      }
      step6 := Some(ProcessedStep6(f.projectStartDate, f.projectCompletionDate, phases));
    }
    r := ProcessedWizardData(
      if form.step1.Some? then Some(ProcessStep1(form.step1.value)) else None,
      form.step2,
      if form.step3.Some? then Some(ProcessStep3(form.step3.value, tables)) else None,
      if form.step4.Some? then Some(ProcessStep4(form.step4.value, tables)) else None,
      if form.step5.Some? then Some(ProcessStep5(form.step5.value, tables)) else None,
      step6,
      if form.step7.Some? then Some(ProcessStep7(form.step7.value, tables)) else None,
      if form.step8.Some? then Some(ProcessStep8(form.step8.value, tables)) else None,
      if form.step9.Some? then Some(ProcessStep9(form.step9.value, tables)) else None,
      if form.step10.Some? then Some(ProcessStep10(form.step10.value)) else None);
  }
}

=== FILE: wrappers.dfy ===
/** Optional values, used wherever the source has `undefined` fields, and
    JavaScript's `||` fallback on strings. */
module Wrappers {

  datatype Option<+T> = None | Some(value: T) {
    /** JavaScript's `x ?? d` for a field that is either absent or present. */
    function GetOr(default: T): T {
      match this
      case Some(v) => v
      case None => default
    }
  }

  /** JavaScript's `s || d` for an optional string: an absent or empty string
      is falsy and yields the fallback. */
  function OrElse(s: Option<string>, fallback: string): string {
    if s.Some? && s.value != "" then s.value else fallback
  }

  /** `s || d` for a plain string. */
  function Or(s: string, fallback: string): string {
    if s != "" then s else fallback
  }
}
